=== FILE: README.md ===
# monolog core, modelled in Dafny

This project models the core of the monolog PHP framework as pure Dafny
functions and proves properties of them. The core is the template directive
engine, the input validator, the flash-message store, CSRF protection, the
router, the request object, the `.env` reader, image storage, and the SQL text
that the migration, model and database-factory helpers build.

## Modules

- `Strings`: the PHP string functions the core relies on, each with its
  contract. These are `trim`, `ltrim`/`rtrim`, `strpos`, `explode`,
  `implode`, `str_replace`, `strtolower` and the `(int)` cast.
- `Wrappers`: `Option` and `Result`. An exception the source throws is an
  `Err` carrying the exception's message.
- `Scan`: `preg_replace_callback` and `preg_match_all` as a left-to-right
  scan. At each position a matcher either recognises a directive or the
  character is copied. `RewriteState` threads state through the callbacks,
  which is how `@message` consumes flash messages.
- `Syntax`: one deterministic matcher per regular expression of
  `DirectiveProcessor`. Each has lemmas saying which texts it recognises and
  exactly what it captures.
- `Context`: the data array a template is rendered with. Its values are
  null, a string, or a list of items, where an item is a scalar or a row of
  fields.
- `Stages`: the stages of `DirectiveProcessor::process`, one by one:
  - messages, variables and loops;
  - conditionals and switch/case;
  - assets, images, errors and the CSRF field;
  - the parameter parser of `@component`.
- `Engine`: `process` as the composition of the stages, and `Component`.
  - A component template runs through the whole pipeline again.
  - The source puts no bound on that recursion. The model adds a `fuel`
    argument: a render nested deeper than the fuel ends in `Exhausted`.
  - The `*Monotone` lemmas show that more fuel never changes a render that
    finished.
- `View`: `render`, `loadTemplate`, `layout` and `renderLayout`. `render`
  pastes the processed template into the layout as it is, while `layout`
  runs the combined text through the pipeline a second time.
- `Flash`, `Crsf`, `CrsfMiddleware`, `Validator`, `Router`, `Request`, `Env`,
  `Storage`, `Database`, `Migration`, `Model`: the class of the same name.

## What the model takes as parameters

Everything outside the PHP code itself is an explicit parameter:

- The file system is a map from paths to texts (`Site.files`), or an
  `Option` for a file that may be missing.
- The clock is a number.
- The random token is a string.
- The session is a value that an operation takes in and hands back.
- The `eval` of an `@if` condition is a function `cond: string -> bool`.
- The HTML page that `Exception::render` prints is a function of the
  exception's message (`fragment`).
- The `csrf_token()` helper is not part of this model. The token it returns
  is `Site.token`.

## Model

| member | source | states |
|---|---|---|
| Flash.SetMessage | src/app/http/Response.php:140-148 | the name now holds the new message, every other stored message is kept, and nothing else is added |
| Flash.GetMessage | src/app/http/Response.php:156-169 | a message is returned exactly when one is stored under the name; it is removed and every other entry is kept |
| Flash.GetAfterSet | src/app/http/Response.php:140-169 | reading right after `setMessage` returns the message just set and leaves the store as a plain read would |
| Flash.GetTwice | src/app/http/Response.php:162-167 | a second read right after the first returns null and changes nothing: a message is handed out once |
| Flash.GetAbsent | src/app/http/Response.php:162-164 | reading an absent name returns null and leaves the store unchanged |
| Flash.HasIsGet | src/app/http/Response.php:177-183 | `hasMessage` is true exactly when `getMessage` would return a message |
| Flash.OtherNames | src/app/http/Response.php:145-167 | setting or consuming one name does not change what another name returns |
| Crsf.Construct | src/app/helpers/crsf/Crsf.php:28-50 | a missing token is generated and stamped; a token older than 600 seconds is replaced; otherwise the session is kept; the object holds the session's token |
| Crsf.ValidateToken | src/app/helpers/crsf/Crsf.php:79-82 | true exactly when a session token is set and is identical to the given one |
| Crsf.KeptAtLifetime | src/app/helpers/crsf/Crsf.php:42 | a token exactly 600 seconds old is kept, because the comparison is strict |
| Crsf.ReplacedAfterLifetime | src/app/helpers/crsf/Crsf.php:42-45 | a token 601 seconds old is replaced by the generated one |
| Crsf.ConstructTwice | src/app/helpers/crsf/Crsf.php:35-49 | constructing again at the same moment keeps the token and the session the first construction left |
| Crsf.TokenValidates | src/app/helpers/crsf/Crsf.php:49-82 | the token `getToken` reports after construction is accepted by `validateToken` |
| CrsfMiddleware.Handle | src/app/middlewares/web/EnsureApplicationCrsfToken.php:36-48 | non-POST passes untouched; a POST with a missing or falsy token is rejected without constructing; otherwise it passes exactly when the input equals the token after construction |
| CrsfMiddleware.FreshFormAccepted | src/app/middlewares/web/EnsureApplicationCrsfToken.php:41-48 | a form posting the session's token within its lifetime is accepted and the session is unchanged |
| CrsfMiddleware.StaleFormRejected | src/app/middlewares/web/EnsureApplicationCrsfToken.php:43-45 | after the lifetime the old token is rejected and the session holds the newly generated one |
| CrsfMiddleware.PostAccepted | src/app/middlewares/web/EnsureApplicationCrsfToken.php:39-48 | a POST passes exactly when its input is truthy and equals the session token after construction |
| Router.Lookup | src/app/http/Router.php:94 | the route found is in the table under that pattern, and none is found exactly when no route has the pattern |
| Router.Register | src/app/http/Router.php:94-97 | an existing pattern keeps its place and takes the new callback and middlewares; a new pattern goes last; no other route changes |
| Router.Key | src/app/http/Router.php:89-91 | inside a group with a truthy prefix the route is stored as `prefix/route`, otherwise unchanged |
| Router.AddRoute | src/app/http/Router.php:86-98 | the route is found under its key with the given callback and middlewares; the prefix and the other methods' tables are kept |
| Router.Run | src/app/http/Router.php:106-117 | the methods with a route table afterwards are those before plus every method a registration names, inside groups too |
| Router.RunKeepsPrefix | src/app/http/Router.php:106-117 | once every group has closed, the prefix is the one before them |
| Router.GroupedRoute | src/app/http/Router.php:106-117 | a route inside a group is stored under that group's own prefix, not joined to an outer one, and the prefix is restored after the group |
| Router.LiteralSegments | src/app/http/Router.php:162-165 | a pattern without `{` becomes one literal piece per character |
| Router.Segments | src/app/http/Router.php:162-165 | a pattern gives at most one piece per character, and each placeholder takes at least three characters (`{`, a name, `}`) |
| Router.SegmentsHole | src/app/http/Router.php:162-165 | `{name}`, with a non-empty name free of `}`, is one placeholder, whatever follows it |
| Router.RunLen | src/app/http/Router.php:165 | the run of non-`/` characters a placeholder may take is maximal |
| Router.Match | src/app/http/Router.php:168 | a match has one capture per placeholder; once the pattern is used up, the rest matches exactly when it is empty or a lone line feed |
| Router.TryHole | src/app/http/Router.php:165-168 | the first capture is a non-empty prefix of the URI within the allowed length, and the rest of the pattern matches what follows it with the remaining captures |
| Router.TryHoleSound | src/app/http/Router.php:165-168 | a placeholder takes a non-empty prefix of the URI no longer than its run, and the rest of the pattern matches what follows |
| Router.MatchSound | src/app/http/Router.php:162-169 | every match reported fills the pattern, with `/`-free non-empty captures, into the whole URI (or the URI less a final line feed) |
| Router.MatchComplete | src/app/http/Router.php:162-169 | whenever some such captures fill the pattern into the URI, the matcher finds a match |
| Router.LiteralRoute | src/app/http/Router.php:162-168 | a pattern without placeholders matches exactly its own text, or that text plus a final line feed |
| Router.MatchRoute | src/app/http/Router.php:157-176 | the route returned is registered and matches with the returned captures; none is returned exactly when no route matches |
| Router.FirstRouteWins | src/app/http/Router.php:160-171 | the first matching route in registration order is the one returned |
| Router.Dispatch | src/app/http/Router.php:126-135 | no match yields the "Route not found" error naming the method and URI; a match is returned as `matchRoute` found it, and its captures fill its pattern into the URI |
| Request.Capture | src/app/http/Request.php:29-36 | route parameters start empty, query and cookies are the given arrays, the body is `parseBody`'s and the headers are `getHeaders`' |
| Request.Keyed | src/app/http/Request.php:136 | `??`: the default for a missing key or a null value, the stored value otherwise |
| Request.AccessorsDefault | src/app/http/Request.php:134-195 | every keyed accessor returns the default when its array lacks the key |
| Request.All | src/app/http/Request.php:168-171 | the keys of query and body together, the body's value winning on shared keys |
| Request.AllAgreesWithInput | src/app/http/Request.php:158-171 | `all()` and `input()` agree on every key the body sets to a non-null value |
| Request.Uri | src/app/http/Request.php:112-115 | the URI neither starts nor ends with `/` |
| Request.UriStripped | src/app/http/Request.php:112-115 | the URI is the path with every leading and trailing `/` cut off: the one text `Strings.Stripped` allows |
| Request.UriIdempotent | src/app/http/Request.php:114 | trimming the slashes a second time changes nothing |
| Request.Url | src/app/http/Request.php:102-105 | the URL is `http://`, then the host, then the request URI, each found at its own position |
| Request.HeaderNameChars | src/app/http/Request.php:207-208 | a header name drops the `HTTP_` prefix and turns each `_` into `-`, character for character |
| Request.Headers | src/app/http/Request.php:202-213 | a name is present exactly when some server key starting with `HTTP_` maps to it |
| Request.LastHeaderWins | src/app/http/Request.php:205-211 | a header's value is that of the last server entry carrying it |
| Request.ParseBody | src/app/http/Request.php:220-231 | a POST body is the form data; otherwise the decoded JSON when it is an array, and no parameters when it is not |
| Request.Validate | src/app/http/Request.php:51-78 | without rules the body comes back untouched; with rules a failure redirects with exactly the run's errors as the stored session errors, and a success clears the stored errors and returns the body |
| Env.Lines | src/app/helpers/environment/Env.php:37 | the lines between line feeds, a `\r` just before a line feed dropped, and lines left empty skipped |
| Env.DropCR | src/app/helpers/environment/Env.php:37 | one trailing carriage return is dropped, and the line is unchanged exactly when it ends in none |
| Env.StripCR | src/app/helpers/environment/Env.php:37 | every piece a line feed ends loses one trailing carriage return; the last piece, which none ends, is kept as it is |
| Env.NonEmpty | src/app/helpers/environment/Env.php:37 | a line is kept exactly when it is not empty, order is kept, and a list without empty lines is kept whole |
| Env.NonEmptyAppend | src/app/helpers/environment/Env.php:37 | skipping empty lines of two lists glued together is skipping them in each list |
| Env.LinesCons | src/app/helpers/environment/Env.php:37 | a plain line ended by `\n` or `\r\n` comes back first, before the lines of the rest |
| Env.LinesTerminated | src/app/helpers/environment/Env.php:37 | a file written as plain lines, each ended by `\n` or by `\r\n`, reads back as exactly those lines |
| Env.SplitLine | src/app/helpers/environment/Env.php:46-51 | nothing exactly when the line holds no `=`; otherwise the line is the key, `=` and the value, and the key holds no `=` |
| Env.LoadLine | src/app/helpers/environment/Env.php:39-58 | comments and lines without `=` change nothing; any other line stores its quote-trimmed value under the text before its first `=` |
| Env.LoadLines | src/app/helpers/environment/Env.php:39-58 | no loaded variable is lost; a variable that no line names keeps its value, so a new one always comes from some line |
| Env.Load | src/app/helpers/environment/Env.php:28-34 | a missing file is the "File .env not found" error; an existing one loads its lines in order on top of the variables already loaded |
| Env.Get | src/app/helpers/environment/Env.php:73-76 | the loaded value, or the default for a key never loaded |
| Env.SplitEntry | src/app/helpers/environment/Env.php:46 | `key=value` with an `=`-free key splits back into exactly that key and value, whatever `=` the value holds |
| Env.EntryLoads | src/app/helpers/environment/Env.php:46-57 | such a line stores the value with its surrounding quotes stripped |
| Env.LoadLinesSnoc | src/app/helpers/environment/Env.php:39 | loading one more line acts on the result of the lines before it |
| Env.LastEntryWins | src/app/helpers/environment/Env.php:57 | a later line for a key overrides every earlier one |
| Env.SkippedLines | src/app/helpers/environment/Env.php:41-51 | comment lines and lines without `=` leave the variables untouched |
| Env.RewriteLines | src/app/helpers/environment/Env.php:94-95 | every line starting with `key=` becomes `key=value`, and every other line is kept in place |
| Env.Set | src/app/helpers/environment/Env.php:86-102 | a missing file is an error; otherwise it succeeds exactly when some line starts with `key=`, every such line is rewritten and memory holds the new value, and with no such line it is an error and nothing is written |
| Env.LoadsKeySets | src/app/helpers/environment/Env.php:46-57 | a line `load` stores under a key starts with `key=`, so `set` rewrites it |
| Env.LoadOnly | src/app/helpers/environment/Env.php:39-57 | when some line is `key=value` and every line stored under the key is that one, loading leaves the key holding the quote-trimmed value |
| Env.LoadFirstOnly | src/app/helpers/environment/Env.php:39-57 | when the first line is `key=value` and no later line names the key, loading leaves the key holding the quote-trimmed value |
| Env.UnloadedKept | src/app/helpers/environment/Env.php:39-57 | a variable that no loaded line names keeps the value it had before loading |
| Env.RewriteSplits | src/app/helpers/environment/Env.php:92-100 | the rewritten lines hold no line feed, so the written text splits back into them |
| Env.RewrittenLine | src/app/helpers/environment/Env.php:94-95 | a rewritten line read back is `key=value` if it was a `key=` line, and is stored under the key only if it is `key=value` |
| Env.RewriteOnly | src/app/helpers/environment/Env.php:94-95 | after `set`, the lines read back include `key=value`, and every line stored under the key is that one |
| Env.SetThenLoad | src/app/helpers/environment/Env.php:28-102 | what `set` writes, `load` reads back: the key then holds the new value with its quotes stripped, whatever was loaded before |
| Storage.New | src/app/helpers/storage/Storage.php:27-31 | a storage starts with its base directory and with no name or path set |
| Storage.Sanitize | src/app/helpers/storage/Storage.php:127-130 | same length; every character outside `[A-Za-z0-9_.-]` becomes `_` and every other is kept |
| Storage.SanitizeClean | src/app/helpers/storage/Storage.php:129 | a sanitised name holds allowed characters only |
| Storage.SanitizeFixes | src/app/helpers/storage/Storage.php:129 | a name is left unchanged exactly when it is already clean |
| Storage.SanitizeIdempotent | src/app/helpers/storage/Storage.php:129 | sanitising twice is sanitising once |
| Storage.SetFileName | src/app/helpers/storage/Storage.php:39-43 | the stored name is the sanitised argument, and the base directory and path are kept |
| Storage.SetFilePath | src/app/helpers/storage/Storage.php:50-54 | the path is the base directory followed by the name; reading a name never set is PHP's error naming `Monolog\App\Helpers\Storage\Storage::$fileName` |
| Storage.NamedPath | src/app/helpers/storage/Storage.php:39-54 | after `setFileName`, the path is the base directory followed by the sanitised name, of the same length as the name given |
| Storage.DirectoryFor | src/app/helpers/storage/Storage.php:62-71 | the directory is the base directory followed by a part that neither starts nor ends with `/` |
| Storage.DirectoryStripped | src/app/helpers/storage/Storage.php:62-71 | that part is the path with every leading and trailing `/` cut off, as `Strings.Stripped` pins it |
| Storage.MoveFile | src/app/helpers/storage/Storage.php:79-88 | the path is set first, so a name never set is the error naming `Storage::$fileName`; otherwise the result is the move's answer |
| Storage.RenameFile | src/app/helpers/storage/Storage.php:96-108 | a path never set is the error naming `Storage::$filePath`; otherwise true exactly when the old file exists and the rename succeeds, and only then does the path become the base directory plus the sanitised new name |
| Database.Construct | src/app/helpers/database/DatabaseFactory.php:60-67 | the settings come from the five variables exactly when all are set, and the driver defaults to `mysql`; otherwise the first unset one, in the order host, database, user, password, port, is the `TypeError` naming its property of `Monolog\App\Helpers\Database\DatabaseFactory` |
| Database.FieldTexts | src/app/helpers/database/DatabaseFactory.php:97-123 | each DSN field is written `key=value`, in order |
| Database.Connect | src/app/helpers/database/DatabaseFactory.php:75-136 | an unknown lower-cased driver is the "Unsupported database driver" error naming the configured driver; SQLite gets `sqlite:D` and no credentials; the other drivers pass the configured credentials |
| Database.DriverCaseInsensitive | src/app/helpers/database/DatabaseFactory.php:76 | two spellings of the driver that differ only in case give the same connection |
| Database.FieldsRoundTrip | src/app/helpers/database/DatabaseFactory.php:97-123 | a field list without `;` splits back on `;` into its `key=value` fields |
| Database.MySqlDsn | src/app/helpers/database/DatabaseFactory.php:95-101 | the MySQL DSN is `mysql:` followed by `host=H`, `port=P` and `dbname=D`, in that order |
| Database.PgSqlLikeMySql | src/app/helpers/database/DatabaseFactory.php:108-114 | the PostgreSQL DSN has the MySQL fields after `pgsql:` |
| Database.SqlServerDsn | src/app/helpers/database/DatabaseFactory.php:121-127 | the SQL Server DSN is `sqlsrv:` followed by `Server=H,P` and `Database=D` |
| Database.DefaultDriver | src/app/helpers/database/DatabaseFactory.php:66-78 | with no driver configured, the connection is a MySQL one |
| Migration.Quote | src/app/helpers/database/Migration.php:70 | an identifier is wrapped in one backtick on each side and kept whole between them |
| Migration.ColumnDefs | src/app/helpers/database/Migration.php:67-71 | one `` `name` type `` definition per column, in the order of the array |
| Migration.CreateTable | src/app/helpers/database/Migration.php:62-84 | the statement is `CREATE TABLE IF NOT EXISTS`, the backtick-quoted table, and the column definitions joined by `, ` in parentheses, ended by `;` |
| Migration.AddForeignKey | src/app/helpers/database/Migration.php:97-103 | the statement alters the table and adds the constraint `fk_table_column` on the column, referencing the other table's column, each name backtick-quoted in its place, then the two actions over three lines |
| Migration.AddForeignKeyDefault | src/app/helpers/database/Migration.php:97 | the same statement, ending `ON DELETE CASCADE ON UPDATE CASCADE;` |
| Migration.DropForeignKey | src/app/helpers/database/Migration.php:112-115 | the statement is `ALTER TABLE`, the quoted table, `DROP FOREIGN KEY` and the quoted constraint `fk_table_column`, ended by `;` |
| Migration.DropTable | src/app/helpers/database/Migration.php:123-126 | the statement is `DROP TABLE IF EXISTS`, the unquoted table name and `;`, each at its own position |
| Migration.ConstraintName | src/app/helpers/database/Migration.php:98 | the name is `fk_`, the table, `_` and the column, each found at its own position |
| Migration.QuotedSplit | src/app/helpers/database/Migration.php:79-113 | splitting on backticks cuts a quoted identifier and the text before it off the front of a statement |
| Migration.Pieces | src/app/helpers/database/Migration.php:98-113 | the pieces of a statement alternate text and identifier, in order, and end with the closing text |
| Migration.ChainSplit | src/app/helpers/database/Migration.php:98-113 | a statement built from backtick-free pieces splits back on backticks into exactly those pieces |
| Migration.PlainConstraint | src/app/helpers/database/Migration.php:98 | the constraint name has no backtick when its table and column have none |
| Migration.ForeignKeyPieces | src/app/helpers/database/Migration.php:97-100 | the foreign key statement names the table, the constraint `fk_table_column`, the column, the referenced table and column, and then the two actions, over three lines |
| Migration.DefaultActions | src/app/helpers/database/Migration.php:97 | without explicit actions, deletes and updates both cascade |
| Migration.DropForeignKeyPieces | src/app/helpers/database/Migration.php:112-115 | the drop statement names the table and the constraint and nothing else |
| Migration.DropMatchesAdd | src/app/helpers/database/Migration.php:98-113 | `dropForeignKey` names the same table and constraint that `addForeignKey` created |
| Migration.ConstraintNamesCollide | src/app/helpers/database/Migration.php:98 | two different table and column pairs can give the same constraint name |
| Migration.QuotedMiddle | src/app/helpers/database/Migration.php:79 | the text between a quoted identifier's opener and closer is found at its computed position |
| Migration.CreateTableShape | src/app/helpers/database/Migration.php:79 | a create statement is `CREATE TABLE IF NOT EXISTS`, the quoted table, and the column list in parentheses followed by `;` |
| Migration.CreateTableName | src/app/helpers/database/Migration.php:79 | the table is the second backtick-separated piece of a create statement |
| Migration.CreateTableColumns | src/app/helpers/database/Migration.php:75-79 | the column list sits between the table's ` (` and the closing `);` |
| Migration.ParseColumn | src/app/helpers/database/Migration.php:70 | a definition read back as a name and a type rebuilds exactly that definition |
| Migration.ColumnRoundTrip | src/app/helpers/database/Migration.php:70 | a column whose name has no backtick is read back from its definition |
| Migration.ColumnsRoundTrip | src/app/helpers/database/Migration.php:67-75 | with comma-free columns and backtick-free names, the list splits on `, ` back into the columns, in order |
| Migration.DroppedTable | src/app/helpers/database/Migration.php:124 | a table name read back from a drop statement rebuilds exactly that statement |
| Migration.DropTableRoundTrip | src/app/helpers/database/Migration.php:123-126 | every table name, unquoted, is read back from its drop statement |
| Model.Construct | src/model/Model.php:50-64 | a model without a table name is the "Table name not defined." error; otherwise it is bound to its table |
| Model.All | src/model/Model.php:71-78 | the SQL is `SELECT * FROM` and the table name, and no parameter is bound |
| Model.Find | src/model/Model.php:86-90 | the SQL selects from the table `WHERE id = :id LIMIT 1`, and exactly `id` is bound to the argument |
| Model.First | src/model/Model.php:93 | nothing exactly when the query returned no rows, otherwise the first row |
| Model.Keys | src/model/Model.php:105-125 | the keys of the data array, in order |
| Model.Bound | src/model/Model.php:112 | the bound parameters are exactly the data's keys |
| Model.BoundLast | src/model/Model.php:112 | each key is bound to the value of its last entry |
| Model.Named | src/model/Model.php:106 | each key gets a colon in front, in order |
| Model.PlaceholdersNamed | src/model/Model.php:106 | for a non-empty key list, the placeholders are the `:key` names joined by `, `, in the same order |
| Model.EmptyPlaceholders | src/model/Model.php:106 | with no data, the placeholder list is a lone `:` |
| Model.Create | src/model/Model.php:102-113 | the SQL is `INSERT INTO`, the table, the comma-separated keys in parentheses and `VALUES` with the placeholder list, and the data array is bound |
| Model.CreateLinesUp | src/model/Model.php:105-109 | with comma-free keys, the column list and the placeholder list of `create` split into the same entries, each placeholder naming the column in its position |
| Model.Assignments | src/model/Model.php:125 | one `key = :key` assignment per key, in order |
| Model.Update | src/model/Model.php:122-133 | the SQL is `UPDATE`, the table, `SET` with the assignments and `WHERE id = :id`; `id` is bound to the argument whatever the data held under `id`, and every other data key keeps its value |
| Model.UpdateLinesUp | src/model/Model.php:125 | with comma-free keys, the assignment list splits back into one `key = :key` entry per key |
| Model.Delete | src/model/Model.php:141-148 | the SQL deletes from the table `WHERE id = :id`, and exactly `id` is bound to the argument |
| Model.DeleteWhatFindReads | src/model/Model.php:86-148 | `delete` binds what `find` binds and uses its table and `WHERE` clause, without `LIMIT 1` |
| Model.FirstArgument | src/model/Model.php:184 | the first argument, or null when the call passed none |
| Model.Call | src/model/Model.php:174-197 | a name not starting with `findBy` is the "does not exist" error; a finder's SQL is `SELECT * FROM`, the table, `WHERE`, the column the name gives and `= :value LIMIT 1`, with `value` bound to the first argument |
| Model.FinderColumn | src/model/Model.php:180 | the column a finder name gives holds no capital letter; `Model.FinderColumnOf` pins it to the lower-cased text after `findBy` |
| Model.FinderColumnOf | src/model/Model.php:178-183 | `findBy<Column>` queries the lower-cased column |
| Model.FinderQuery | src/model/Model.php:176-186 | `findBy<Column>(x)` runs `SELECT * FROM <table> WHERE <column> = :value LIMIT 1` with the column lower-cased |
| Model.FinderPrefixCaseSensitive | src/model/Model.php:178 | the prefix test is case-sensitive, so `FindBy<Column>` is an error |
| Validator.ParseRule | src/app/helpers/validator/Validator.php:113-118 | a rule without `:` is all name and no parameter; otherwise it is the name, `:` and the parameter, and the name holds no `:` |
| Validator.ParseRuleRoundTrip | src/app/helpers/validator/Validator.php:113-114 | `name:param` with a colon-free name parses back into that name and parameter, whatever colons the parameter holds |
| Validator.Strlen | src/app/helpers/validator/Validator.php:153-160 | the length of a string, 0 for null, and a type error exactly for an array |
| Validator.CheckRule | src/app/helpers/validator/Validator.php:122-192 | an unknown rule name adds nothing; only `min` and `max` on an array can raise |
| Validator.AddError | src/app/helpers/validator/Validator.php:205-209 | the custom message for `field.rule`, or the default, is appended to the field's list; no other field changes |
| Validator.Messages | src/app/helpers/validator/Validator.php:208 | the messages recorded for a field so far, none for a field never seen |
| Validator.RuleMessage | src/app/helpers/validator/Validator.php:110-194 | one rule contributes at most one message |
| Validator.ApplyRule | src/app/helpers/validator/Validator.php:110-194 | the field's messages grow by exactly the rule's message, other fields are untouched, and a passing rule changes nothing |
| Validator.FieldMessages | src/app/helpers/validator/Validator.php:89-93 | a field's rules contribute at most one message each |
| Validator.ApplyRulesOk | src/app/helpers/validator/Validator.php:91-93 | a field's rules run to the end exactly when none of them raises |
| Validator.ApplyRules | src/app/helpers/validator/Validator.php:91-93 | no field is lost, and the only field a field's rules can add is that field |
| Validator.ApplyRulesMessages | src/app/helpers/validator/Validator.php:89-93 | applying a field's rules in order appends exactly the messages of its failing rules, in rule order |
| Validator.ApplyRulesOthers | src/app/helpers/validator/Validator.php:91-93 | applying a field's rules changes no other field |
| Validator.ApplyRulesQuiet | src/app/helpers/validator/Validator.php:91-93 | a field whose rules all pass leaves the errors exactly as they were |
| Validator.FieldFails | src/app/helpers/validator/Validator.php:91-93 | after a field's rules, errors exist exactly when they did before or one of its rules failed |
| Validator.SomeFailsStep | src/app/helpers/validator/Validator.php:87-94 | a failure among the fields from `i` on is a failure of field `i` or of a later one |
| Validator.ValidateFromFails | src/app/helpers/validator/Validator.php:87-94 | a run over the remaining fields ends with errors exactly when it started with some or one of their rules fails |
| Validator.ValidateFrom | src/app/helpers/validator/Validator.php:87-94 | no field is lost, and every new field is one the remaining rules name |
| Validator.Validate | src/app/helpers/validator/Validator.php:85-94 | only fields that have rules can have messages |
| Validator.Fails | src/app/helpers/validator/Validator.php:214-217 | `fails()` is true exactly when some field has messages |
| Validator.ValidateFails | src/app/helpers/validator/Validator.php:85-94 | `fails()` after validation is true exactly when some rule of some field failed |
| Validator.UnknownRuleSilent | src/app/helpers/validator/Validator.php:190-191 | a rule name the validator does not know leaves the errors unchanged |
| Validator.MinRule | src/app/helpers/validator/Validator.php:152-156 | `min:n` on a string fails exactly when its length is below the integer value of `n` |
| Validator.MaxRule | src/app/helpers/validator/Validator.php:159-163 | `max:n` on a string fails exactly when its length is above the integer value of `n` |
| Validator.RequiredRule | src/app/helpers/validator/Validator.php:124-128 | `required` fails exactly on null, `""`, `"0"` and the empty list, with the "is required" message |
| Validator.EmailRule | src/app/helpers/validator/Validator.php:131-135 | `email` fails exactly when the e-mail filter rejects the value |
| Validator.IntegerRule | src/app/helpers/validator/Validator.php:138-142 | `integer` fails exactly when the integer filter rejects the value or returns 0, since `!filter_var(...)` is also true of the int 0 |
| Validator.StringRule | src/app/helpers/validator/Validator.php:145-149 | `string` fails exactly on null and on arrays, the model's only non-string values |
| Validator.LengthRuleOnArray | src/app/helpers/validator/Validator.php:152-163 | `min` and `max` on an array raise the `strlen` type error |
| Validator.FileRule | src/app/helpers/validator/Validator.php:166-170 | `file` fails exactly when no upload is listed for the field or it has an upload error |
| Validator.MimesRule | src/app/helpers/validator/Validator.php:173-181 | `mimes` fails exactly when an upload is listed and its extension is loosely equal, as `in_array` compares, to none of the comma-separated ones; the message names the parameter |
| Validator.MimesExact | src/app/helpers/validator/Validator.php:173-181 | an extension that is not a numeric string passes only when it is one of the listed ones exactly |
| Validator.MimesLeadingZero | src/app/helpers/validator/Validator.php:177 | a numeric extension passes when it equals a listed one as a number, so `backup.001` is accepted by `mimes:1` |
| Validator.MaxSizeRule | src/app/helpers/validator/Validator.php:184-188 | `max_size:n` fails exactly when an upload is listed and is larger than `n` times 1024 bytes |
| Validator.CustomMessage | src/app/helpers/validator/Validator.php:120 | a custom message for `field.rule` replaces the default one |
| Validator.StoreErrors | src/app/helpers/validator/Validator.php:96-98 | the session's errors are replaced only when this run produced some |
| Validator.GetError | src/app/helpers/validator/Validator.php:246-252 | the first message of the field if it has one, nothing otherwise |
| Validator.Forget | src/app/helpers/validator/Validator.php:232-237 | after `forget`, no field has an error |
| Validator.ErrorAfterValidate | src/app/helpers/validator/Validator.php:96-97 | after a failing run, `getError` hands out the field's first message |
| Strings.TrimLeft | src/app/resources/DirectiveProcessor.php:72 | `ltrim`: the result is a suffix of the text, every character cut is listed, and the result does not start with a listed one |
| Strings.TrimRight | src/app/resources/DirectiveProcessor.php:56 | `rtrim`: the result is a prefix of the text, every character cut is listed, and the result does not end with a listed one |
| Strings.Trim | src/app/helpers/environment/Env.php:41-54 | the result is no longer than the input and neither end of it is a listed character |
| Strings.TrimStripped | src/app/helpers/environment/Env.php:41-54 | `trim` is what is left once a run of listed characters is cut from each end, and neither end of it is listed (`Strings.Stripped`); with `Strings.StrippedUnique` that is the only such text |
| Strings.StrippedUnique | src/app/helpers/environment/Env.php:54 | only one text is left that way, so `Stripped` pins down what `trim` returns |
| Strings.SameCut | src/app/helpers/environment/Env.php:54 | two cuts of listed characters that both leave unlisted ends (or nothing) leave the same text |
| Strings.TrimIdempotent | src/app/helpers/environment/Env.php:54 | trimming twice removes nothing more than trimming once |
| Strings.IndexOf | src/app/resources/DirectiveProcessor.php:247 | the first occurrence at or after the start, none before it, and none at all when nothing is found |
| Strings.ReplaceAll | src/app/resources/View.php:160 | text without the pattern is returned unchanged |
| Strings.ReplaceChar | src/app/http/Request.php:208 | replacing one character by another keeps every position and changes exactly that character |
| Strings.Split | src/app/helpers/validator/Validator.php:89 | at least one piece; `Strings.JoinSplit`, `Strings.SplitJoin` and `Strings.SplitHead` pin the pieces |
| Strings.Join | src/app/helpers/database/Migration.php:75 | the first part begins the result; `Strings.SplitJoin` and `Strings.JoinSplit` pin the rest |
| Strings.JoinSplit | src/app/helpers/validator/Validator.php:89 | exploding and then imploding with the same separator gives the text back |
| Strings.SplitJoin | src/app/helpers/database/Migration.php:75 | imploding parts free of the separator and exploding again gives the parts back |
| Strings.SplitPiecesLack | src/app/helpers/environment/Env.php:37 | no piece of an `explode` on one character holds that character |
| Strings.ReplaceAllIsJoinSplit | src/app/resources/View.php:160 | `str_replace` is cutting at every occurrence and gluing the pieces with the replacement |
| Strings.ReplaceInJoin | src/app/resources/View.php:157-163 | replacing the separator of occurrence-free parts swaps the glue and keeps the parts |
| Strings.Lower | src/model/Model.php:180 | same length, with each ASCII capital lower-cased and every other character kept |
| Strings.LowerIdempotent | src/app/helpers/database/DatabaseFactory.php:76 | lower-casing twice is lower-casing once |
| Strings.IntValRoundTrip | src/app/helpers/validator/Validator.php:153-185 | the `(int)` cast reads back every integer written in decimal |
| Strings.IntValDigits | src/app/helpers/validator/Validator.php:153-185 | a bare run of digits is cast to the number it spells |
| Strings.IntValNegated | src/app/helpers/validator/Validator.php:153-185 | a minus sign before a run of digits casts to the negated number |
| Strings.IntVal | src/app/helpers/validator/Validator.php:153 | a non-zero value needs a digit, or a sign and a digit, right after the leading white space; a negative one needs a minus sign there |
| Strings.InArrayMember | src/app/helpers/validator/Validator.php:177 | `in_array` finds every element of the array, numeric or not |
| Strings.InArrayExact | src/app/helpers/validator/Validator.php:177 | a needle that is not a numeric string is found exactly when it is an element |
| Strings.DigitsNumeric | src/app/helpers/validator/Validator.php:177 | a non-empty run of digits is a numeric string, so `==` compares it by value |
| Strings.LeadingZeroValue | src/app/helpers/validator/Validator.php:177 | a leading zero does not change the number a run of digits spells |
| Strings.LeadingZeroLoose | src/app/helpers/validator/Validator.php:177 | two runs of digits that differ by a leading zero are loosely equal though not identical |
| Syntax.SkipSpaces | src/app/resources/DirectiveProcessor.php:118 | `\s*` takes the whole run of white space and stops at the first other character |
| Syntax.WordEnd | src/app/resources/DirectiveProcessor.php:118 | `\w+` takes the whole run of word characters and stops at the first other character |
| Syntax.QuoteParen | src/app/resources/DirectiveProcessor.php:70 | the lazy `(.+?)` before a quote and `)` stops at the first such pair, and without the `s` flag never crosses a line feed |
| Syntax.LastParen | src/app/resources/DirectiveProcessor.php:132 | the last `)` of a range, with none after it |
| Syntax.LineEnd | src/app/resources/DirectiveProcessor.php:132 | the end of the line: no line feed before it, and it is the end of the text or a line feed |
| Syntax.VarMatch | src/app/resources/DirectiveProcessor.php:118 | a variable token starts with `{` and names a word |
| Syntax.VarHead | src/app/resources/DirectiveProcessor.php:118 | `{{ name }}` followed by anything is recognised as exactly that token, naming `name` |
| Syntax.DollarMatch | src/app/resources/DirectiveProcessor.php:292 | a `$name` starts with `$` and names a word |
| Syntax.DollarHead | src/app/resources/DirectiveProcessor.php:292 | `$name` not followed by a word character is recognised as exactly that variable |
| Syntax.MessageTokenMatch | src/app/resources/DirectiveProcessor.php:354 | the message slot starts with `{` |
| Syntax.MessageTokenHead | src/app/resources/DirectiveProcessor.php:354 | `{{ message }}` is recognised as the 13-character slot |
| Syntax.CsrfMatch | src/app/resources/DirectiveProcessor.php:104 | `@csrf()` is a 7-character match starting with `@` |
| Syntax.QuotedMatch | src/app/resources/DirectiveProcessor.php:70 | the argument of `@assets`, `@images` and `@errors` is non-empty and on one line |
| Syntax.QuotedHead | src/app/resources/DirectiveProcessor.php:70 | `keyword('arg')` with a quote-free, single-line argument is recognised with exactly that argument |
| Syntax.MessageMatch | src/app/resources/DirectiveProcessor.php:341 | a message block's body holds no `@endmessage`: it ends at the first one |
| Syntax.MessageBody | src/app/resources/DirectiveProcessor.php:341 | the body runs from after the name's quote to the first `@endmessage` |
| Syntax.MessageHead | src/app/resources/DirectiveProcessor.php:341 | `@message('name') body @endmessage` with a body not closing early is recognised with exactly that name and body |
| Syntax.ParenMatch | src/app/resources/DirectiveProcessor.php:214 | the head of `@if`, `@switch` and `@case` holds no `)` and the body holds no closing keyword: each ends at the first one |
| Syntax.ParenBody | src/app/resources/DirectiveProcessor.php:214 | the body runs from after the head's `)` to the first closing keyword |
| Syntax.ParenHead | src/app/resources/DirectiveProcessor.php:214 | `open head ) body close` with a `)`-free head and a body not closing early is recognised with exactly that head and body |
| Syntax.IfHead | src/app/resources/DirectiveProcessor.php:214 | `@if(cond) body @endif` is recognised with exactly that condition and body |
| Syntax.SwitchMatch | src/app/resources/DirectiveProcessor.php:247 | a switch body holds no `@endswitch` |
| Syntax.SwitchHead | src/app/resources/DirectiveProcessor.php:247 | `@switch(value) cases @endswitch` is recognised with exactly that value and body |
| Syntax.CaseHead | src/app/resources/DirectiveProcessor.php:256 | `@case(value) body @break` is recognised with exactly that value and body |
| Syntax.DefaultSearch | src/app/resources/DirectiveProcessor.php:274 | a `@default` is found only in text that holds `@endswitch` |
| Syntax.DefaultNeverFound | src/app/resources/DirectiveProcessor.php:247-274 | inside a matched switch body the `@default` search never succeeds |
| Syntax.LoopHeader | src/app/resources/DirectiveProcessor.php:174 | the collection and the item of a loop header are words, in that order |
| Syntax.LoopMatch | src/app/resources/DirectiveProcessor.php:174 | the collection and item are words and the body holds no `@endforeach` |
| Syntax.LoopBody | src/app/resources/DirectiveProcessor.php:174 | the body runs from after the item to the first `@endforeach` |
| Syntax.LoopHead | src/app/resources/DirectiveProcessor.php:174 | `@foreach c as i body @endforeach` is recognised with exactly that collection, item and body |
| Syntax.ComponentMatch | src/app/resources/DirectiveProcessor.php:132 | a component call names a word |
| Syntax.ComponentHead | src/app/resources/DirectiveProcessor.php:132 | `@component('name')` is recognised with that name and no parameter text |
| Syntax.ComponentWithHead | src/app/resources/DirectiveProcessor.php:132 | `@component('name', params)` with no `)` later on its line is recognised with exactly that parameter text |
| Syntax.QuotedWordEnd | src/app/resources/DirectiveProcessor.php:132 | a quoted word: the quotes at both ends and a word between them |
| Syntax.ParamMatch | src/app/resources/DirectiveProcessor.php:308 | one `'key': value` pair names a word |
| Syntax.ValueEnd | src/app/resources/DirectiveProcessor.php:308 | a bracketed value ends at a `]`, a quoted one at a quote |
| Syntax.ParamHead | src/app/resources/DirectiveProcessor.php:308 | spaces and `'key': value`, with a bracketed or quoted value, are recognised as exactly that pair |
| Scan.RewriteQuiet | src/app/resources/DirectiveProcessor.php:118-120 | a text in which no match starts comes out of `preg_replace_callback` unchanged |
| Scan.Collect | src/app/resources/DirectiveProcessor.php:256 | `preg_match_all` finds at most one match per character |
| Scan.RewriteStep | src/app/resources/DirectiveProcessor.php:118 | where no match starts, the character is copied and the scan moves on by one |
| Scan.RewriteInert | src/app/resources/DirectiveProcessor.php:118 | text in which no match starts is copied ahead of the rewritten rest |
| Scan.RewriteBlock | src/app/resources/DirectiveProcessor.php:118 | a match after inert text is replaced by its value, and the scan resumes right after it, so the value is never rescanned |
| Scan.CollectInert | src/app/resources/DirectiveProcessor.php:256 | inert text contributes no match to `preg_match_all` |
| Scan.CollectBlock | src/app/resources/DirectiveProcessor.php:256 | a match after inert text is collected first, and collecting resumes right after it |
| Scan.RewriteStateInert | src/app/resources/DirectiveProcessor.php:341-362 | inert text is copied and leaves the threaded state untouched |
| Scan.RewriteStateMatch | src/app/resources/DirectiveProcessor.php:341-362 | a match is replaced by its callback's text, and the rest is scanned with the state the callback left |
| Scan.RewriteStateBlock | src/app/resources/DirectiveProcessor.php:341-362 | a match after inert text is replaced with the callback's text, and the rest sees the callback's state |
| Scan.UsingBlock | src/app/resources/DirectiveProcessor.php:70-105 | a replacement computed from a match's captures lands in place of exactly that match |
| Stages.ProcessVariables | src/app/resources/DirectiveProcessor.php:116-121 | text without `{` comes out of the variable stage unchanged |
| Stages.VariableToken | src/app/resources/DirectiveProcessor.php:118-119 | `{{ name }}` becomes the name's value, or nothing when it is missing or null, and the scan goes on after the token |
| Stages.ValueNotRescanned | src/app/resources/DirectiveProcessor.php:118-119 | a value that is itself a `{{ other }}` token is inserted as it is and not replaced again |
| Stages.FillMessage | src/app/resources/DirectiveProcessor.php:354 | a block body without `{` is kept as it is |
| Stages.FillMessageSlot | src/app/resources/DirectiveProcessor.php:354 | every `{{ message }}` in a shown block becomes the message |
| Stages.MessageReplace | src/app/resources/DirectiveProcessor.php:341-361 | a stored message is consumed and fills the block's body; with none stored the block yields nothing and the store is unchanged |
| Stages.ProcessMessage | src/app/resources/DirectiveProcessor.php:339-363 | text without `@` comes out unchanged and consumes no message |
| Stages.MessageShown | src/app/resources/DirectiveProcessor.php:341-361 | a `@message('name') ... @endmessage` block with a stored message becomes its filled body and the message is removed before the rest is scanned |
| Stages.MessageHidden | src/app/resources/DirectiveProcessor.php:341-361 | a block whose name has no stored message disappears and the store is passed on unchanged |
| Stages.MessageStoreShrinks | src/app/resources/DirectiveProcessor.php:372-389 | rendering never adds a message to the store |
| Stages.ProcessMessageIs | src/app/resources/DirectiveProcessor.php:339-363 | the message stage is the left-to-right scan that threads the store through every block |
| Stages.MessageOnce | src/app/resources/DirectiveProcessor.php:384-386 | a message is shown once: the same block rendered again with the store the first render left disappears |
| Stages.FillItem | src/app/resources/DirectiveProcessor.php:191-194 | a body holding none of the item's `{{ item.key }}` placeholders is copied unchanged |
| Stages.EachItem | src/app/resources/DirectiveProcessor.php:183-198 | no items give nothing, and the first item's copy comes first; one item gives exactly its copy |
| Stages.ExpandLoop | src/app/resources/DirectiveProcessor.php:179-201 | a missing, empty or non-list collection yields nothing; a list yields one copy of the body per item |
| Stages.EachItemAppend | src/app/resources/DirectiveProcessor.php:183-198 | the copies are concatenated in item order |
| Stages.EachItemSnoc | src/app/resources/DirectiveProcessor.php:183-198 | the last item's copy comes last, after the copies of the items before it |
| Stages.ScalarItem | src/app/resources/DirectiveProcessor.php:187-189 | a scalar item is read as the single field `value` |
| Stages.FillUntouched | src/app/resources/DirectiveProcessor.php:192-194 | a body without any of the item's placeholders is copied unchanged |
| Stages.ProcessLoops | src/app/resources/DirectiveProcessor.php:172-203 | text without `@` comes out of the loop stage unchanged |
| Stages.LoopBlockExpands | src/app/resources/DirectiveProcessor.php:174-202 | `@foreach collection as item body @endforeach` is replaced by its expansion and the scan goes on after it |
| Stages.ReplaceVariables | src/app/resources/DirectiveProcessor.php:290-295 | an expression without `$` is kept as it is |
| Stages.DollarToken | src/app/resources/DirectiveProcessor.php:292-293 | `$name` becomes the name's value, or the literal `null` when it is missing or null |
| Stages.IfOutput | src/app/resources/DirectiveProcessor.php:214-219 | the body is kept exactly when the condition, with its variables replaced, evaluates to true, and is dropped otherwise |
| Stages.ProcessConditionals | src/app/resources/DirectiveProcessor.php:212-221 | text without `@` comes out of the conditional stage unchanged |
| Stages.IfBlock | src/app/resources/DirectiveProcessor.php:214-220 | an `@if(cond) body @endif` block keeps its body exactly when the condition holds and the scan goes on after it |
| Stages.CaseKeys | src/app/resources/DirectiveProcessor.php:260-265 | each case's value is compared with its variables replaced and its quotes and spaces trimmed |
| Stages.FirstIndex | src/app/resources/DirectiveProcessor.php:260-271 | the position found holds the key and no earlier position does; none is found only when no position holds it |
| Stages.FirstCase | src/app/resources/DirectiveProcessor.php:260-271 | the case chosen compares equal to the switch value and no earlier case does; none is chosen only when no case does |
| Stages.SwitchOutput | src/app/resources/DirectiveProcessor.php:247-280 | the first case whose value equals the switch value gives its body |
| Stages.ProcessSwitchCases | src/app/resources/DirectiveProcessor.php:245-281 | text without `@` comes out of the switch stage unchanged |
| Stages.SwitchBlock | src/app/resources/DirectiveProcessor.php:247-280 | an `@switch(v) ... @endswitch` block is replaced by its output and the scan goes on after it |
| Stages.SwitchUnmatched | src/app/resources/DirectiveProcessor.php:273-279 | with no matching case a switch yields nothing: the `@default` search runs on a body that cannot contain `@endswitch` |
| Stages.CaseCollected | src/app/resources/DirectiveProcessor.php:256 | a case written in the switch body is collected with its value and body, before the cases after it |
| Stages.FirstMatchWins | src/app/resources/DirectiveProcessor.php:268-269 | the first case that matches wins, whatever the cases after it say |
| Stages.BaseUrl | src/app/resources/DirectiveProcessor.php:52-57 | the base URL is `APP_URL:APP_PORT`, with their defaults, less its trailing `/`s: a prefix of it, ending in no `/`, with only `/` cut off |
| Stages.Url | src/app/resources/DirectiveProcessor.php:72 | the URL is the base, `/`, the directory, `/` and the path with its leading slashes removed |
| Stages.ProcessAssets | src/app/resources/DirectiveProcessor.php:85-91 | text without `@` comes out of the asset stage unchanged |
| Stages.ProcessImages | src/app/resources/DirectiveProcessor.php:68-74 | text without `@` comes out of the image stage unchanged |
| Stages.AssetCall | src/app/resources/DirectiveProcessor.php:87-89 | `@assets('path')` becomes the path's URL under the public directory |
| Stages.ImageCall | src/app/resources/DirectiveProcessor.php:70-72 | `@images('path')` becomes the path's URL under the images directory |
| Stages.LeadingSlashDropped | src/app/resources/DirectiveProcessor.php:72 | a leading slash in the path is not doubled in the URL |
| Stages.TrimLeftTwice | src/app/resources/DirectiveProcessor.php:72 | removing leading slashes a second time changes nothing |
| Stages.ListItems | src/app/resources/DirectiveProcessor.php:318 | each element of a list keeps its position and loses its surrounding spaces and quotes |
| Stages.ParamValue | src/app/resources/DirectiveProcessor.php:313-322 | a one-line bracketed value becomes the list of its comma-separated elements; any other value loses its surrounding quotes |
| Stages.QuotedParam | src/app/resources/DirectiveProcessor.php:321 | a quoted value gives back exactly the text between its quotes |
| Stages.BracketedParam | src/app/resources/DirectiveProcessor.php:316-318 | a bracketed value without inner brackets is split on the commas between its brackets |
| Stages.BracketedList | src/app/resources/DirectiveProcessor.php:316 | brackets around one line of text make a list value |
| Stages.BracketsStripped | src/app/resources/DirectiveProcessor.php:318 | only the outer brackets are stripped from a list value |
| Stages.ListParam | src/app/resources/DirectiveProcessor.php:316-318 | a list written from comma-free elements is read back as exactly those elements |
| Stages.AddParams | src/app/resources/DirectiveProcessor.php:311-325 | no key stored before is lost, and a key no parameter names keeps its value |
| Stages.Store | src/app/resources/DirectiveProcessor.php:324 | storing one parameter gives its key the parameter's value and every other key stored before keeps its value |
| Stages.ParseParams | src/app/resources/DirectiveProcessor.php:303-328 | text without any `'key': value` gives no parameters |
| Stages.ParseParamsKeys | src/app/resources/DirectiveProcessor.php:308-324 | every key stored is the key of some `'key': value` found in the text |
| Stages.ParseParamsLast | src/app/resources/DirectiveProcessor.php:311-324 | the last `'key': value` in the text overrides whatever the ones before it stored under its key |
| Stages.AddParamsLast | src/app/resources/DirectiveProcessor.php:324 | storing a list of parameters is storing all but the last, then the last |
| Stages.AddParamsSnoc | src/app/resources/DirectiveProcessor.php:324 | a later parameter overrides what an earlier one stored under the same key |
| Stages.AddParamsKeys | src/app/resources/DirectiveProcessor.php:311-325 | the keys stored are exactly the earlier ones and those of the parameters |
| Stages.ParamsRoundTrip | src/app/resources/DirectiveProcessor.php:308 | every well-formed parameter written as `'key': value` and separated by `, ` is found again, in order |
| Stages.ParamsMore | src/app/resources/DirectiveProcessor.php:308 | after the first parameter the rest are found in order |
| Stages.ParamsFirst | src/app/resources/DirectiveProcessor.php:308 | the first of several parameters is found and the scan resumes at the comma |
| Stages.ParamStep | src/app/resources/DirectiveProcessor.php:308 | a well-formed parameter after white space is found with its key and value |
| Stages.CommaStep | src/app/resources/DirectiveProcessor.php:308 | the comma between two parameters is skipped |
| Stages.ParseParamsText | src/app/resources/DirectiveProcessor.php:303-328 | written-out parameters are parsed into the map of their values, the last one of a key winning |
| Stages.ErrorText | src/app/resources/DirectiveProcessor.php:155-160 | the field's first error, or nothing when it has none or its first error is `""` or `"0"` |
| Stages.ProcessErrors | src/app/resources/DirectiveProcessor.php:148-162 | text without `@` comes out of the error stage unchanged |
| Stages.ErrorCall | src/app/resources/DirectiveProcessor.php:150-160 | `@errors('field')` becomes the field's first error |
| Stages.ErrorShownTwice | src/app/resources/DirectiveProcessor.php:150-160 | errors are not consumed: the same field shows the same error twice on one page |
| Stages.ErrorCallHead | src/app/resources/DirectiveProcessor.php:150-160 | `@errors('field')` at the head of the text becomes the field's first error |
| Stages.ProcessCsrfToken | src/app/resources/DirectiveProcessor.php:102-107 | text without `@` comes out of the token stage unchanged |
| Stages.CsrfCall | src/app/resources/DirectiveProcessor.php:104-105 | `@csrf()` becomes the hidden `csrf_token` field carrying the current token |
| Engine.ComponentPath | src/app/resources/Component.php:40 | the component file is the component directory, then the name, then `.html`, each at its own position |
| Engine.ComponentPathInjective | src/app/resources/Component.php:40 | different component names never share a file |
| Engine.ComponentData | src/app/resources/DirectiveProcessor.php:134 | a call without parameters passes no data |
| Engine.Finish | src/app/resources/DirectiveProcessor.php:33-40 | text without `@` comes out of the stages after the components unchanged |
| Engine.Process | src/app/resources/DirectiveProcessor.php:28-41 | a finished render never adds a message to the store |
| Engine.Prepend | src/app/resources/DirectiveProcessor.php:28-41 | text put in front of a render keeps the render's outcome and store |
| Engine.PrependTwice | src/app/resources/DirectiveProcessor.php:28-41 | two pieces put in front one after the other are one piece |
| Engine.Components | src/app/resources/DirectiveProcessor.php:130-137 | text without `@` comes out of the component stage unchanged and a finished stage adds no message |
| Engine.ComponentsStep | src/app/resources/DirectiveProcessor.php:132 | where no component call starts, the character is copied and the scan moves on |
| Engine.ComponentsMatch | src/app/resources/DirectiveProcessor.php:132-135 | where a call starts, the rendered component comes first and hands its store on to the rest of the text |
| Engine.RenderComponent | src/app/resources/Component.php:36-58 | a missing component file renders as the error fragment and touches no message |
| Engine.Nested | src/app/resources/Component.php:51-52 | a component nested deeper than the fuel allows is not rendered |
| Engine.ComponentRendered | src/app/resources/Component.php:48-54 | an existing component renders its file's text through the whole pipeline with its parsed parameters |
| Engine.PlainText | src/app/resources/DirectiveProcessor.php:28-41 | text without `@` or `{` comes out of the whole pipeline unchanged |
| Engine.VariablesOnly | src/app/resources/DirectiveProcessor.php:28-41 | text without `@`, before and after its placeholders are filled, comes out of the pipeline with only its placeholders filled |
| Engine.ComponentsInert | src/app/resources/DirectiveProcessor.php:132 | text in which no call starts is copied in front of the rest |
| Engine.ComponentBlock | src/app/resources/DirectiveProcessor.php:132-135 | `@component('name')` is replaced by the component's rendering and the scan goes on after it |
| Engine.MissingComponentShown | src/app/resources/Component.php:43-45 | a call to a missing component shows the not-found fragment in its place |
| Engine.ProcessMonotone | src/app/resources/Component.php:51-52 | more fuel does not change a render that finished |
| Engine.ComponentsMonotone | src/app/resources/DirectiveProcessor.php:130-137 | more fuel does not change a component stage that finished |
| Engine.RenderMonotone | src/app/resources/Component.php:36-58 | more fuel does not change a component that rendered |
| Engine.NestedMonotone | src/app/resources/Component.php:51-52 | more fuel does not change a nested render that finished |
| View.ViewPath | src/app/resources/View.php:101 | the view file is the view directory, then the name, then `.html`, each at its own position |
| View.ViewPathInjective | src/app/resources/View.php:101 | different view names never share a file |
| View.LoadTemplate | src/app/resources/View.php:99-111 | an existing file gives its text; a missing one gives the not-found fragment naming the view and the path |
| View.RenderLayout | src/app/resources/View.php:157-163 | the layout file cut at each `{{slot}}` and glued back with the content in between |
| View.Render | src/app/resources/View.php:79-90 | a finished render stores the data, keeps the layout name, sets the content and adds no message |
| View.Content | src/app/resources/View.php:134 | a page never rendered has empty content |
| View.Layout | src/app/resources/View.php:120-149 | a missing layout returns its not-found fragment; a printed layout adds no message |
| View.SlotUnbordered | src/app/resources/View.php:137 | `{{slot}}` cannot overlap itself |
| View.SlotFilled | src/app/resources/View.php:137 | every slot receives the content and the text between slots is kept |
| View.NoSlot | src/app/resources/View.php:157-163 | a layout without a slot is used as it is |
| View.UnrenderedIsEmpty | src/app/resources/View.php:134 | a page never rendered lays out as one rendered to empty content |
| View.PlainJoin | src/app/resources/View.php:137-140 | directive-free pieces glued together stay directive-free |
| View.LayoutOneSlot | src/app/resources/View.php:126-143 | a directive-free layout with one slot prints its text with the content in place of the slot |
| View.TokenHoldsNoSlot | src/app/resources/View.php:137 | a `{{ name }}` placeholder holds no `{{slot}}` |
| View.TokenThenSlotFilled | src/app/resources/View.php:137 | filling the slot of the layout `{{ x }}{{slot}}` puts the content after the placeholder |
| View.RenderKeepsToken | src/app/resources/View.php:79-90 | `render` does not process the layout: with the layout `{{ x }}{{slot}}`, the content keeps the placeholder as it is, in front of the template text |
| View.LayoutSecondPass | src/app/resources/View.php:120-149 | `layout` runs the combined text through the pipeline again: with the layout `{{ x }}{{slot}}`, the placeholder prints as the page's value for `x` |
| View.RenderThenLayout | src/app/resources/View.php:79-149 | `render` and then `layout` with that layout print the value twice: the placeholder left in the content is filled too |
| View.TokenFilled | src/app/resources/DirectiveProcessor.php:118-119 | a placeholder in front of text without `@` is replaced by its value, and no `@` appears |
| Context.Text | src/app/resources/DirectiveProcessor.php:119 | a string value is its text and null is empty |
| Context.Lookup | src/app/resources/DirectiveProcessor.php:119 | `??`: the default for a missing key or a null value, the stored text otherwise |
| Context.Get | src/app/resources/DirectiveProcessor.php:182 | a missing key reads as null |
| Context.Fields | src/app/resources/DirectiveProcessor.php:187-193 | a scalar item is the single field `value`; an array item keeps its fields in order |

## Left out

- `eval` in `evaluateCondition`: PHP evaluation of a condition is outside the model, so `cond` is an arbitrary function of the condition text with its variables replaced.
- `Exception::render` and the exception logger: the HTML page they print is an arbitrary function of the message.
- The `csrf_token()` helper and `session_start`/`session_status`: the token and the session arrays are parameters and results.
- The switch comparison uses PHP's loose `==`. It is modelled as string equality, which differs only for numeric strings such as `"1"` and `"01"`.
- `Strings.LooseEquals`: PHP 8's `==` between strings is modelled for integer numeric strings (white space, an optional sign, digits), which compare by value. Decimal and exponent forms such as `"1.0"` and `"1e0"`, and integers too large for `int` that PHP compares as floats, compare as exact strings here. This affects the `in_array` of the `mimes` rule.
- The `{{ message }}` filling at `DirectiveProcessor.php:354`: `preg_replace` would read `$1` or `\1` in the message as a backreference. The model inserts the message literally.
- `Engine.Process`: the nesting depth of components is bounded by `fuel`, which the source does not have. A render past the bound is `Exhausted`, not an endless recursion.
- Characters stand for bytes. There is no multibyte or encoding handling, and `\s`/`\w` use the ASCII classes.
- `Strings.IntVal`: the `(int)` cast reads leading white space, an optional sign and leading decimal digits. Exponent forms such as `"1e3"` and the clamping of out-of-range values to the 64-bit limits are left out.
- File I/O (`file_exists`, `file_get_contents`, `file_put_contents`, `file`, `mkdir`, `move_uploaded_file`, `rename`, `glob`): file contents and outcomes are parameters.
- `Context.Value`: values are null, strings and lists only. PHP integers, floats and booleans from a JSON body or from controller data are not modelled.
- `Validator.StringRule`: because of that, the rule's failure on a non-string scalar such as `5` is outside the model.
- `Validator.RequiredRule`: likewise, `empty()` on `0`, `0.0` and `false` is outside the model.
- `Strings.Split`: the function's own contract only says there is at least one piece. `Strings.JoinSplit`, `Strings.SplitJoin` and `Strings.SplitHead` pin the pieces, because more in the function's contract slows every proof that splits text.
- `Strings.Join`: likewise, the function's contract only puts the first part in front. `Strings.SplitJoin` and `Strings.JoinSplit` pin the rest.
- `Strings.Trim`: the function's own contract only bounds the result and rules out listed characters at its ends. The exact value is stated by `Strings.TrimStripped` with `Strings.StrippedUnique`, because an existential in the function's contract would make every caller's proof much slower.
- `Request.Uri`: likewise, the exact value is stated by `Request.UriStripped` and not by the function's contract.
- `Storage.DirectoryFor`: likewise, the exact sub-directory is stated by `Storage.DirectoryStripped` and not by the function's contract.
- `Request.Uri`: `parse_url` is not modelled. The function takes the path part of the URI.
- The JSON decoding of the request body: the decoded array is an input.
- Arrays are maps (`Data`, bound parameters, headers). Key order and the renumbering of integer keys by `array_merge` are not modelled.
- `Model.Keys`: the data array of `create` and `update` is a list of key and value pairs, so it can repeat a key, which no PHP array can. For such a list `Model.Create` and `Model.Update` would name the key twice in their SQL, which `array_keys` never produces. Every array PHP can pass has distinct keys, and `Model.BoundLast` binds each key to its last entry.
- `$_FILES` is reduced to the `Upload` record: upload status, extension and size.
- `filter_var` with the e-mail and integer filters is given (`Filters`). The e-mail filter is whether it accepts the value. The integer filter is the integer it returns, or nothing when it rejects the value.
- The `header('Location: ...')` redirect and `exit` are not modelled. The middleware and `validate` return a verdict instead.
- Opening the PDO connection and its failure: `Database.Connect` stops at the DSN and the credentials.
- `Validator.Strlen`: the `TypeError` an array raises is an `Err` carrying PHP's message. It is not propagated as an exception.
- `Env.Set`: the key is interpolated into a regular expression in the source. The model treats it literally, so a key with regex metacharacters behaves differently.
- `Env.Set`: the replacement `{$key}={$value}` is a `preg_replace` replacement, so `$1`, `\1`, `${1}` and `$0` in it would be expanded (`$0` to the whole old line). The model writes the value literally. `Env.SetThenLoad` assumes a value without such references.
- `Env.RewriteLines`: the same literal replacement, for the same reason as `Env.Set`.
- `Env.Lines`: `file` keeps a carriage return at the end of a last line that no line feed ends, and the model does the same. It handles only `\n` line ends, not the old-Mac `\r` ones that `auto_detect_line_endings` would add.
- Running the queries: the rows a query returns are a parameter (`Model.First`).

=== FILE: context.dfy ===
/**
 * The data a template is rendered with: the associative `$data` array that
 * controllers hand to a view and components receive as parameters.
 */
module Context {
  import opened Wrappers

  /** One element of a list value: a scalar, or a row of named fields. */
  datatype Item = Plain(text: string) | Row(fields: seq<(string, string)>)

  /** A value of the data array: `null`, a string, or a list. */
  datatype Value = Null | Str(text: string) | Arr(items: seq<Item>)

  /** `$data`, keyed by variable name. */
  type Data = map<string, Value>

  /** The string PHP makes of a value when it is spliced into text. */
  function Text(v: Value): (r: string)
    ensures v.Str? ==> r == v.text
    ensures v.Null? ==> r == ""
  {
    match v
    case Null => ""
    case Str(t) => t
    case Arr(_) => "Array"
  }

  /** `$data[k] ?? $default`: a missing key and a `null` value both give the default. */
  function Lookup(d: Data, k: string, default: string): (r: string)
    ensures k !in d ==> r == default
    ensures k in d && d[k].Null? ==> r == default
    ensures k in d && d[k].Str? ==> r == d[k].text
  {
    if k in d && !d[k].Null? then Text(d[k]) else default
  }

  /** `$data[k] ?? null`. */
  function Get(d: Data, k: string): (r: Value)
    ensures k in d ==> r == d[k]
    ensures k !in d ==> r.Null?
  {
    if k in d then d[k] else Null
  }

  /** PHP's `empty()`: `null`, `""`, `"0"` and the empty list. */
  predicate Empty(v: Value) {
    match v
    case Null => true
    case Str(t) => t == "" || t == "0"
    case Arr(items) => items == []
  }

  /** The fields an item of a loop exposes: a scalar becomes the one field `value`. */
  function Fields(it: Item): (r: seq<(string, string)>)
    ensures it.Plain? ==> r == [("value", it.text)]
    ensures it.Row? ==> r == it.fields
  {
    match it
    case Plain(t) => [("value", t)]
    case Row(fs) => fs
  }
}

=== FILE: csrf.dfy ===
/**
 * The CSRF token of a session: created when missing, replaced once it is
 * more than ten minutes old, and compared for identity with the token a
 * form sends back.  The session's two entries are explicit state; the
 * clock and the random token generator are parameters.
 */
module Crsf {
  import opened Wrappers

  /** `$_SESSION['csrf_token']` and `$_SESSION['csrf_token_time']`, each possibly unset. */
  datatype Session = Session(token: Option<string>, time: Option<int>)

  /** The object: the token it read from the session. */
  datatype Crsf = Crsf(crsf: string)

  /** Seconds after which a token is replaced. */
  const Lifetime: int := 600

  /** The constructor replaces the session's token: none is set, or it is older than the lifetime. */
  predicate Stale(sess: Session, now: int) {
    sess.token.None? || (sess.time.Some? && now - sess.time.value > Lifetime)
  }

  /**
   * The constructor at time `now`, with `generated` the value `generateToken`
   * returns: a session without a token gets one stamped `now`; a token
   * older than the lifetime is replaced the same way; the object keeps the
   * session's token.
   */
  function Construct(sess: Session, now: int, generated: string): (r: (Crsf, Session))
    ensures r.1.token == Some(r.0.crsf)
    ensures Stale(sess, now) ==> r.1 == Session(Some(generated), Some(now))
    ensures !Stale(sess, now) ==> r.1 == sess
  {
    var created := if sess.token.None? then Session(Some(generated), Some(now)) else sess;
    var current :=
      if created.time.Some? && now - created.time.value > Lifetime then Session(Some(generated), Some(now))
      else created;
    (Crsf(current.token.value), current)
  }

  /** `getToken`. */
  function GetToken(c: Crsf): string {
    c.crsf
  }

  /** `validateToken`: a token is set in the session and is identical to the one given. */
  function ValidateToken(sess: Session, t: string): (r: bool)
    ensures r <==> sess.token == Some(t)
  {
    sess.token.Some? && sess.token.value == t
  }

  /** A token exactly as old as the lifetime is still kept: the comparison is strict. */
  lemma KeptAtLifetime(t: string, created: int, generated: string)
    ensures Construct(Session(Some(t), Some(created)), created + Lifetime, generated).1 == Session(Some(t), Some(created))
  {
  }

  /** One second later it is replaced. */
  lemma ReplacedAfterLifetime(t: string, created: int, generated: string)
    ensures Construct(Session(Some(t), Some(created)), created + Lifetime + 1, generated).0 == Crsf(generated)
  {
  }

  /** A second construction at the same moment keeps the token the first one left. */
  lemma {:induction false} ConstructTwice(sess: Session, now: int, generated: string, other: string)
    ensures var s1 := Construct(sess, now, generated).1;
      Construct(s1, now, other) == (Construct(sess, now, generated).0, s1)
  {
    var s1 := Construct(sess, now, generated).1;
    assert !Stale(s1, now);
  }

  /** The token the object reports is the one the session accepts. */
  lemma TokenValidates(sess: Session, now: int, generated: string)
    ensures var (c, s1) := Construct(sess, now, generated);
      ValidateToken(s1, GetToken(c))
  {
  }
}

/**
 * `EnsureApplicationCrsfToken::handle`: a POST must carry a truthy
 * `csrf_token` input identical to the session's token, read after the
 * constructor has had the chance to replace it; every other method passes.
 */
module CrsfMiddleware {
  import opened Wrappers
  import opened Strings
  import opened Crsf

  /** The outcome: the request continues, or the error page is shown and the script exits. */
  datatype Verdict = Pass | Reject(message: string)

  /** The message of the exception a rejected request renders. */
  const Invalid: string := "Invalid or missing CSRF token"

  /**
   * `handle` for a request with the given method and `csrf_token` input, at
   * time `now`, with `generated` the token a constructor would generate.
   */
  function Handle(verb: string, input: Option<string>, sess: Session, now: int, generated: string): (r: (Verdict, Session))
    ensures verb != "POST" ==> r == (Pass, sess)
    ensures verb == "POST" && (input.None? || !Truthy(input.value)) ==> r == (Reject(Invalid), sess)
    ensures verb == "POST" && input.Some? && Truthy(input.value) ==>
      r.1 == Construct(sess, now, generated).1 && (r.0 == Pass <==> r.1.token == input)
    ensures r.0 == Pass || r.0 == Reject(Invalid)
  {
    if verb == "POST" then
      if input.None? || !Truthy(input.value) then (Reject(Invalid), sess)
      else
        var (_, s1) := Construct(sess, now, generated);
        if ValidateToken(s1, input.value) then (Pass, s1) else (Reject(Invalid), s1)
    else (Pass, sess)
  }

  /** A form posted back with the session's token within its lifetime is accepted and changes nothing. */
  lemma FreshFormAccepted(t: string, created: int, now: int, generated: string)
    requires Truthy(t) && now - created <= Lifetime
    ensures var sess := Session(Some(t), Some(created));
      Handle("POST", Some(t), sess, now, generated) == (Pass, sess)
  {
  }

  /** After the lifetime the token is replaced, so the old one is rejected unless the new one happens to equal it. */
  lemma StaleFormRejected(t: string, created: int, now: int, generated: string)
    requires Truthy(t) && now - created > Lifetime && generated != t
    ensures var sess := Session(Some(t), Some(created));
      Handle("POST", Some(t), sess, now, generated) == (Reject(Invalid), Session(Some(generated), Some(now)))
  {
  }

  /** A POST is accepted exactly when its input is truthy and matches the token after construction. */
  lemma PostAccepted(input: Option<string>, sess: Session, now: int, generated: string)
    ensures Handle("POST", input, sess, now, generated).0 == Pass
      <==> input.Some? && Truthy(input.value) && Construct(sess, now, generated).1.token == input
  {
  }
}

=== FILE: database.dfy ===
/**
 * `DatabaseFactory`: connection settings read from the environment and the
 * PDO data source name built for the configured driver.  Opening the
 * connection is left out; the model stops at the arguments PDO receives.
 */
module Database {
  import opened Wrappers
  import opened Strings
  import Env

  /** The settings, each a string property. */
  datatype Config = Config(hostname: string, database: string, username: string, password: string, port: string, driver: string)

  /** What `connect` receives: the data source name and the credentials. */
  datatype Connection = Connection(dsn: string, username: string, password: string)

  /** The error PHP raises when `env` returns `null` for a property typed `string`. */
  function Untyped(property: string): string {
    "Cannot assign null to property Monolog\\App\\Helpers\\Database\\DatabaseFactory::$" + property + " of type string"
  }

  /**
   * The constructor: the five settings in order, the first unset one
   * failing; the driver defaults to `mysql`.
   */
  function Construct(vars: Env.Vars): (r: Result<Config>)
    ensures r.Ok? <==> Complete(vars)
    ensures r.Ok? ==> r.value == Config(vars["DB_HOST"], vars["DB_NAME"], vars["DB_USER"], vars["DB_PASSWORD"],
                                        vars["DB_PORT"], Env.Get(vars, "DB_DRIVER", "mysql"))
    ensures "DB_HOST" !in vars ==> r == Err(Untyped("hostname"))
    ensures "DB_HOST" in vars && "DB_NAME" !in vars ==> r == Err(Untyped("database"))
    ensures "DB_HOST" in vars && "DB_NAME" in vars && "DB_USER" !in vars ==> r == Err(Untyped("username"))
    ensures "DB_HOST" in vars && "DB_NAME" in vars && "DB_USER" in vars && "DB_PASSWORD" !in vars
      ==> r == Err(Untyped("password"))
    ensures "DB_HOST" in vars && "DB_NAME" in vars && "DB_USER" in vars && "DB_PASSWORD" in vars && "DB_PORT" !in vars
      ==> r == Err(Untyped("port"))
  {
    if "DB_HOST" !in vars then Err(Untyped("hostname"))
    else if "DB_NAME" !in vars then Err(Untyped("database"))
    else if "DB_USER" !in vars then Err(Untyped("username"))
    else if "DB_PASSWORD" !in vars then Err(Untyped("password"))
    else if "DB_PORT" !in vars then Err(Untyped("port"))
    else Ok(Config(vars["DB_HOST"], vars["DB_NAME"], vars["DB_USER"], vars["DB_PASSWORD"], vars["DB_PORT"],
                   Env.Get(vars, "DB_DRIVER", "mysql")))
  }

  /** All five settings the constructor requires are set. */
  predicate Complete(vars: Env.Vars) {
    "DB_HOST" in vars && "DB_NAME" in vars && "DB_USER" in vars && "DB_PASSWORD" in vars && "DB_PORT" in vars
  }

  /** `key=value` pairs separated by `;`, as a DSN lists them. */
  function Fields(pairs: seq<(string, string)>): string {
    Join(FieldTexts(pairs), ";")
  }

  /** Each pair as `key=value`. */
  function FieldTexts(pairs: seq<(string, string)>): (r: seq<string>)
    ensures |r| == |pairs| && forall i :: 0 <= i < |pairs| ==> r[i] == pairs[i].0 + "=" + pairs[i].1
  {
    seq(|pairs|, i requires 0 <= i < |pairs| => pairs[i].0 + "=" + pairs[i].1)
  }

  /** `host=H;port=P;dbname=D`, shared by MySQL and PostgreSQL. */
  function HostPortName(c: Config): string {
    Fields([("host", c.hostname), ("port", c.port), ("dbname", c.database)])
  }

  /** The message of the exception an unknown driver raises; it names the driver as configured. */
  function Unsupported(driver: string): string {
    "Unsupported database driver: " + driver
  }

  /**
   * `createConnection`: the driver name lower-cased picks the DSN; SQLite
   * takes no credentials; any other driver is an error.
   */
  function Connect(c: Config): (r: Result<Connection>)
    ensures Lower(c.driver) !in {"mysql", "pgsql", "sqlsrv", "sqlite"} <==> r == Err(Unsupported(c.driver))
    ensures Lower(c.driver) == "sqlite" ==> r == Ok(Connection("sqlite:" + c.database, "", ""))
    ensures r.Ok? && Lower(c.driver) != "sqlite" ==> r.value.username == c.username && r.value.password == c.password
  {
    match Lower(c.driver)
    case "mysql" => Ok(Connection("mysql:" + HostPortName(c), c.username, c.password))
    case "pgsql" => Ok(Connection("pgsql:" + HostPortName(c), c.username, c.password))
    case "sqlsrv" =>
      Ok(Connection("sqlsrv:" + Fields([("Server", c.hostname + "," + c.port), ("Database", c.database)]), c.username, c.password))
    case "sqlite" => Ok(Connection("sqlite:" + c.database, "", ""))
    case _ =>
      assert Unsupported(c.driver)[..4] == "Unsu";
      Err(Unsupported(c.driver))
  }

  /** The driver is matched without regard to case: only the error message keeps the configured spelling. */
  lemma DriverCaseInsensitive(c: Config, driver: string)
    requires Lower(driver) == Lower(c.driver)
    ensures Connect(c.(driver := driver)).Ok? <==> Connect(c).Ok?
    ensures Connect(c).Ok? ==> Connect(c.(driver := driver)) == Connect(c)
  {
  }

  /** A `key=value` list whose keys and values hold no `;` splits back into its fields. */
  lemma {:induction false} FieldsRoundTrip(pairs: seq<(string, string)>)
    requires |pairs| > 0
    requires forall i :: 0 <= i < |pairs| ==> ';' !in pairs[i].0 && ';' !in pairs[i].1
    ensures Split(Fields(pairs), ";") == FieldTexts(pairs)
  {
    var ts := FieldTexts(pairs);
    forall i | 0 <= i < |ts|
      ensures Absent(ts[i], ";")
    {
      assert ';' !in pairs[i].0 + "=" + pairs[i].1;
      NoLeadAbsent(ts[i], ";");
    }
    SplitJoin(ts, ";");
  }

  /** The MySQL DSN lists host, port and database name, in that order, after `mysql:`. */
  lemma {:induction false} MySqlDsn(c: Config)
    requires Lower(c.driver) == "mysql"
    requires ';' !in c.hostname && ';' !in c.port && ';' !in c.database
    ensures Connect(c).Ok?
    ensures var dsn := Connect(c).value.dsn;
      dsn[..6] == "mysql:" && Split(dsn[6..], ";") == ["host=" + c.hostname, "port=" + c.port, "dbname=" + c.database]
  {
    var pairs := [("host", c.hostname), ("port", c.port), ("dbname", c.database)];
    var dsn := "mysql:" + Fields(pairs);
    assert dsn[6..] == Fields(pairs);
    FieldsRoundTrip(pairs);
    assert "host" + "=" == "host=" && "port" + "=" == "port=" && "dbname" + "=" == "dbname=";
    assert FieldTexts(pairs) == ["host=" + c.hostname, "port=" + c.port, "dbname=" + c.database];
  }

  /** PostgreSQL gets the same fields as MySQL under its own prefix. */
  lemma {:induction false} PgSqlLikeMySql(c: Config)
    requires Lower(c.driver) == "pgsql"
    ensures Connect(c).Ok? && Connect(c.(driver := "mysql")).Ok?
    ensures Connect(c).value.dsn[6..] == Connect(c.(driver := "mysql")).value.dsn[6..]
    ensures Connect(c).value.dsn[..6] == "pgsql:"
  {
    assert Lower("mysql") == "mysql";
  }

  /** The SQL Server DSN names the server as `host,port`, then the database. */
  lemma {:induction false} SqlServerDsn(c: Config)
    requires Lower(c.driver) == "sqlsrv"
    requires ';' !in c.hostname && ';' !in c.port && ';' !in c.database
    ensures Connect(c).Ok?
    ensures var dsn := Connect(c).value.dsn;
      dsn[..7] == "sqlsrv:" && Split(dsn[7..], ";") == ["Server=" + (c.hostname + "," + c.port), "Database=" + c.database]
  {
    var pairs := [("Server", c.hostname + "," + c.port), ("Database", c.database)];
    var dsn := "sqlsrv:" + Fields(pairs);
    assert dsn[7..] == Fields(pairs);
    assert ';' !in c.hostname + "," + c.port;
    FieldsRoundTrip(pairs);
    assert "Server" + "=" == "Server=" && "Database" + "=" == "Database=";
    assert FieldTexts(pairs) == ["Server=" + (c.hostname + "," + c.port), "Database=" + c.database];
  }

  /** With no `DB_DRIVER` set, the connection is a MySQL one. */
  lemma {:induction false} DefaultDriver(vars: Env.Vars)
    requires Construct(vars).Ok? && "DB_DRIVER" !in vars
    ensures Connect(Construct(vars).value).Ok?
    ensures Connect(Construct(vars).value).value.dsn[..6] == "mysql:"
  {
    assert Lower("mysql") == "mysql";
  }
}

=== FILE: engine.dfy ===
/**
 * The directive pipeline and component rendering: `DirectiveProcessor::process`
 * runs its ten stages in a fixed order, and the component stage renders each
 * `@component(...)` by running a component template through the same
 * pipeline again.  The source sets no depth limit on that recursion; here
 * `fuel` bounds the nesting depth and a render that needs more ends in
 * `Exhausted`.
 */
module Engine {
  import opened Wrappers
  import opened Strings
  import opened Scan
  import opened Context
  import opened Syntax
  import opened Flash
  import opened Stages
  import Validator
  import Env

  /**
   * Everything a render reads besides its text, its data and the flash store:
   * the template files by path, the component and view directories, the
   * loaded `.env` variables, the CSRF token of the session, the validation
   * errors of the session, the `eval` of an `@if` condition and
   * `Exception::render` of an error message.
   */
  datatype Site = Site(files: map<string, string>, componentDir: string, viewDir: string,
                       env: Env.Vars, token: string, errors: Validator.Errors,
                       cond: string -> bool, fragment: string -> string)

  /** The rendered text and the flash store it leaves, or a nesting deeper than the fuel. */
  datatype Render = Done(text: string, store: Store) | Exhausted

  /** `<componentPath><name>.html`. */
  function ComponentPath(site: Site, name: string): (r: string)
    ensures site.componentDir <= r && |r| == |site.componentDir| + |name| + 5
    ensures r[|site.componentDir|..|site.componentDir| + |name|] == name && r[|site.componentDir| + |name|..] == ".html"
  {
    var r := site.componentDir + name + ".html";
    assert r[|site.componentDir|..|site.componentDir| + |name|] == name;
    r
  }

  /** Different component names never share a file. */
  lemma {:induction false} ComponentPathInjective(site: Site, a: string, b: string)
    requires ComponentPath(site, a) == ComponentPath(site, b)
    ensures a == b
  {
    var n := |site.componentDir|;
    assert |a| == |b|;
    assert a == ComponentPath(site, a)[n..n + |a|];
  }

  /** The text `Exception::render` gives for a missing component. */
  function MissingComponent(site: Site, name: string): string {
    site.fragment("Component '" + name + "' not found!")
  }

  /** The data a component receives: its parsed parameters, or none. */
  function ComponentData(params: Option<string>): (r: Data)
    ensures params.None? ==> r == map[]
  {
    match params
    case None => map[]
    case Some(text) => ParseParams(text)
  }

  /** The stages after the components, none of which reads or writes the flash store. */
  function Finish(s: string, site: Site, d: Data): (r: string)
    ensures NoAt(s) ==> r == s
  {
    var loops := ProcessLoops(s, d);
    var conditionals := ProcessConditionals(loops, d, site.cond);
    var switches := ProcessSwitchCases(conditionals, d);
    var assets := ProcessAssets(switches, site.env);
    var images := ProcessImages(assets, site.env);
    var errors := ProcessErrors(images, site.errors);
    ProcessCsrfToken(errors, site.token)
  }

  /**
   * `process`: messages, variables, components, loops, conditionals,
   * switches, assets, images, errors, CSRF token.  Only the message stage
   * and the components it renders touch the flash store, and they only
   * remove messages from it.
   */
  function Process(fuel: nat, site: Site, s: string, d: Data, st: Store): (r: Render)
    ensures r.Done? ==> r.store.Keys <= st.Keys
    decreases fuel, 2, 0
  {
    MessageStoreShrinks(s, st);
    var (messages, st1) := ProcessMessage(s, st);
    var variables := ProcessVariables(messages, d);
    match Components(fuel, site, variables, st1)
    case Exhausted => Exhausted
    case Done(components, st2) => Done(Finish(components, site, d), st2)
  }

  /** Text put in front of a finished rendering; an exhausted one stays exhausted. */
  function Prepend(t: string, r: Render): (p: Render)
    ensures p.Exhausted? <==> r.Exhausted?
    ensures r.Done? ==> p.text == t + r.text && p.store == r.store
  {
    match r
    case Exhausted => Exhausted
    case Done(text, st) => Done(t + text, st)
  }

  /** Two pieces put in front one after the other are their concatenation put in front. */
  lemma {:induction false} PrependTwice(a: string, b: string, r: Render)
    ensures Prepend(a, Prepend(b, r)) == Prepend(a + b, r)
  {
    if r.Done? {
      assert a + (b + r.text) == a + b + r.text;
    }
  }

  /**
   * `processComponents`: the leftmost `@component(...)` is replaced by its
   * rendering and the scan resumes after it; the flash store passes from one
   * rendering to the next.
   */
  function Components(fuel: nat, site: Site, s: string, st: Store): (r: Render)
    ensures NoAt(s) ==> r == Done(s, st)
    ensures r.Done? ==> r.store.Keys <= st.Keys
    decreases fuel, 1, |s|
  {
    if s == [] then Done([], st)
    else
      match ComponentMatch(s)
      case Some(h) =>
        (match RenderComponent(fuel, site, h.value, st)
         case Exhausted => Exhausted
         case Done(out, st1) => Prepend(out, Components(fuel, site, s[h.len..], st1)))
      case None =>
        assert NoAt(s) ==> NoAt(s[1..]) by {
          assert forall k :: 0 <= k < |s[1..]| ==> s[1..][k] == s[k + 1];
        }
        assert NoAt(s) ==> [s[0]] + s[1..] == s;
        Prepend([s[0]], Components(fuel, site, s[1..], st))
  }

  /** Where no component call starts, the first character is copied and the scan moves on. */
  lemma ComponentsStep(fuel: nat, site: Site, s: string, st: Store)
    requires s != [] && ComponentMatch(s).None?
    ensures Components(fuel, site, s, st) == Prepend([s[0]], Components(fuel, site, s[1..], st))
  {
  }

  /** Where a component call starts, its rendering comes first and passes its store on. */
  lemma ComponentsMatch(fuel: nat, site: Site, s: string, st: Store)
    requires ComponentMatch(s).Some?
    requires RenderComponent(fuel, site, ComponentMatch(s).value.value, st).Done?
    ensures var h := ComponentMatch(s).value;
      var first := RenderComponent(fuel, site, h.value, st);
      Components(fuel, site, s, st) == Prepend(first.text, Components(fuel, site, s[h.len..], first.store))
  {
  }

  /**
   * `Component::render`: a missing template gives the error fragment and
   * no exception; otherwise the template runs through the whole pipeline
   * once, with the component's own parameters as its only data.
   */
  function RenderComponent(fuel: nat, site: Site, call: Call, st: Store): (r: Render)
    ensures ComponentPath(site, call.name) !in site.files ==> r == Done(MissingComponent(site, call.name), st)
    ensures r.Done? ==> r.store.Keys <= st.Keys
    decreases fuel, 0, 1
  {
    var path := ComponentPath(site, call.name);
    if path !in site.files then Done(MissingComponent(site, call.name), st)
    else Nested(fuel, site, site.files[path], ComponentData(call.params), st)
  }

  /** The fuel left one level deeper. */
  function Less(fuel: nat): (r: nat)
    requires fuel > 0
    ensures r < fuel
  {
    fuel - 1
  }

  /** One level deeper: the pipeline on a component's template, if fuel is left. */
  function Nested(fuel: nat, site: Site, text: string, d: Data, st: Store): (r: Render)
    ensures fuel == 0 ==> r.Exhausted?
    ensures r.Done? ==> r.store.Keys <= st.Keys
    decreases fuel, 0, 0
  {
    if fuel == 0 then Exhausted else Process(Less(fuel), site, text, d, st)
  }

  /** An existing component is the pipeline run on its template with its parameters alone. */
  lemma ComponentRendered(fuel: nat, site: Site, call: Call, st: Store)
    requires ComponentPath(site, call.name) in site.files
    ensures fuel == 0 ==> RenderComponent(fuel, site, call, st) == Exhausted
    ensures fuel > 0 ==>
      RenderComponent(fuel, site, call, st)
        == Process(Less(fuel), site, site.files[ComponentPath(site, call.name)], ComponentData(call.params), st)
  {
  }

  /** Text holding no directive at all comes out of the pipeline as it went in. */
  lemma PlainText(fuel: nat, site: Site, s: string, d: Data, st: Store)
    requires NoAt(s) && NoBrace(s)
    ensures Process(fuel, site, s, d, st) == Done(s, st)
  {
  }

  /**
   * Text with no directive before or after its placeholders are filled comes
   * out of the pipeline with only the placeholders filled.
   */
  lemma VariablesOnly(fuel: nat, site: Site, s: string, d: Data, st: Store)
    requires NoAt(s) && NoAt(ProcessVariables(s, d))
    ensures Process(fuel, site, s, d, st) == Done(ProcessVariables(s, d), st)
  {
  }

  /** Text in which no component call starts is copied through the component stage. */
  lemma {:induction false} ComponentsInert(fuel: nat, site: Site, t: string, u: string, st: Store)
    requires QuietBefore(t, u, ComponentMatch)
    ensures Components(fuel, site, t + u, st) == Prepend(t, Components(fuel, site, u, st))
    decreases |t|
  {
    if t == [] {
      assert t + u == u;
    } else {
      QuietBeforeTail(t, u, ComponentMatch);
      ComponentsStep(fuel, site, t + u, st);
      ComponentsInert(fuel, site, t[1..], u, st);
      PrependTwice([t[0]], t[1..], Components(fuel, site, u, st));
      assert [t[0]] + t[1..] == t;
    }
  }

  /**
   * A component call after directive-free text is replaced by its rendering,
   * and the rest of the text is rendered with the store that rendering left.
   */
  lemma {:induction false} ComponentBlock(fuel: nat, site: Site, t: string, name: string, u: string, st: Store)
    requires NoAt(t) && IsWord(name)
    requires RenderComponent(fuel, site, Call(name, None), st).Done?
    ensures var first := RenderComponent(fuel, site, Call(name, None), st);
      Components(fuel, site, t + ComponentCall(name) + u, st)
        == Prepend(t + first.text, Components(fuel, site, u, first.store))
  {
    var b := ComponentCall(name);
    var first := RenderComponent(fuel, site, Call(name, None), st);
    assert Components(fuel, site, t + (b + u), st) == Prepend(t, Components(fuel, site, b + u, st)) by {
      QuietWithout(t, b + u, '@', ComponentMatch);
      ComponentsInert(fuel, site, t, b + u, st);
    }
    assert Components(fuel, site, b + u, st) == Prepend(first.text, Components(fuel, site, u, first.store)) by {
      ComponentHead(name, u);
      assert (b + u)[|b|..] == u;
      ComponentsMatch(fuel, site, b + u, st);
    }
    PrependTwice(t, first.text, Components(fuel, site, u, first.store));
    assert t + b + u == t + (b + u);
  }

  /** A call of a component with no template renders its error fragment and nothing else. */
  lemma {:induction false} MissingComponentShown(fuel: nat, site: Site, t: string, name: string, u: string, st: Store)
    requires NoAt(t) && NoAt(u) && IsWord(name)
    requires ComponentPath(site, name) !in site.files
    ensures Components(fuel, site, t + ComponentCall(name) + u, st) == Done(t + MissingComponent(site, name) + u, st)
  {
    ComponentBlock(fuel, site, t, name, u, st);
  }

  /** More fuel changes nothing about a render that finished. */
  lemma {:induction false} ProcessMonotone(fuel: nat, more: nat, site: Site, s: string, d: Data, st: Store)
    requires fuel <= more && Process(fuel, site, s, d, st).Done?
    ensures Process(more, site, s, d, st) == Process(fuel, site, s, d, st)
    decreases fuel, 2, 0
  {
    var (messages, st1) := ProcessMessage(s, st);
    var variables := ProcessVariables(messages, d);
    ComponentsMonotone(fuel, more, site, variables, st1);
  }

  /** More fuel changes nothing about a component stage that finished. */
  lemma {:induction false} ComponentsMonotone(fuel: nat, more: nat, site: Site, s: string, st: Store)
    requires fuel <= more && Components(fuel, site, s, st).Done?
    ensures Components(more, site, s, st) == Components(fuel, site, s, st)
    decreases fuel, 1, |s|
  {
    if s != [] {
      match ComponentMatch(s)
      case Some(h) =>
        RenderMonotone(fuel, more, site, h.value, st);
        var st1 := RenderComponent(fuel, site, h.value, st).store;
        ComponentsMonotone(fuel, more, site, s[h.len..], st1);
      case None =>
        ComponentsMonotone(fuel, more, site, s[1..], st);
    }
  }

  /** More fuel changes nothing about a component rendering that finished. */
  lemma {:induction false} RenderMonotone(fuel: nat, more: nat, site: Site, call: Call, st: Store)
    requires fuel <= more && RenderComponent(fuel, site, call, st).Done?
    ensures RenderComponent(more, site, call, st) == RenderComponent(fuel, site, call, st)
    decreases fuel, 0, 1
  {
    var path := ComponentPath(site, call.name);
    if path in site.files {
      NestedMonotone(fuel, more, site, site.files[path], ComponentData(call.params), st);
    }
  }

  /** More fuel changes nothing about a nested rendering that finished. */
  lemma {:induction false} NestedMonotone(fuel: nat, more: nat, site: Site, text: string, d: Data, st: Store)
    requires fuel <= more && Nested(fuel, site, text, d, st).Done?
    ensures Nested(more, site, text, d, st) == Nested(fuel, site, text, d, st)
    decreases fuel, 0, 0
  {
    assert fuel > 0;
    ProcessMonotone(Less(fuel), Less(more), site, text, d, st);
  }
}

=== FILE: env.dfy ===
/**
 * The `.env` reader: `KEY=value` lines loaded into memory, read back with a
 * default, and rewritten in place by `set`.  The file is its text; reading
 * and writing it are left to the caller.
 */
module Env {
  import opened Wrappers
  import opened Strings

  /** The loaded variables, keyed by name. */
  type Vars = map<string, string>

  /**
   * `file($path, FILE_IGNORE_NEW_LINES | FILE_SKIP_EMPTY_LINES)`: the lines
   * of the text without their line feeds, a carriage return just before a
   * line feed dropped with it, and lines left empty skipped.
   */
  function Lines(text: string): (r: seq<string>)
    ensures forall i :: 0 <= i < |r| ==> r[i] != []
  {
    NonEmpty(StripCR(Split(text, "\n")))
  }

  /** A line without its last character when that is a carriage return. */
  function DropCR(l: string): (r: string)
    ensures r <= l && |l| - 1 <= |r|
    ensures r == l <==> l == [] || l[|l| - 1] != '\r'
  {
    if l != [] && l[|l| - 1] == '\r' then l[..|l| - 1] else l
  }

  /**
   * Each piece a line feed ends loses one carriage return before that line
   * feed (a Windows line end); the last piece, which no line feed ends, is
   * kept as it is.
   */
  function StripCR(ls: seq<string>): (r: seq<string>)
    ensures |r| == |ls|
    ensures forall i :: 0 <= i < |ls| - 1 ==> r[i] == DropCR(ls[i])
    ensures |ls| > 0 ==> r[|ls| - 1] == ls[|ls| - 1]
    decreases |ls|
  {
    if |ls| <= 1 then ls else [DropCR(ls[0])] + StripCR(ls[1..])
  }

  /** The non-empty strings of `ls`, in order. */
  function NonEmpty(ls: seq<string>): (r: seq<string>)
    ensures forall i :: 0 <= i < |r| ==> r[i] != []
    ensures |r| <= |ls|
    ensures forall x :: x in r <==> x in ls && x != []
    ensures (forall i :: 0 <= i < |ls| ==> ls[i] != []) ==> r == ls
  {
    if ls == [] then []
    else if ls[0] == [] then NonEmpty(ls[1..])
    else [ls[0]] + NonEmpty(ls[1..])
  }

  /** Filtering a concatenation filters each part, keeping their order. */
  lemma {:induction false} NonEmptyAppend(a: seq<string>, b: seq<string>)
    ensures NonEmpty(a + b) == NonEmpty(a) + NonEmpty(b)
    decreases |a|
  {
    if a == [] {
      assert a + b == b;
    } else {
      assert (a + b)[0] == a[0] && (a + b)[1..] == a[1..] + b;
      NonEmptyAppend(a[1..], b);
    }
  }

  /** The text of a file whose every line, `eol` included, is one of `ls`. */
  function Terminated(ls: seq<string>, eol: string): string
    decreases |ls|
  {
    if ls == [] then [] else ls[0] + eol + Terminated(ls[1..], eol)
  }

  /** A line that `file` gives back unchanged: not empty, no line feed, no carriage return at its end. */
  predicate PlainLine(l: string) {
    l != [] && '\n' !in l && l[|l| - 1] != '\r'
  }

  /** One terminated plain line comes back first, before the lines of the rest. */
  lemma {:induction false} LinesCons(l: string, eol: string, rest: string)
    requires eol == "\n" || eol == "\r\n"
    requires PlainLine(l)
    ensures Lines(l + eol + rest) == [l] + Lines(rest)
  {
    var head := if eol == "\n" then l else l + "\r";
    assert l + eol + rest == head + "\n" + rest;
    NoCharAbsent(head, '\n');
    SplitHead(head, "\n", rest);
    var tail := Split(rest, "\n");
    assert StripCR([head] + tail) == [DropCR(head)] + StripCR(tail) by {
      assert ([head] + tail)[1..] == tail;
    }
    assert DropCR(head) == l;
    assert ([l] + StripCR(tail))[1..] == StripCR(tail);
  }

  /**
   * Reading back a file written as plain lines, each ended by a line feed or
   * by a carriage return and line feed, gives exactly those lines.
   */
  lemma {:induction false} LinesTerminated(ls: seq<string>, eol: string)
    requires eol == "\n" || eol == "\r\n"
    requires forall i :: 0 <= i < |ls| ==> PlainLine(ls[i])
    ensures Lines(Terminated(ls, eol)) == ls
    decreases |ls|
  {
    if ls == [] {
      assert Split([], "\n") == [[]];
    } else {
      LinesCons(ls[0], eol, Terminated(ls[1..], eol));
      LinesTerminated(ls[1..], eol);
    }
  }

  /** A line whose trimmed text starts with `#`. */
  predicate Comment(line: string) {
    var t := Trim(line, Whitespace);
    t != [] && t[0] == '#'
  }

  /**
   * `explode('=', $line, 2)`: the text before the first `=` and the text
   * after it; nothing when the line holds no `=`.
   */
  function SplitLine(line: string): (r: Option<(string, string)>)
    ensures r.None? <==> Absent(line, "=")
    ensures r.Some? ==> line == r.value.0 + "=" + r.value.1 && Absent(r.value.0, "=")
  {
    match IndexOf(line, "=", 0)
    case None => None
    case Some(e) =>
      assert line[e..e + 1] == "=";
      assert line == line[..e] + "=" + line[e + 1..];
      assert Absent(line[..e], "=") by {
        forall k | 0 <= k
          ensures !At(line[..e], "=", k)
        {
          if k + 1 <= e {
            assert line[..e][k..k + 1] == line[k..k + 1];
            assert !At(line, "=", k);
          }
        }
      }
      Some((line[..e], line[e + 1..]))
  }

  /**
   * One line of `load`: a comment or a line without `=` is skipped;
   * otherwise the value, with surrounding quotes stripped, is stored under
   * the text before the first `=`.
   */
  function LoadLine(vars: Vars, line: string): (r: Vars)
    ensures Comment(line) || Absent(line, "=") ==> r == vars
    ensures !Comment(line) && !Absent(line, "=") ==>
      exists key, value :: line == key + "=" + value && Absent(key, "=") && r == vars[key := Trim(value, Quotes)]
  {
    if Comment(line) then vars
    else
      match SplitLine(line)
      case None => vars
      case Some((key, value)) => vars[key := Trim(value, Quotes)]
  }

  /** `line` is stored by `load` under `key`. */
  predicate LoadsKey(line: string, key: string) {
    !Comment(line) && SplitLine(line).Some? && SplitLine(line).value.0 == key
  }

  /** Some line of `ls` is stored under `key`. */
  predicate Loaded(ls: seq<string>, key: string) {
    exists i :: 0 <= i < |ls| && LoadsKey(ls[i], key)
  }

  /**
   * The lines applied in order, so a later line for the same key wins: no
   * variable is lost, a new one comes from some line, and one no line
   * names keeps its value.
   */
  function LoadLines(vars: Vars, ls: seq<string>): (r: Vars)
    ensures vars.Keys <= r.Keys
    ensures forall k :: k in r && !Loaded(ls, k) ==> k in vars && r[k] == vars[k]
    decreases |ls|
  {
    if ls == [] then vars
    else
      var r := LoadLines(LoadLine(vars, ls[0]), ls[1..]);
      assert forall k :: !Loaded(ls, k) ==> !LoadsKey(ls[0], k) && !Loaded(ls[1..], k) by {
        forall k | !Loaded(ls, k)
          ensures !LoadsKey(ls[0], k) && !Loaded(ls[1..], k)
        {
          assert forall i :: 0 <= i < |ls| - 1 ==> ls[1..][i] == ls[i + 1];
        }
      }
      r
  }

  /**
   * `load`: every variable of the text, on top of those already loaded; a
   * missing file is reported with the message the source raises.
   */
  function Load(vars: Vars, file: Option<string>, path: string): (r: Result<Vars>)
    ensures file.None? ==> r == Err("File .env not found: " + path)
    ensures file.Some? ==> r == Ok(LoadLines(vars, Lines(file.value)))
  {
    match file
    case None => Err("File .env not found: " + path)
    case Some(text) => Ok(LoadLines(vars, Lines(text)))
  }

  /** `get`: the stored value, or the default when the key was never loaded. */
  function Get(vars: Vars, key: string, default: string): (r: string)
    ensures key in vars ==> r == vars[key]
    ensures key !in vars ==> r == default
  {
    if key in vars then vars[key] else default
  }

  /** `KEY=value` as a line of the file. */
  function Entry(key: string, value: string): string {
    key + "=" + value
  }

  /** The first `=` of `key=value` is the one after the key when the key holds none. */
  lemma {:induction false} SplitEntry(key: string, value: string)
    requires Absent(key, "=")
    ensures SplitLine(Entry(key, value)) == Some((key, value))
  {
    var line := Entry(key, value);
    assert line == key + ("=" + value);
    FirstAt(key, "=", value);
    assert line[..|key|] == key;
    assert line[|key| + 1..] == value;
  }

  /** A line of the form `key=value` with the key holding no `=` is stored as that pair. */
  lemma {:induction false} EntryLoads(vars: Vars, key: string, value: string)
    requires Absent(key, "=") && !Comment(Entry(key, value))
    ensures LoadLine(vars, Entry(key, value)) == vars[key := Trim(value, Quotes)]
  {
    SplitEntry(key, value);
  }

  /** Loading one more line acts on the result of the lines before it. */
  lemma {:induction false} LoadLinesSnoc(vars: Vars, ls: seq<string>, line: string)
    ensures LoadLines(vars, ls + [line]) == LoadLine(LoadLines(vars, ls), line)
    decreases |ls|
  {
    if ls == [] {
      assert ls + [line] == [line];
    } else {
      assert (ls + [line])[1..] == ls[1..] + [line];
      LoadLinesSnoc(LoadLine(vars, ls[0]), ls[1..], line);
    }
  }

  /** A later line for a key overrides an earlier one. */
  lemma {:induction false} LastEntryWins(vars: Vars, ls: seq<string>, key: string, value: string)
    requires Absent(key, "=") && !Comment(Entry(key, value))
    ensures var r := LoadLines(vars, ls + [Entry(key, value)]);
      key in r && r[key] == Trim(value, Quotes)
  {
    LoadLinesSnoc(vars, ls, Entry(key, value));
    EntryLoads(LoadLines(vars, ls), key, value);
  }

  /** Lines that are skipped leave the variables untouched. */
  lemma {:induction false} SkippedLines(vars: Vars, ls: seq<string>)
    requires forall i :: 0 <= i < |ls| ==> Comment(ls[i]) || Absent(ls[i], "=")
    ensures LoadLines(vars, ls) == vars
    decreases |ls|
  {
    if ls != [] {
      SkippedLines(vars, ls[1..]);
    }
  }

  /** The lines `set` rewrites: those starting with `key=`. */
  predicate SetsKey(line: string, key: string) {
    key + "=" <= line
  }

  /** Each line of `key=...` becomes `key=value`; every other line is kept. */
  function RewriteLines(ls: seq<string>, key: string, value: string): (r: seq<string>)
    ensures |r| == |ls|
    ensures forall i :: 0 <= i < |ls| ==> r[i] == if SetsKey(ls[i], key) then Entry(key, value) else ls[i]
  {
    seq(|ls|, i requires 0 <= i < |ls| => if SetsKey(ls[i], key) then Entry(key, value) else ls[i])
  }

  /**
   * `set`: the rewritten file text and the updated variables; a missing file
   * or a key with no `key=` line is an error and nothing is written.
   */
  function Set(vars: Vars, file: Option<string>, path: string, key: string, value: string): (r: Result<(string, Vars)>)
    ensures file.None? ==> r == Err("File .env not found: " + path)
    ensures file.Some? && (forall i :: 0 <= i < |Split(file.value, "\n")| ==> !SetsKey(Split(file.value, "\n")[i], key))
      ==> r == Err("Environment variable '" + key + "' not found in .env file.")
    ensures file.Some? && (exists i :: 0 <= i < |Split(file.value, "\n")| && SetsKey(Split(file.value, "\n")[i], key))
      ==> r.Ok?
    ensures r.Ok? ==> r.value.1 == vars[key := value]
    ensures r.Ok? ==> r.value.0 == Join(RewriteLines(Split(file.value, "\n"), key, value), "\n")
  {
    match file
    case None => Err("File .env not found: " + path)
    case Some(text) =>
      var ls := Split(text, "\n");
      if exists i :: 0 <= i < |ls| && SetsKey(ls[i], key) then
        Ok((Join(RewriteLines(ls, key, value), "\n"), vars[key := value]))
      else Err("Environment variable '" + key + "' not found in .env file.")
  }

  /** A line stored under `key` starts with `key=`, so `set` rewrites it. */
  lemma {:induction false} LoadsKeySets(line: string, key: string)
    requires LoadsKey(line, key)
    ensures SetsKey(line, key)
  {
    var v := SplitLine(line).value.1;
    assert line == key + "=" + v;
    assert line[..|key| + 1] == key + "=";
  }

  /**
   * When some line is `key=value` and every line stored under `key` is that
   * one, loading leaves `key` holding the value with its quotes stripped.
   */
  lemma {:induction false} LoadOnly(vars: Vars, ls: seq<string>, key: string, value: string)
    requires Absent(key, "=") && !Comment(Entry(key, value))
    requires Entry(key, value) in ls
    requires forall i :: 0 <= i < |ls| && LoadsKey(ls[i], key) ==> ls[i] == Entry(key, value)
    ensures var r := LoadLines(vars, ls); key in r && r[key] == Trim(value, Quotes)
    decreases |ls|
  {
    var tail := ls[1..];
    if Entry(key, value) in tail {
      TailOnly(ls, key, Entry(key, value));
      assert LoadLines(vars, ls) == LoadLines(LoadLine(vars, ls[0]), tail);
      LoadOnly(LoadLine(vars, ls[0]), tail, key, value);
    } else {
      LoadOnlyHead(vars, ls, key, value);
    }
  }

  /** What every line stored under `key` is, every such line of the tail is too. */
  lemma TailOnly(ls: seq<string>, key: string, e: string)
    requires ls != []
    requires forall i :: 0 <= i < |ls| && LoadsKey(ls[i], key) ==> ls[i] == e
    ensures forall i :: 0 <= i < |ls[1..]| && LoadsKey(ls[1..][i], key) ==> ls[1..][i] == e
  {
    assert forall i :: 0 <= i < |ls[1..]| ==> ls[1..][i] == ls[i + 1];
  }

  /** `LoadOnly` when the one `key=value` line is the first and no later line loads `key`. */
  lemma {:induction false} LoadOnlyHead(vars: Vars, ls: seq<string>, key: string, value: string)
    requires Absent(key, "=") && !Comment(Entry(key, value))
    requires Entry(key, value) in ls && Entry(key, value) !in ls[1..]
    requires forall i :: 0 <= i < |ls| && LoadsKey(ls[i], key) ==> ls[i] == Entry(key, value)
    ensures var r := LoadLines(vars, ls); key in r && r[key] == Trim(value, Quotes)
  {
    var e := Entry(key, value);
    assert ls[0] == e by {
      var i :| 0 <= i < |ls| && ls[i] == e;
    }
    assert !Loaded(ls[1..], key) by {
      assert forall i :: 0 <= i < |ls[1..]| ==> ls[1..][i] == ls[i + 1];
    }
    LoadFirstOnly(vars, ls, key, value);
  }

  /** A leading `key=value` line that no later line overrides decides the key. */
  lemma {:induction false} LoadFirstOnly(vars: Vars, ls: seq<string>, key: string, value: string)
    requires Absent(key, "=") && !Comment(Entry(key, value))
    requires ls != [] && ls[0] == Entry(key, value) && !Loaded(ls[1..], key)
    ensures var r := LoadLines(vars, ls); key in r && r[key] == Trim(value, Quotes)
  {
    EntryLoads(vars, key, value);
    UnloadedKept(LoadLine(vars, ls[0]), ls[1..], key);
  }

  /** A variable no line names keeps its value through the lines. */
  lemma UnloadedKept(vars: Vars, ls: seq<string>, key: string)
    requires key in vars && !Loaded(ls, key)
    ensures key in LoadLines(vars, ls) && LoadLines(vars, ls)[key] == vars[key]
  {
  }

  /** The rewritten lines hold no line feed, so the written text splits back into them. */
  lemma {:induction false} RewriteSplits(ls: seq<string>, key: string, value: string)
    requires |ls| > 0 && forall i :: 0 <= i < |ls| ==> '\n' !in ls[i]
    requires '\n' !in key && '\n' !in value
    ensures var rw := RewriteLines(ls, key, value); Split(Join(rw, "\n"), "\n") == rw
  {
    var rw := RewriteLines(ls, key, value);
    assert '\n' !in Entry(key, value);
    forall i | 0 <= i < |rw|
      ensures Absent(rw[i], "\n")
    {
      NoCharAbsent(rw[i], '\n');
    }
    SplitJoin(rw, "\n");
  }

  /** A rewritten line read back is stored under `key` only if it is `key=value`. */
  lemma {:induction false} RewrittenLine(ls: seq<string>, key: string, value: string, m: nat)
    requires m < |ls|
    requires value == [] || value[|value| - 1] != '\r'
    ensures var x := StripCR(RewriteLines(ls, key, value))[m];
      (SetsKey(ls[m], key) ==> x == Entry(key, value))
      && (LoadsKey(x, key) ==> x == Entry(key, value))
  {
    var rw := RewriteLines(ls, key, value);
    var x := StripCR(rw)[m];
    assert x <= rw[m];
    if SetsKey(ls[m], key) {
      assert DropCR(Entry(key, value)) == Entry(key, value);
    } else if LoadsKey(x, key) {
      LoadsKeySets(x, key);
    }
  }

  /**
   * After `set`, reading the lines back finds `key=value`, and every line
   * stored under `key` is that one.
   */
  lemma {:induction false} RewriteOnly(ls: seq<string>, key: string, value: string, i: nat)
    requires i < |ls| && SetsKey(ls[i], key)
    requires value == [] || value[|value| - 1] != '\r'
    ensures var lines := NonEmpty(StripCR(RewriteLines(ls, key, value)));
      Entry(key, value) in lines
      && forall j :: 0 <= j < |lines| && LoadsKey(lines[j], key) ==> lines[j] == Entry(key, value)
  {
    var cut := StripCR(RewriteLines(ls, key, value));
    var lines := NonEmpty(cut);
    RewrittenLine(ls, key, value, i);
    assert cut[i] in cut;
    forall j | 0 <= j < |lines| && LoadsKey(lines[j], key)
      ensures lines[j] == Entry(key, value)
    {
      assert lines[j] in cut;
      var m :| 0 <= m < |cut| && cut[m] == lines[j];
      RewrittenLine(ls, key, value, m);
    }
  }

  /**
   * What `set` writes, `load` reads back: whatever was loaded before, the
   * variable then holds the new value with its quotes stripped.  The key
   * holds no `=` and is not a comment, and neither part holds a line feed
   * nor does the value end in a carriage return.
   */
  lemma {:induction false} SetThenLoad(vars: Vars, text: string, path: string, key: string, value: string, before: Vars)
    requires Set(vars, Some(text), path, key, value).Ok?
    requires Absent(key, "=") && !Comment(Entry(key, value))
    requires '\n' !in key && '\n' !in value && (value == [] || value[|value| - 1] != '\r')
    ensures var r := Load(before, Some(Set(vars, Some(text), path, key, value).value.0), path);
      r.Ok? && key in r.value && r.value[key] == Trim(value, Quotes)
  {
    var ls := Split(text, "\n");
    SplitPiecesLack(text, '\n');
    RewriteSplits(ls, key, value);
    var i :| 0 <= i < |ls| && SetsKey(ls[i], key);
    RewriteOnly(ls, key, value, i);
    LoadOnly(before, NonEmpty(StripCR(RewriteLines(ls, key, value))), key, value);
  }
}

=== FILE: flash.dfy ===
/**
 * The one-shot flash messages kept in the session under `messages`: a
 * message is stored under a name and handed out once.  The response object
 * and the message directive of the template engine read the store the same way.
 */
module Flash {
  import opened Wrappers

  /** `$_SESSION['messages']`, keyed by message name. */
  type Store = map<string, string>

  /** `setMessage`: store `msg` under `name`, replacing any earlier one. */
  function SetMessage(st: Store, name: string, msg: string): (r: Store)
    ensures name in r && r[name] == msg
    ensures forall k :: k in st && k != name ==> k in r && r[k] == st[k]
    ensures forall k :: k in r ==> k == name || k in st
  {
    st[name := msg]
  }

  /**
   * `getMessage`: the message stored under `name`, removed from the store;
   * nothing, and the store untouched, when there is none.
   */
  function GetMessage(st: Store, name: string): (r: (Option<string>, Store))
    ensures r.0.Some? <==> name in st
    ensures r.0.Some? ==> r.0.value == st[name]
    ensures name !in r.1
    ensures forall k :: k != name ==> (k in r.1 <==> k in st) && (k in st ==> r.1[k] == st[k])
  {
    if name !in st then (None, st)
    else (Some(st[name]), st - {name})
  }

  /** `hasMessage`: whether a message is stored under `name`; the store is not touched. */
  predicate HasMessage(st: Store, name: string) {
    name in st
  }

  /** A message that was just set is what the next read returns. */
  lemma GetAfterSet(st: Store, name: string, msg: string)
    ensures GetMessage(SetMessage(st, name, msg), name).0 == Some(msg)
    ensures GetMessage(SetMessage(st, name, msg), name).1 == GetMessage(st, name).1
  {
  }

  /** A message is handed out once: reading it again right away gives nothing. */
  lemma GetTwice(st: Store, name: string)
    ensures GetMessage(GetMessage(st, name).1, name) == (None, GetMessage(st, name).1)
  {
  }

  /** Reading an absent name leaves the store exactly as it was. */
  lemma GetAbsent(st: Store, name: string)
    requires !HasMessage(st, name)
    ensures GetMessage(st, name) == (None, st)
  {
  }

  /** `hasMessage` says whether `getMessage` would return something. */
  lemma HasIsGet(st: Store, name: string)
    ensures HasMessage(st, name) <==> GetMessage(st, name).0.Some?
  {
  }

  /** Setting or reading one name does not disturb the message of another. */
  lemma OtherNames(st: Store, name: string, other: string, msg: string)
    requires other != name
    ensures GetMessage(SetMessage(st, name, msg), other).0 == GetMessage(st, other).0
    ensures GetMessage(GetMessage(st, name).1, other).0 == GetMessage(st, other).0
  {
  }
}

=== FILE: migration.dfy ===
/**
 * `Migration`: the SQL text of the schema helpers a migration calls.  The
 * statements are built by string interpolation and handed to the database
 * unchanged; executing them is left out.
 */
module Migration {
  import opened Wrappers
  import opened Strings

  /** An identifier in backticks. */
  function Quote(name: string): (r: string)
    ensures |r| == |name| + 2 && r[0] == '`' && r[|r| - 1] == '`' && r[1..|r| - 1] == name
  {
    "`" + name + "`"
  }

  /** One column of `createTable`: the quoted name, a space, the type. */
  function ColumnDef(column: (string, string)): string {
    Quote(column.0) + " " + column.1
  }

  /** The definitions of the columns, in the order of the array. */
  function ColumnDefs(columns: seq<(string, string)>): (r: seq<string>)
    ensures |r| == |columns|
    ensures forall i :: 0 <= i < |columns| ==> r[i] == ColumnDef(columns[i])
  {
    seq(|columns|, i requires 0 <= i < |columns| => ColumnDef(columns[i]))
  }

  /** The column list: the definitions joined by `, `. */
  function ColumnsSql(columns: seq<(string, string)>): string {
    Join(ColumnDefs(columns), ", ")
  }

  /** A quoted identifier between the text before it and the text after it. */
  function Quoted(head: string, name: string, tail: string): string {
    head + Quote(name) + tail
  }

  /** Texts each followed by a quoted identifier, then a closing text. */
  function Chain(pairs: seq<(string, string)>, last: string): string
    decreases |pairs|
  {
    if pairs == [] then last else Quoted(pairs[0].0, pairs[0].1, Chain(pairs[1..], last))
  }

  /** The text a create statement opens with. */
  const CreateHead: string := "CREATE TABLE IF NOT EXISTS "

  /** `createTable`. */
  function CreateTable(table: string, columns: seq<(string, string)>): (r: string)
    ensures r == "CREATE TABLE IF NOT EXISTS `" + table + "` (" + ColumnsSql(columns) + ");"
  {
    var tail := " (" + ColumnsSql(columns) + ");";
    assert Chain([(CreateHead, table)], tail) == Quoted(CreateHead, table, Chain([], tail));
    Chain([(CreateHead, table)], tail)
  }

  /** The name `addForeignKey` gives its constraint. */
  function ConstraintName(table: string, column: string): (r: string)
    ensures |r| == 4 + |table| + |column|
    ensures r[..3] == "fk_" && r[3..3 + |table|] == table
    ensures r[3 + |table|] == '_' && r[4 + |table|..] == column
  {
    "fk_" + table + "_" + column
  }

  /** The line break and indentation inside the foreign key statement's literal. */
  const Break: string := "\r\n                  "

  /** `addForeignKey`: five quoted identifiers and the two actions, over three lines. */
  function AddForeignKey(table: string, column: string, refTable: string, refColumn: string, onDelete: string, onUpdate: string): (r: string)
    ensures r == Quoted("ALTER TABLE ", table,
                 Quoted(" ADD CONSTRAINT ", ConstraintName(table, column),
                 Quoted(Break + "FOREIGN KEY (", column,
                 Quoted(") REFERENCES ", refTable,
                 Quoted(" (", refColumn, ")" + Break + "ON DELETE " + onDelete + " ON UPDATE " + onUpdate + ";")))))
  {
    var ps := [("ALTER TABLE ", table), (" ADD CONSTRAINT ", ConstraintName(table, column)),
               (Break + "FOREIGN KEY (", column), (") REFERENCES ", refTable), (" (", refColumn)];
    var last := ")" + Break + "ON DELETE " + onDelete + " ON UPDATE " + onUpdate + ";";
    assert Chain(ps[4..], last) == Quoted(" (", refColumn, last) by {
      assert ps[4..][1..] == [];
    }
    assert Chain(ps[3..], last) == Quoted(") REFERENCES ", refTable, Chain(ps[4..], last)) by {
      assert ps[3..][1..] == ps[4..];
    }
    assert Chain(ps[2..], last) == Quoted(Break + "FOREIGN KEY (", column, Chain(ps[3..], last)) by {
      assert ps[2..][1..] == ps[3..];
    }
    assert Chain(ps[1..], last) == Quoted(" ADD CONSTRAINT ", ConstraintName(table, column), Chain(ps[2..], last)) by {
      assert ps[1..][1..] == ps[2..];
    }
    Chain(ps, last)
  }

  /** `addForeignKey` with its default actions. */
  function AddForeignKeyDefault(table: string, column: string, refTable: string, refColumn: string): (r: string)
    ensures r == Quoted("ALTER TABLE ", table,
                 Quoted(" ADD CONSTRAINT ", ConstraintName(table, column),
                 Quoted(Break + "FOREIGN KEY (", column,
                 Quoted(") REFERENCES ", refTable,
                 Quoted(" (", refColumn, ")" + Break + "ON DELETE CASCADE ON UPDATE CASCADE;")))))
  {
    AddForeignKey(table, column, refTable, refColumn, "CASCADE", "CASCADE")
  }

  /** `dropForeignKey`. */
  function DropForeignKey(table: string, column: string): (r: string)
    ensures r == Quoted("ALTER TABLE ", table, Quoted(" DROP FOREIGN KEY ", ConstraintName(table, column), ";"))
  {
    var ps := [("ALTER TABLE ", table), (" DROP FOREIGN KEY ", ConstraintName(table, column))];
    assert Chain(ps[1..], ";") == Quoted(" DROP FOREIGN KEY ", ConstraintName(table, column), ";") by {
      assert ps[1..][1..] == [];
    }
    Chain(ps, ";")
  }

  /** `dropTable`: the name is not quoted. */
  function DropTable(table: string): (r: string)
    ensures |r| == 22 + |table| && r[..21] == "DROP TABLE IF EXISTS " && r[21..21 + |table|] == table && r[21 + |table|] == ';'
  {
    var r := "DROP TABLE IF EXISTS " + table + ";";
    assert r[21..21 + |table|] == table;
    r
  }

  /** Identifiers and actions free of backticks, as the statements' pieces need them. */
  predicate Plain(s: string) {
    '`' !in s
  }

  /** `explode('`', ...)` cuts a quoted identifier and the text before it off the front. */
  lemma {:induction false} QuotedSplit(head: string, name: string, tail: string)
    requires Plain(head) && Plain(name)
    ensures Split(Quoted(head, name, tail), "`") == [head, name] + Split(tail, "`")
  {
    var rest := name + "`" + tail;
    assert Quoted(head, name, tail) == head + "`" + rest;
    assert Split(head + "`" + rest, "`") == [head] + Split(rest, "`") by {
      NoLeadAbsent(head, "`");
      SplitHead(head, "`", rest);
    }
    assert Split(rest, "`") == [name] + Split(tail, "`") by {
      NoLeadAbsent(name, "`");
      SplitHead(name, "`", tail);
    }
  }

  /** The pieces a chain is made of, in order: each text, its identifier, and the closing text. */
  function Pieces(pairs: seq<(string, string)>, last: string): (r: seq<string>)
    ensures |r| == 2 * |pairs| + 1 && r[2 * |pairs|] == last
    ensures forall i :: 0 <= i < |pairs| ==> r[2 * i] == pairs[i].0 && r[2 * i + 1] == pairs[i].1
    decreases |pairs|
  {
    if pairs == [] then [last]
    else
      var rest := Pieces(pairs[1..], last);
      assert forall i :: 1 <= i < |pairs| ==> rest[2 * (i - 1)] == pairs[i].0 && rest[2 * (i - 1) + 1] == pairs[i].1;
      [pairs[0].0, pairs[0].1] + rest
  }

  /** Every text and identifier of a chain free of backticks. */
  predicate PlainPairs(pairs: seq<(string, string)>) {
    forall i :: 0 <= i < |pairs| ==> Plain(pairs[i].0) && Plain(pairs[i].1)
  }

  /** `explode('`', ...)` takes a chain of backtick-free pieces apart again. */
  lemma {:induction false} ChainSplit(pairs: seq<(string, string)>, last: string)
    requires PlainPairs(pairs) && Plain(last)
    ensures Split(Chain(pairs, last), "`") == Pieces(pairs, last)
    decreases |pairs|
  {
    if pairs == [] {
      NoLeadAbsent(last, "`");
    } else {
      ChainSplit(pairs[1..], last);
      QuotedSplit(pairs[0].0, pairs[0].1, Chain(pairs[1..], last));
    }
  }

  /** A constraint name is as free of backticks as its table and column. */
  lemma PlainConstraint(table: string, column: string)
    requires Plain(table) && Plain(column)
    ensures Plain(ConstraintName(table, column))
  {
  }

  /** The pieces between the backticks of a foreign key statement: the table, the constraint, the columns. */
  lemma {:induction false} ForeignKeyPieces(table: string, column: string, refTable: string, refColumn: string, onDelete: string, onUpdate: string)
    requires Plain(table) && Plain(column) && Plain(refTable) && Plain(refColumn) && Plain(onDelete) && Plain(onUpdate)
    ensures var p := Split(AddForeignKey(table, column, refTable, refColumn, onDelete, onUpdate), "`");
      |p| == 11
      && p[0] == "ALTER TABLE " && p[1] == table
      && p[2] == " ADD CONSTRAINT " && p[3] == ConstraintName(table, column)
      && p[4] == Break + "FOREIGN KEY (" && p[5] == column
      && p[6] == ") REFERENCES " && p[7] == refTable
      && p[8] == " (" && p[9] == refColumn
      && p[10] == ")" + Break + "ON DELETE " + onDelete + " ON UPDATE " + onUpdate + ";"
  {
    var pairs := [("ALTER TABLE ", table), (" ADD CONSTRAINT ", ConstraintName(table, column)),
                  (Break + "FOREIGN KEY (", column), (") REFERENCES ", refTable), (" (", refColumn)];
    var last := ")" + Break + "ON DELETE " + onDelete + " ON UPDATE " + onUpdate + ";";
    assert PlainPairs(pairs) && Plain(last) by {
      PlainConstraint(table, column);
    }
    ChainSplit(pairs, last);
    var p := Pieces(pairs, last);
    assert p[0] == pairs[0].0 && p[1] == pairs[0].1 && p[2] == pairs[1].0 && p[3] == pairs[1].1;
    assert p[4] == pairs[2].0 && p[5] == pairs[2].1 && p[6] == pairs[3].0 && p[7] == pairs[3].1;
    assert p[8] == pairs[4].0 && p[9] == pairs[4].1;
  }

  /** The pieces between the backticks of a drop statement: the table and the constraint. */
  lemma {:induction false} DropForeignKeyPieces(table: string, column: string)
    requires Plain(table) && Plain(column)
    ensures var p := Split(DropForeignKey(table, column), "`");
      |p| == 5 && p[0] == "ALTER TABLE " && p[1] == table
      && p[2] == " DROP FOREIGN KEY " && p[3] == ConstraintName(table, column) && p[4] == ";"
  {
    var pairs := [("ALTER TABLE ", table), (" DROP FOREIGN KEY ", ConstraintName(table, column))];
    assert PlainPairs(pairs) && Plain(";") by {
      PlainConstraint(table, column);
    }
    ChainSplit(pairs, ";");
    var p := Pieces(pairs, ";");
    assert p[0] == pairs[0].0 && p[1] == pairs[0].1 && p[2] == pairs[1].0 && p[3] == pairs[1].1;
  }

  /** Without explicit actions, the statement ends by cascading both deletes and updates. */
  lemma {:induction false} DefaultActions(table: string, column: string, refTable: string, refColumn: string)
    requires Plain(table) && Plain(column) && Plain(refTable) && Plain(refColumn)
    ensures var p := Split(AddForeignKeyDefault(table, column, refTable, refColumn), "`");
      |p| == 11 && p[10] == ")" + Break + "ON DELETE CASCADE ON UPDATE CASCADE;"
  {
    var add := AddForeignKey(table, column, refTable, refColumn, "CASCADE", "CASCADE");
    assert AddForeignKeyDefault(table, column, refTable, refColumn) == add;
    var p := Split(add, "`");
    assert |p| == 11 && p[10] == ")" + Break + "ON DELETE " + "CASCADE" + " ON UPDATE " + "CASCADE" + ";" by {
      ForeignKeyPieces(table, column, refTable, refColumn, "CASCADE", "CASCADE");
    }
    CascadeText();
  }

  /** The closing text with both actions `CASCADE`, written as one literal. */
  lemma CascadeText()
    ensures ")" + Break + "ON DELETE " + "CASCADE" + " ON UPDATE " + "CASCADE" + ";" == ")" + Break + "ON DELETE CASCADE ON UPDATE CASCADE;"
  {
    var a := "ON DELETE " + "CASCADE" + " ON UPDATE " + "CASCADE" + ";";
    assert a == "ON DELETE CASCADE ON UPDATE CASCADE;";
    assert ")" + Break + "ON DELETE " + "CASCADE" + " ON UPDATE " + "CASCADE" + ";" == ")" + Break + a;
  }

  /** `dropForeignKey` names the same table and the same constraint that `addForeignKey` created. */
  lemma {:induction false} DropMatchesAdd(table: string, column: string, refTable: string, refColumn: string, onDelete: string, onUpdate: string)
    requires Plain(table) && Plain(column) && Plain(refTable) && Plain(refColumn) && Plain(onDelete) && Plain(onUpdate)
    ensures var add := Split(AddForeignKey(table, column, refTable, refColumn, onDelete, onUpdate), "`");
      var drop := Split(DropForeignKey(table, column), "`");
      |add| > 3 && |drop| > 3 && add[1] == drop[1] == table && add[3] == drop[3] == ConstraintName(table, column)
  {
    var add := Split(AddForeignKey(table, column, refTable, refColumn, onDelete, onUpdate), "`");
    var drop := Split(DropForeignKey(table, column), "`");
    assert |add| == 11 && add[1] == table && add[3] == ConstraintName(table, column) by {
      ForeignKeyPieces(table, column, refTable, refColumn, onDelete, onUpdate);
    }
    assert |drop| == 5 && drop[1] == table && drop[3] == ConstraintName(table, column) by {
      DropForeignKeyPieces(table, column);
    }
  }

  /** Constraint names are not unique: an underscore can sit in the table or in the column. */
  lemma ConstraintNamesCollide()
    ensures ConstraintName("a_b", "c") == ConstraintName("a", "b_c")
  {
  }

  /** The text between fixed openers and closers around a quoted identifier. */
  lemma {:induction false} QuotedMiddle(head: string, name: string, open: string, mid: string, close: string)
    ensures var s := Quoted(head, name, open + mid + close);
      |s| == |head| + |name| + 2 + |open| + |mid| + |close|
      && s[|head| + |name| + 2 + |open|..|s| - |close|] == mid
  {
    var s := Quoted(head, name, open + mid + close);
    assert s == (head + Quote(name) + open) + mid + close;
  }

  /** A create statement is the quoted table between its opening text and the column list in parentheses. */
  lemma {:induction false} CreateTableShape(table: string, columns: seq<(string, string)>)
    ensures CreateTable(table, columns) == Quoted(CreateHead, table, " (" + ColumnsSql(columns) + ");")
  {
    var tail := " (" + ColumnsSql(columns) + ");";
    assert Chain([(CreateHead, table)], tail) == Quoted(CreateHead, table, Chain([], tail));
  }

  /** The table name of a create statement is its second backtick-separated piece. */
  lemma {:induction false} CreateTableName(table: string, columns: seq<(string, string)>)
    requires Plain(table)
    ensures var p := Split(CreateTable(table, columns), "`");
      |p| >= 2 && p[0] == CreateHead && p[1] == table
  {
    CreateTableShape(table, columns);
    assert Plain(CreateHead);
    QuotedSplit(CreateHead, table, " (" + ColumnsSql(columns) + ");");
  }

  /** The column list of a create statement sits between the table's ` (` and the closing `);`. */
  lemma {:induction false} CreateTableColumns(table: string, columns: seq<(string, string)>)
    ensures var s := CreateTable(table, columns);
      |s| >= |CreateHead| + |table| + 6
      && s[|CreateHead| + |table| + 4..|s| - 2] == ColumnsSql(columns)
  {
    CreateTableShape(table, columns);
    QuotedMiddle(CreateHead, table, " (", ColumnsSql(columns), ");");
  }

  /** Reads one column definition back: the name between the first backtick and the next "` ", then the type. */
  function ParseColumn(def: string): (r: Option<(string, string)>)
    ensures r.Some? ==> ColumnDef(r.value) == def
  {
    if def == [] || def[0] != '`' then None
    else
      match IndexOf(def, "` ", 1)
      case None => None
      case Some(k) =>
        assert def[k..k + 2] == "` ";
        ColumnDefAt(def, k);
        Some((def[1..k], def[k + 2..]))
  }

  /** A definition opening with a backtick and holding "` " at `k` is the column it delimits. */
  lemma {:induction false} ColumnDefAt(def: string, k: nat)
    requires 1 <= k && k + 2 <= |def| && def[0] == '`' && def[k..k + 2] == "` "
    ensures ColumnDef((def[1..k], def[k + 2..])) == def
  {
    var name, ty := def[1..k], def[k + 2..];
    var d := ColumnDef((name, ty));
    assert d == "`" + name + "`" + " " + ty;
    assert |d| == |def|;
    forall i | 0 <= i < |def|
      ensures d[i] == def[i]
    {
      if i == 0 {
      } else if i < k {
        assert d[i] == name[i - 1];
      } else if i == k {
        assert def[k] == def[k..k + 2][0];
      } else if i == k + 1 {
        assert def[k + 1] == def[k..k + 2][1];
      } else {
        assert d[i] == ty[i - k - 2];
      }
    }
  }

  /** A column whose name has no backtick is read back from its definition. */
  lemma {:induction false} ColumnRoundTrip(column: (string, string))
    requires Plain(column.0)
    ensures ParseColumn(ColumnDef(column)) == Some(column)
  {
    var (name, ty) := column;
    var def := ColumnDef(column);
    NoLeadAbsent(name, "` ");
    LeadUniqueUnbordered("` ");
    assert def == "`" + (name + ("` " + ty));
    SearchPast("`", name, "` ", ty, name + ("` " + ty), def, 1, 1 + |name|);
    assert def[1..1 + |name|] == name;
    assert def[1 + |name| + 2..] == ty;
  }

  /**
   * With names free of backticks and neither names nor types holding a
   * comma, the column list splits back into the columns, in order.
   */
  lemma {:induction false} ColumnsRoundTrip(columns: seq<(string, string)>)
    requires |columns| > 0
    requires forall i :: 0 <= i < |columns| ==> Plain(columns[i].0) && ',' !in columns[i].0 && ',' !in columns[i].1
    ensures |Split(ColumnsSql(columns), ", ")| == |columns|
    ensures forall i :: 0 <= i < |columns| ==> ParseColumn(Split(ColumnsSql(columns), ", ")[i]) == Some(columns[i])
  {
    var defs := ColumnDefs(columns);
    forall i | 0 <= i < |defs|
      ensures Absent(defs[i], ", ")
    {
      assert defs[i] == "`" + columns[i].0 + "` " + columns[i].1;
      NoLeadAbsent(defs[i], ", ");
    }
    LeadUniqueUnbordered(", ");
    SplitJoin(defs, ", ");
    forall i | 0 <= i < |columns|
      ensures ParseColumn(defs[i]) == Some(columns[i])
    {
      ColumnRoundTrip(columns[i]);
    }
  }

  /** Reads the table name back from a drop statement. */
  function DroppedTable(stmt: string): (r: Option<string>)
    ensures r.Some? ==> DropTable(r.value) == stmt
  {
    var head := "DROP TABLE IF EXISTS ";
    if |stmt| >= |head| + 1 && stmt[..|head|] == head && stmt[|stmt| - 1] == ';' then
      var t := stmt[|head|..|stmt| - 1];
      assert stmt == head + t + ";";
      Some(t)
    else None
  }

  /** Every table name, backticks and all, is read back from its drop statement. */
  lemma {:induction false} DropTableRoundTrip(table: string)
    ensures DroppedTable(DropTable(table)) == Some(table)
  {
    var s := DropTable(table);
    assert s[..21] == "DROP TABLE IF EXISTS ";
    assert s[21..|s| - 1] == table;
  }
}

=== FILE: model.dfy ===
/**
 * `Model`: the SQL statements and bound parameters of the table-level CRUD
 * helpers and of the dynamic `findBy<Column>` finders.  Running a statement
 * is left to the caller: the rows a query returns are a parameter.
 */
module Model {
  import opened Wrappers
  import opened Strings
  import opened Context

  /** A value bound to a named placeholder: an id argument, or a value from the data array. */
  datatype Param = Id(id: int) | Field(value: Value)

  /** A prepared statement and the parameters it is executed with. */
  datatype Statement = Statement(sql: string, params: map<string, Param>)

  /** A model bound to its table. */
  datatype Model = Model(table: string)

  /** The message of the exception a model without a table name renders. */
  const NoTable: string := "Table name not defined."

  /** The constructor: a subclass must set the table name. */
  function Construct(tbname: Option<string>): (r: Result<Model>)
    ensures tbname.None? <==> r == Err(NoTable)
    ensures tbname.Some? ==> r == Ok(Model(tbname.value))
  {
    match tbname
    case None => Err(NoTable)
    case Some(t) => Ok(Model(t))
  }

  /** `all`: every row of the model's table, with nothing bound. */
  function All(m: Model): (r: Statement)
    ensures "SELECT * FROM " <= r.sql && r.sql[14..] == m.table
    ensures r.params == map[]
  {
    Statement("SELECT * FROM " + m.table, map[])
  }

  /** `find`: the row with the given id, at most one. */
  function Find(m: Model, id: int): (r: Statement)
    ensures "SELECT * FROM " <= r.sql && |r.sql| == 14 + |m.table| + 23
    ensures r.sql[14..14 + |m.table|] == m.table
    ensures r.sql[14 + |m.table|..] == " WHERE id = :id LIMIT 1"
    ensures r.params == map["id" := Id(id)]
  {
    Statement("SELECT * FROM " + m.table + " WHERE id = :id LIMIT 1", map["id" := Id(id)])
  }

  /** `$result ? $result[0] : null`: the first row, or nothing when the query returned none. */
  function First(rows: seq<Data>): (r: Option<Data>)
    ensures r.None? <==> rows == []
    ensures r.Some? ==> r.value == rows[0]
  {
    if rows == [] then None else Some(rows[0])
  }

  /** `array_keys($data)`. */
  function Keys(data: seq<(string, Value)>): (r: seq<string>)
    ensures |r| == |data| && forall i :: 0 <= i < |data| ==> r[i] == data[i].0
  {
    seq(|data|, i requires 0 <= i < |data| => data[i].0)
  }

  /** `$data` as bound parameters: each value under its key, a later entry overriding an earlier one. */
  function Bound(data: seq<(string, Value)>): (r: map<string, Param>)
    ensures forall k :: k in r <==> k in Keys(data)
    decreases |data|
  {
    if data == [] then map[]
    else
      var init := data[..|data| - 1];
      assert forall i :: 0 <= i < |init| ==> init[i] == data[i];
      Bound(init)[data[|data| - 1].0 := Field(data[|data| - 1].1)]
  }

  /** A key is bound to the value of its last entry. */
  lemma {:induction false} BoundLast(data: seq<(string, Value)>, i: nat)
    requires i < |data|
    requires forall j :: i < j < |data| ==> data[j].0 != data[i].0
    ensures Bound(data)[data[i].0] == Field(data[i].1)
    decreases |data|
  {
    var init := data[..|data| - 1];
    if i < |data| - 1 {
      assert init[i] == data[i];
      forall j | i < j < |init|
        ensures init[j].0 != init[i].0
      {
        assert init[j] == data[j];
      }
      BoundLast(init, i);
    }
  }

  /** `":" . implode(", :", $keys)`. */
  function Placeholders(keys: seq<string>): string {
    ":" + Join(keys, ", :")
  }

  /** Each key with a colon in front. */
  function Named(keys: seq<string>): (r: seq<string>)
    ensures |r| == |keys| && forall i :: 0 <= i < |keys| ==> r[i] == ":" + keys[i]
  {
    seq(|keys|, i requires 0 <= i < |keys| => ":" + keys[i])
  }

  /** For at least one key, the placeholders are the keys' `:key` names joined by `, `, in the same order. */
  lemma {:induction false} PlaceholdersNamed(keys: seq<string>)
    requires |keys| > 0
    ensures Placeholders(keys) == Join(Named(keys), ", ")
    decreases |keys|
  {
    if |keys| > 1 {
      var k := keys[0];
      var rest := keys[1..];
      PlaceholdersNamed(rest);
      assert Named(keys) == [":" + k] + Named(rest);
      JoinCons(":" + k, Named(rest), ", ");
      JoinCons(k, rest, ", :");
      assert keys == [k] + rest;
      assert ":" + (k + ", :" + Join(rest, ", :")) == ":" + k + ", " + (":" + Join(rest, ", :"));
    } else {
      assert Named(keys) == [":" + keys[0]];
    }
  }

  /** With no data at all, the placeholder list is a lone colon, not an empty list. */
  lemma EmptyPlaceholders()
    ensures Placeholders([]) == ":"
  {
  }

  /** `create`: the keys as the column list and as `:key` placeholders, the data as parameters. */
  function Create(m: Model, data: seq<(string, Value)>): (r: Statement)
    ensures var t, cols := m.table, Join(Keys(data), ", ");
      |r.sql| == 14 + |t| + |cols| + 11 + |Placeholders(Keys(data))|
      && r.sql[..12] == "INSERT INTO " && r.sql[12..12 + |t|] == t && r.sql[12 + |t|..14 + |t|] == " ("
      && r.sql[14 + |t|..14 + |t| + |cols|] == cols
      && r.sql[14 + |t| + |cols|..] == ") VALUES (" + Placeholders(Keys(data)) + ")"
    ensures r.params == Bound(data)
  {
    var keys := Keys(data);
    var tail := ") VALUES (" + Placeholders(keys) + ")";
    FiveParts("INSERT INTO ", m.table, " (", Join(keys, ", "), tail);
    Statement("INSERT INTO " + m.table + " (" + Join(keys, ", ") + tail, Bound(data))
  }

  /** Where each of five glued pieces sits in the text. */
  lemma FiveParts(a: string, b: string, c: string, d: string, e: string)
    ensures var s, i, j, k, l := a + b + c + d + e, |a|, |a| + |b|, |a| + |b| + |c|, |a| + |b| + |c| + |d|;
      |s| == l + |e| && s[..i] == a && s[i..j] == b && s[j..k] == c && s[k..l] == d && s[l..] == e
  {
  }

  /**
   * With keys free of commas, the column list and the placeholder list of
   * `create` split into the same number of entries, and each placeholder
   * names the column in the same position.
   */
  lemma {:induction false} CreateLinesUp(keys: seq<string>)
    requires |keys| > 0 && forall i :: 0 <= i < |keys| ==> ',' !in keys[i]
    ensures var cols := Split(Join(keys, ", "), ", ");
      var phs := Split(Placeholders(keys), ", ");
      cols == keys && |phs| == |cols| && forall i :: 0 <= i < |cols| ==> phs[i] == ":" + cols[i]
  {
    LeadUniqueUnbordered(", ");
    forall i | 0 <= i < |keys|
      ensures Absent(keys[i], ", ") && Absent(Named(keys)[i], ", ")
    {
      NoLeadAbsent(keys[i], ", ");
      assert ',' !in ":" + keys[i];
      NoLeadAbsent(Named(keys)[i], ", ");
    }
    SplitJoin(keys, ", ");
    PlaceholdersNamed(keys);
    SplitJoin(Named(keys), ", ");
  }

  /** One assignment of `update`. */
  function Assignment(key: string): string {
    key + " = :" + key
  }

  /** The assignments of `update`, one per key in order. */
  function Assignments(keys: seq<string>): (r: seq<string>)
    ensures |r| == |keys| && forall i :: 0 <= i < |keys| ==> r[i] == Assignment(keys[i])
  {
    seq(|keys|, i requires 0 <= i < |keys| => Assignment(keys[i]))
  }

  /**
   * `update`: `key = :key` for each key, the row chosen by `:id`, and the
   * id argument bound as `id` whether or not the data held an `id` of its own.
   */
  function Update(m: Model, id: int, data: seq<(string, Value)>): (r: Statement)
    ensures var t, fields := m.table, Join(Assignments(Keys(data)), ", ");
      |r.sql| == 12 + |t| + |fields| + 15
      && r.sql[..7] == "UPDATE " && r.sql[7..7 + |t|] == t && r.sql[7 + |t|..12 + |t|] == " SET "
      && r.sql[12 + |t|..12 + |t| + |fields|] == fields
      && r.sql[12 + |t| + |fields|..] == " WHERE id = :id"
    ensures "id" in r.params && r.params["id"] == Id(id)
    ensures r.params.Keys == Bound(data).Keys + {"id"}
    ensures forall k :: k in Bound(data) && k != "id" ==> r.params[k] == Bound(data)[k]
  {
    var fields := Join(Assignments(Keys(data)), ", ");
    FiveParts("UPDATE ", m.table, " SET ", fields, " WHERE id = :id");
    Statement("UPDATE " + m.table + " SET " + fields + " WHERE id = :id", Bound(data)["id" := Id(id)])
  }

  /** Each assignment reads back as its key on both sides of ` = :`. */
  lemma {:induction false} UpdateLinesUp(keys: seq<string>)
    requires |keys| > 0 && forall i :: 0 <= i < |keys| ==> ',' !in keys[i]
    ensures var fs := Split(Join(Assignments(keys), ", "), ", ");
      |fs| == |keys| && forall i :: 0 <= i < |keys| ==> fs[i] == keys[i] + " = :" + keys[i]
  {
    LeadUniqueUnbordered(", ");
    forall i | 0 <= i < |keys|
      ensures Absent(Assignments(keys)[i], ", ")
    {
      assert ',' !in Assignment(keys[i]);
      NoLeadAbsent(Assignments(keys)[i], ", ");
    }
    SplitJoin(Assignments(keys), ", ");
  }

  /** `delete`: the row of the model's table with the given id. */
  function Delete(m: Model, id: int): (r: Statement)
    ensures "DELETE FROM " <= r.sql && |r.sql| == 12 + |m.table| + 15
    ensures r.sql[12..12 + |m.table|] == m.table
    ensures r.sql[12 + |m.table|..] == " WHERE id = :id"
    ensures r.params == map["id" := Id(id)]
  {
    Statement("DELETE FROM " + m.table + " WHERE id = :id", map["id" := Id(id)])
  }

  /**
   * `delete` removes the row `find` reads: the same table, the same `WHERE`
   * clause and the same bound id; `find` only adds `LIMIT 1`.
   */
  lemma {:induction false} DeleteWhatFindReads(m: Model, id: int)
    ensures Find(m, id).params == Delete(m, id).params
    ensures Find(m, id).sql == "SELECT * FROM " + Delete(m, id).sql[12..] + " LIMIT 1"
  {
    var d := Delete(m, id).sql;
    assert d[12..] == m.table + " WHERE id = :id";
  }

  /** The column a `findBy` method queries: every `findBy` removed from the name, then lower-cased. */
  function FinderColumn(name: string): (r: string)
    ensures forall k :: 0 <= k < |r| ==> !('A' <= r[k] <= 'Z')
  {
    Lower(ReplaceAll(name, "findBy", ""))
  }

  /** `$arguments[0]`, `null` when the call passed none. */
  function FirstArgument(args: seq<Value>): (r: Value)
    ensures args == [] ==> r == Null
    ensures args != [] ==> r == args[0]
  {
    if args == [] then Null else args[0]
  }

  /** The message of the exception an unknown method renders. */
  function NoMethod(name: string): string {
    "Method " + name + " does not exist in the model."
  }

  /**
   * `__call`: a name starting with `findBy` queries one row by the column it
   * names, bound to the first argument; any other name is an error.
   */
  function Call(m: Model, name: string, args: seq<Value>): (r: Result<Statement>)
    ensures !("findBy" <= name) <==> r == Err(NoMethod(name))
    ensures r.Ok? ==> r.value.params == map["value" := Field(FirstArgument(args))]
    ensures r.Ok? ==> var t, c := m.table, FinderColumn(name);
      |r.value.sql| == 21 + |t| + |c| + 17
      && r.value.sql[..14] == "SELECT * FROM " && r.value.sql[14..14 + |t|] == t
      && r.value.sql[14 + |t|..21 + |t|] == " WHERE " && r.value.sql[21 + |t|..21 + |t| + |c|] == c
      && r.value.sql[21 + |t| + |c|..] == " = :value LIMIT 1"
  {
    if "findBy" <= name then
      FiveParts("SELECT * FROM ", m.table, " WHERE ", FinderColumn(name), " = :value LIMIT 1");
      Ok(Statement("SELECT * FROM " + m.table + " WHERE " + FinderColumn(name) + " = :value LIMIT 1",
                   map["value" := Field(FirstArgument(args))]))
    else
      assert NoMethod(name)[..7] == "Method ";
      Err(NoMethod(name))
  }

  /** `findByEmail` queries the column `email`: the prefix goes and the rest is lower-cased. */
  lemma {:induction false} FinderColumnOf(column: string)
    requires Absent(column, "findBy")
    ensures FinderColumn("findBy" + column) == Lower(column)
  {
    var s := "findBy" + column;
    assert "findBy" <= s;
    assert s[6..] == column;
  }

  /** `findByEmail(x)` selects one row of the table whose lower-cased column `email` equals `x`. */
  lemma {:induction false} FinderQuery(m: Model, column: string, args: seq<Value>)
    requires Absent(column, "findBy")
    ensures Call(m, "findBy" + column, args).Ok?
    ensures Call(m, "findBy" + column, args).value.sql
      == "SELECT * FROM " + m.table + " WHERE " + Lower(column) + " = :value LIMIT 1"
  {
    assert "findBy" <= "findBy" + column;
    FinderColumnOf(column);
  }

  /** The prefix test is case-sensitive: `FindByEmail` is not a finder. */
  lemma {:induction false} FinderPrefixCaseSensitive(column: string)
    ensures Call(Model(""), "FindBy" + column, []).Err?
  {
    assert ("FindBy" + column)[0] == 'F';
  }
}

=== FILE: request.dfy ===
/**
 * `Request`: the parameters of an incoming HTTP request, read from the
 * server's arrays once at construction.  The superglobals, the raw body and
 * its JSON decoding are inputs; every accessor falls back on a default.
 */
module Request {
  import opened Wrappers
  import opened Strings
  import opened Context
  import Validator

  /** The arrays a request keeps. */
  datatype Request = Request(vars: Data, query: Data, body: Data, headers: Data, cookies: Data)

  /** What `json_decode($input, true)` gives: an array, or anything else (a scalar, `null`, a syntax error). */
  datatype Json = Array(entries: Data) | NotArray

  /**
   * The constructor: route parameters start empty, the body is parsed, the
   * headers come from the server array; `$_GET ?? []` and `$_COOKIE ?? []`
   * are the given arrays.
   */
  function Capture(verb: string, get: Data, post: Data, input: Json, server: seq<(string, Value)>, cookies: Data): (r: Request)
    ensures r.vars == map[]
    ensures r.query == get && r.cookies == cookies
    ensures r.body == ParseBody(verb, post, input)
    ensures r.headers == Headers(server)
  {
    Request(map[], get, ParseBody(verb, post, input), Headers(server), cookies)
  }

  /** `$array[$key] ?? $default`: the default for a missing key or a `null` value. */
  function Keyed(m: Data, key: string, default: Value): (r: Value)
    ensures key !in m || m[key].Null? ==> r == default
    ensures key in m && !m[key].Null? ==> r == m[key]
  {
    if key in m && !m[key].Null? then m[key] else default
  }

  /** `param`. */
  function Param(req: Request, key: string, default: Value): Value {
    Keyed(req.vars, key, default)
  }

  /** `query`. */
  function Query(req: Request, key: string, default: Value): Value {
    Keyed(req.query, key, default)
  }

  /** `input`. */
  function Input(req: Request, key: string, default: Value): Value {
    Keyed(req.body, key, default)
  }

  /** `header`. */
  function Header(req: Request, key: string, default: Value): Value {
    Keyed(req.headers, key, default)
  }

  /** `cookie`. */
  function Cookie(req: Request, key: string, default: Value): Value {
    Keyed(req.cookies, key, default)
  }

  /** A key absent from the array gives the default from every accessor, whatever the default is. */
  lemma AccessorsDefault(req: Request, key: string, default: Value)
    requires key !in req.vars && key !in req.query && key !in req.body && key !in req.headers && key !in req.cookies
    ensures Param(req, key, default) == default && Query(req, key, default) == default
    ensures Input(req, key, default) == default && Header(req, key, default) == default
    ensures Cookie(req, key, default) == default
  {
  }

  /**
   * `all`: `array_merge($query, $body)`; every key of either array, the
   * body's value where both have one.
   */
  function All(req: Request): (r: Data)
    ensures r.Keys == req.query.Keys + req.body.Keys
    ensures forall k :: k in req.body ==> r[k] == req.body[k]
    ensures forall k :: k in req.query && k !in req.body ==> r[k] == req.query[k]
  {
    req.query + req.body
  }

  /** `all()` and `input()` agree on every key the body sets to something other than `null`. */
  lemma AllAgreesWithInput(req: Request, key: string, default: Value)
    requires key in req.body && !req.body[key].Null?
    ensures All(req)[key] == Input(req, key, default)
  {
  }

  /** `uri`: the request path without leading and trailing slashes. */
  function Uri(path: string): (r: string)
    ensures r == [] || (r[0] != '/' && r[|r| - 1] != '/')
  {
    Trim(path, {'/'})
  }

  /** The URI is the path with only slashes cut from its ends, and no slash left at either end. */
  lemma {:induction false} UriStripped(path: string)
    ensures Stripped(path, {'/'}, Uri(path))
  {
    TrimStripped(path, {'/'});
  }

  /** Trimming the slashes twice is trimming them once. */
  lemma {:induction false} UriIdempotent(path: string)
    ensures Uri(Uri(path)) == Uri(path)
  {
    TrimIdempotent(path, {'/'});
  }

  /** `url`: the scheme, the host header and the request URI. */
  function Url(host: string, requestUri: string): (r: string)
    ensures |r| == 7 + |host| + |requestUri|
    ensures r[..7] == "http://" && r[7..7 + |host|] == host && r[7 + |host|..] == requestUri
  {
    "http://" + host + requestUri
  }

  /** A server key that carries a header. */
  predicate IsHeader(key: string) {
    "HTTP_" <= key
  }

  /** The header name of such a key: the prefix dropped, every `_` turned into `-`. */
  function HeaderName(key: string): (r: string)
    requires IsHeader(key)
  {
    ReplaceAll(key[5..], "_", "-")
  }

  /** The header name has one character per character after the prefix, underscores turned into dashes. */
  lemma {:induction false} HeaderNameChars(key: string)
    requires IsHeader(key)
    ensures |HeaderName(key)| == |key| - 5
    ensures forall k :: 5 <= k < |key| ==> HeaderName(key)[k - 5] == (if key[k] == '_' then '-' else key[k])
  {
    ReplaceChar(key[5..], '_', '-');
  }

  /** Some entry of the server array carries the header `name`. */
  predicate Carries(server: seq<(string, Value)>, name: string) {
    exists i :: 0 <= i < |server| && IsHeader(server[i].0) && HeaderName(server[i].0) == name
  }

  /**
   * `getHeaders`: the server array's entries in order, each header key
   * stored under its header name, a later entry overwriting an earlier one.
   */
  function Headers(server: seq<(string, Value)>): (r: Data)
    ensures forall name :: name in r <==> Carries(server, name)
    decreases |server|
  {
    if server == [] then map[]
    else
      var init := server[..|server| - 1];
      var (key, value) := server[|server| - 1];
      var acc := Headers(init);
      assert forall i :: 0 <= i < |init| ==> init[i] == server[i];
      if IsHeader(key) then acc[HeaderName(key) := value] else acc
  }

  /** A header's value is the one of the last entry that carries it. */
  lemma {:induction false} LastHeaderWins(server: seq<(string, Value)>, i: nat)
    requires i < |server| && IsHeader(server[i].0)
    requires forall j :: i < j < |server| && IsHeader(server[j].0) ==> HeaderName(server[j].0) != HeaderName(server[i].0)
    ensures Headers(server)[HeaderName(server[i].0)] == server[i].1
    decreases |server|
  {
    var init := server[..|server| - 1];
    if i < |server| - 1 {
      assert init[i] == server[i];
      forall j | i < j < |init| && IsHeader(init[j].0)
        ensures HeaderName(init[j].0) != HeaderName(init[i].0)
      {
        assert init[j] == server[j];
      }
      LastHeaderWins(init, i);
    }
  }

  /**
   * `parseBody`: the form data of a POST; otherwise the decoded JSON body
   * when it is an array, and no parameters when it is not.
   */
  function ParseBody(verb: string, post: Data, input: Json): (r: Data)
    ensures verb == "POST" ==> r == post
    ensures verb != "POST" && input.NotArray? ==> r == map[]
    ensures verb != "POST" && input.Array? ==> r == input.entries
  {
    if verb == "POST" then post
    else
      match input
      case Array(entries) => entries
      case NotArray => map[]
  }

  /** What `validate` leads to: the body handed back, or a redirect to the previous page. */
  datatype Checked = Passed(data: Data, session: Validator.Errors) | Redirected(session: Validator.Errors)

  /**
   * `validate`: without rules the body is returned as it is; otherwise the
   * body is validated, a failure stores the errors and redirects, and a
   * success clears the stored errors and returns the body.
   */
  function Validate(req: Request, rules: seq<(string, string)>, inp: Validator.Inputs, session: Validator.Errors): (r: Result<Checked>)
    requires inp.data == req.body
    ensures rules == [] ==> r == Ok(Passed(req.body, session))
    ensures r.Ok? && r.value.Passed? ==> r.value.data == req.body
    ensures rules != [] && r.Ok? && r.value.Passed? ==> r.value.session == map[]
    ensures rules != [] && r.Ok? ==> (r.value.Redirected? <==> Validator.SomeFailsFrom(rules, 0, inp))
    ensures r.Ok? && r.value.Redirected? ==> r.value.session != map[]
    ensures rules != [] && r.Ok? && r.value.Redirected? ==>
      Validator.Validate(rules, inp).Ok? && r.value.session == Validator.Validate(rules, inp).value
  {
    if rules == [] then Ok(Passed(req.body, session))
    else
      match Validator.Validate(rules, inp)
      case Err(e) => Err(e)
      case Ok(errs) =>
        Validator.ValidateFails(rules, inp);
        if Validator.Fails(errs) then Ok(Redirected(Validator.StoreErrors(session, errs)))
        else Ok(Passed(req.body, Validator.Forget(session)))
  }
}

=== FILE: router.dfy ===
/**
 * `Router`: routes registered per HTTP method under an optional group
 * prefix, and the matcher that finds the first route whose pattern, with
 * each `{name}` standing for one or more characters other than `/`,
 * covers the whole URI.  Callbacks and middlewares are names; running
 * them is left to the caller.
 */
module Router {
  import opened Wrappers
  import opened Strings

  /** One registered route: its pattern, its callback and its middlewares. */
  datatype Route = Route(pattern: string, action: string, middlewares: seq<string>)

  /** The routes of one method in registration order, as PHP's array keeps them. */
  type Table = seq<Route>

  /** The route tables by method and the prefix of the group being registered. */
  datatype Router = Router(routes: map<string, Table>, prefix: string)

  /** A router with no routes and no group. */
  const Empty: Router := Router(map[], "")

  // ---------------------------------------------------------- registration

  /** The first route of the table registered under `pattern`. */
  function Lookup(t: Table, pattern: string): (r: Option<Route>)
    ensures r.Some? ==> r.value in t && r.value.pattern == pattern
    ensures r.None? <==> forall i :: 0 <= i < |t| ==> t[i].pattern != pattern
  {
    if t == [] then None
    else if t[0].pattern == pattern then Some(t[0])
    else Lookup(t[1..], pattern)
  }

  /**
   * `$routes[$method][$route] = ...`: an existing key keeps its place and
   * takes the new callback and middlewares; a new key goes last.
   */
  function Register(t: Table, route: Route): (r: Table)
    ensures Lookup(t, route.pattern).Some? ==> |r| == |t|
    ensures Lookup(t, route.pattern).None? ==> |r| == |t| + 1 && r[|t|] == route
    ensures forall i :: 0 <= i < |t| ==> r[i].pattern == t[i].pattern
    ensures forall i :: 0 <= i < |t| && t[i].pattern != route.pattern ==> r[i] == t[i]
    ensures Lookup(r, route.pattern) == Some(route)
  {
    if t == [] then [route]
    else if t[0].pattern == route.pattern then [route] + t[1..]
    else [t[0]] + Register(t[1..], route)
  }

  /** The routes of a method; a method never registered has none. */
  function RoutesOf(router: Router, verb: string): (r: Table)
    ensures verb !in router.routes ==> r == []
  {
    if verb in router.routes then router.routes[verb] else []
  }

  /** The key a route is stored under: `prefix/route` inside a group whose prefix is truthy. */
  function Key(prefix: string, route: string): (r: string)
    ensures Truthy(prefix) ==> r == prefix + "/" + route
    ensures !Truthy(prefix) ==> r == route
  {
    if Truthy(prefix) then prefix + "/" + route else route
  }

  /** `addRoute` (and `get`, `post`, `put`, `delete`). */
  function AddRoute(router: Router, verb: string, route: string, action: string, middlewares: seq<string>): (r: Router)
    ensures r.prefix == router.prefix
    ensures r.routes.Keys == router.routes.Keys + {verb}
    ensures Lookup(RoutesOf(r, verb), Key(router.prefix, route)) == Some(Route(Key(router.prefix, route), action, middlewares))
    ensures forall v :: v in router.routes && v != verb ==> r.routes[v] == router.routes[v]
  {
    var entry := Route(Key(router.prefix, route), action, middlewares);
    router.(routes := router.routes[verb := Register(RoutesOf(router, verb), entry)])
  }

  /** What a routes file does: register a route, or run a group's registrations under a prefix. */
  datatype Step =
    | Add(verb: string, route: string, action: string, middlewares: seq<string>)
    | Group(prefix: string, body: seq<Step>)

  /**
   * The registrations in order; `group` sets the prefix to its own argument
   * for its body, not joined to an outer one, and then restores the old one.
   */
  function Run(router: Router, steps: seq<Step>): (r: Router)
    ensures r.routes.Keys == router.routes.Keys + Verbs(steps)
    decreases steps
  {
    if steps == [] then router
    else
      match steps[0]
      case Add(verb, route, action, mws) => Run(AddRoute(router, verb, route, action, mws), steps[1..])
      case Group(p, body) =>
        var inner := Run(router.(prefix := p), body);
        Run(inner.(prefix := router.prefix), steps[1..])
  }

  /** The methods the registrations name, groups included. */
  function Verbs(steps: seq<Step>): set<string>
    decreases steps
  {
    if steps == [] then {}
    else
      match steps[0]
      case Add(verb, _, _, _) => {verb} + Verbs(steps[1..])
      case Group(_, body) => Verbs(body) + Verbs(steps[1..])
  }

  /** Registering never changes the current prefix once every group has closed. */
  lemma {:induction false} RunKeepsPrefix(router: Router, steps: seq<Step>)
    ensures Run(router, steps).prefix == router.prefix
    decreases steps
  {
    if steps != [] {
      match steps[0]
      case Add(verb, route, action, mws) =>
        RunKeepsPrefix(AddRoute(router, verb, route, action, mws), steps[1..]);
      case Group(p, body) =>
        var inner := Run(router.(prefix := p), body);
        RunKeepsPrefix(inner.(prefix := router.prefix), steps[1..]);
    }
  }

  /** A route inside a group is stored under the group's own prefix, whatever group encloses it. */
  lemma {:induction false} GroupedRoute(router: Router, p: string, verb: string, route: string, action: string, mws: seq<string>)
    ensures var r := Run(router, [Group(p, [Add(verb, route, action, mws)])]);
      r.prefix == router.prefix
      && Lookup(RoutesOf(r, verb), Key(p, route)) == Some(Route(Key(p, route), action, mws))
  {
    var steps := [Group(p, [Add(verb, route, action, mws)])];
    var body := [Add(verb, route, action, mws)];
    assert body[1..] == [] && steps[1..] == [];
    var inner := Run(router.(prefix := p), body);
    assert inner == Run(AddRoute(router.(prefix := p), verb, route, action, mws), body[1..]);
    assert inner == AddRoute(router.(prefix := p), verb, route, action, mws);
    assert Run(router, steps) == Run(inner.(prefix := router.prefix), []);
  }

  // -------------------------------------------------------------- patterns

  /** One piece of a route pattern: a character matched literally, or a `{name}` placeholder. */
  datatype Seg = Lit(c: char) | Hole

  /** The index of the first `}` at or after `i`. */
  function CloseAt(p: string, i: nat): (r: Option<nat>)
    ensures r.Some? ==> i <= r.value < |p| && p[r.value] == '}'
    ensures r.Some? ==> forall k :: i <= k < r.value ==> p[k] != '}'
    ensures r.None? ==> forall k :: i <= k < |p| ==> p[k] != '}'
    decreases |p| - i
  {
    if i >= |p| then None
    else if p[i] == '}' then Some(i)
    else CloseAt(p, i + 1)
  }

  /**
   * The pattern as `matchRoute` builds its regular expression: a `{`
   * followed by one or more characters other than `}` and then a `}` is a
   * placeholder; every other character, an unmatched `{` included, stands
   * for itself.
   */
  function Segments(p: string): (r: seq<Seg>)
    ensures |r| <= |p| && 3 * Holes(r) <= |p|
    decreases |p|
  {
    if p == [] then []
    else if p[0] == '{' then
      match CloseAt(p, 1)
      case Some(j) =>
        if j > 1 then [Hole] + Segments(p[j + 1..]) else [Lit('{')] + Segments(p[1..])
      case None => [Lit('{')] + Segments(p[1..])
    else [Lit(p[0])] + Segments(p[1..])
  }

  /** `CloseAt` finds the first `}` from its start. */
  lemma {:induction false} CloseAtFirst(p: string, i: nat, j: nat)
    requires i <= j < |p| && p[j] == '}'
    requires forall k :: i <= k < j ==> p[k] != '}'
    ensures CloseAt(p, i) == Some(j)
    decreases j - i
  {
    if i < j {
      CloseAtFirst(p, i + 1, j);
    }
  }

  /** `{name}` with a non-empty name free of `}` is one placeholder, whatever follows it. */
  lemma {:induction false} SegmentsHole(name: string, rest: string)
    requires name != [] && '}' !in name
    ensures Segments("{" + name + "}" + rest) == [Hole] + Segments(rest)
  {
    var p := "{" + name + "}" + rest;
    forall k | 1 <= k < 1 + |name|
      ensures p[k] != '}'
    {
      assert p[k] == name[k - 1];
    }
    CloseAtFirst(p, 1, 1 + |name|);
    assert p[|name| + 2..] == rest;
  }

  /** A pattern without `{` is matched character by character. */
  lemma {:induction false} LiteralSegments(p: string)
    requires forall k :: 0 <= k < |p| ==> p[k] != '{'
    ensures |Segments(p)| == |p|
    ensures forall k :: 0 <= k < |p| ==> Segments(p)[k] == Lit(p[k])
    decreases |p|
  {
    if p != [] {
      LiteralSegments(p[1..]);
    }
  }

  // -------------------------------------------------------------- matching

  /** The number of placeholders. */
  function Holes(segs: seq<Seg>): nat {
    if segs == [] then 0 else (if segs[0].Hole? then 1 else 0) + Holes(segs[1..])
  }

  /** The length of the run of non-`/` characters `u` starts with. */
  function RunLen(u: string): (r: nat)
    ensures r <= |u|
    ensures forall k :: 0 <= k < r ==> u[k] != '/'
    ensures r < |u| ==> u[r] == '/'
  {
    if u == [] || u[0] == '/' then 0 else 1 + RunLen(u[1..])
  }

  /** A prefix free of `/` lies inside the run. */
  lemma {:induction false} RunLenAtLeast(u: string, m: nat)
    requires m <= |u| && forall k :: 0 <= k < m ==> u[k] != '/'
    ensures m <= RunLen(u)
    decreases m
  {
    if m > 0 {
      RunLenAtLeast(u[1..], m - 1);
    }
  }

  /** `$` without the `D` flag: the end of the subject, or just before a final line feed. */
  predicate AtEnd(u: string) {
    u == [] || u == "\n"
  }

  /**
   * `preg_match("#^$pattern$#", $uri)` with its captures: each `([^/]+)`
   * first takes the longest run it can and gives characters back one at a
   * time until the rest of the pattern matches.
   */
  function Match(segs: seq<Seg>, u: string): (r: Option<seq<string>>)
    ensures r.Some? ==> |r.value| == Holes(segs)
    ensures segs == [] ==> (r.Some? <==> AtEnd(u))
    decreases |segs|, 1, 0
  {
    if segs == [] then (if AtEnd(u) then Some([]) else None)
    else
      match segs[0]
      case Lit(c) => if u != [] && u[0] == c then Match(segs[1..], u[1..]) else None
      case Hole => TryHole(segs[1..], u, RunLen(u))
  }

  /** A placeholder tries its first `n` characters, then fewer, down to one. */
  function TryHole(rest: seq<Seg>, u: string, n: nat): (r: Option<seq<string>>)
    requires n <= |u|
    ensures r.Some? ==> |r.value| == 1 + Holes(rest) && 1 <= |r.value[0]| <= n && r.value[0] == u[..|r.value[0]|]
    ensures r.Some? ==> Match(rest, u[|r.value[0]|..]) == Some(r.value[1..])
    decreases |rest| + 1, 0, n
  {
    if n == 0 then None
    else
      match Match(rest, u[n..])
      case Some(caps) => Some([u[..n]] + caps)
      case None => TryHole(rest, u, n - 1)
  }

  /** The text a pattern stands for once each placeholder is given its capture. */
  function Fill(segs: seq<Seg>, caps: seq<string>): string
    requires |caps| == Holes(segs)
  {
    if segs == [] then []
    else if segs[0].Hole? then caps[0] + Fill(segs[1..], caps[1..])
    else [segs[0].c] + Fill(segs[1..], caps)
  }

  /** A capture a placeholder can take: one or more characters, none of them `/`. */
  predicate Capture(c: string) {
    c != [] && forall k :: 0 <= k < |c| ==> c[k] != '/'
  }

  /** The captures fill the pattern into the whole URI, or into all of it but a final line feed. */
  predicate Accepts(segs: seq<Seg>, caps: seq<string>, u: string) {
    |caps| == Holes(segs)
    && (forall i :: 0 <= i < |caps| ==> Capture(caps[i]))
    && (Fill(segs, caps) == u || Fill(segs, caps) + "\n" == u)
  }

  /** What a placeholder returns: a first capture of at most `n` characters, the rest matched after it. */
  lemma {:induction false} TryHoleSound(rest: seq<Seg>, u: string, n: nat)
    requires n <= RunLen(u)
    ensures var r := TryHole(rest, u, n);
      r.Some? ==> (|r.value| > 0 && 1 <= |r.value[0]| <= n && r.value[0] == u[..|r.value[0]|]
        && Match(rest, u[|r.value[0]|..]) == Some(r.value[1..]))
    decreases n
  {
    if n > 0 && Match(rest, u[n..]).None? {
      TryHoleSound(rest, u, n - 1);
    }
  }

  /** Every match the matcher reports fills the pattern into the URI. */
  lemma {:induction false} MatchSound(segs: seq<Seg>, u: string)
    ensures Match(segs, u).Some? ==> Accepts(segs, Match(segs, u).value, u)
    decreases |segs|
  {
    if segs != [] && Match(segs, u).Some? {
      var caps := Match(segs, u).value;
      match segs[0]
      case Lit(c) =>
        MatchSound(segs[1..], u[1..]);
        LitAccepts(segs, caps, u);
      case Hole =>
        TryHoleSound(segs[1..], u, RunLen(u));
        var m := |caps[0]|;
        MatchSound(segs[1..], u[m..]);
        HoleAccepts(segs, caps, u);
    }
  }

  /** A literal character before an accepted rest is accepted. */
  lemma {:induction false} LitAccepts(segs: seq<Seg>, caps: seq<string>, u: string)
    requires segs != [] && segs[0].Lit? && u != [] && u[0] == segs[0].c
    requires Accepts(segs[1..], caps, u[1..])
    ensures Accepts(segs, caps, u)
  {
    var c := segs[0].c;
    assert Fill(segs, caps) == [c] + Fill(segs[1..], caps);
    assert [c] + u[1..] == u;
    assert [c] + u[1..] + "\n" == [c] + (u[1..] + "\n");
  }

  /** A capture of the leading run before an accepted rest is accepted. */
  lemma {:induction false} HoleAccepts(segs: seq<Seg>, caps: seq<string>, u: string)
    requires segs != [] && segs[0].Hole? && caps != []
    requires 1 <= |caps[0]| <= RunLen(u) && caps[0] == u[..|caps[0]|]
    requires Accepts(segs[1..], caps[1..], u[|caps[0]|..])
    ensures Accepts(segs, caps, u)
  {
    var m := |caps[0]|;
    var rest := Fill(segs[1..], caps[1..]);
    assert forall i :: 0 <= i < |caps| ==> Capture(caps[i]) by {
      assert Capture(caps[0]);
      forall i | 0 < i < |caps|
        ensures Capture(caps[i])
      {
        assert caps[i] == caps[1..][i - 1];
      }
    }
    assert Fill(segs, caps) == caps[0] + rest;
    assert caps[0] + rest == u || caps[0] + rest + "\n" == u by {
      assert u[..m] + u[m..] == u;
      if rest != u[m..] {
        assert caps[0] + rest + "\n" == caps[0] + (rest + "\n");
      }
    }
  }


  /** A placeholder allowed `n` characters finds a match whenever one exists with at most `n`. */
  lemma {:induction false} TryHoleComplete(rest: seq<Seg>, u: string, n: nat, m: nat)
    requires 1 <= m <= n <= |u|
    requires Match(rest, u[m..]).Some?
    ensures TryHole(rest, u, n).Some?
    decreases n
  {
    if n > m && Match(rest, u[n..]).None? {
      TryHoleComplete(rest, u, n - 1, m);
    }
  }

  /** Whenever some captures fill the pattern into the URI, the matcher finds a match. */
  lemma {:induction false} MatchComplete(segs: seq<Seg>, caps: seq<string>, u: string)
    requires Accepts(segs, caps, u)
    ensures Match(segs, u).Some?
    decreases |segs|
  {
    if segs != [] {
      var f := Fill(segs, caps);
      match segs[0]
      case Lit(c) =>
        var tail := Fill(segs[1..], caps);
        assert f == [c] + tail;
        assert u[1..] == tail || u[1..] == tail + "\n" by {
          if f + "\n" == u {
            assert u == [c] + (tail + "\n");
          }
        }
        MatchComplete(segs[1..], caps, u[1..]);
      case Hole =>
        var first := caps[0];
        var tail := Fill(segs[1..], caps[1..]);
        assert f == first + tail;
        var m := |first|;
        assert u[..m] == first by {
          if f + "\n" == u {
            assert u == first + (tail + "\n");
          }
        }
        assert m <= RunLen(u) by {
          forall k | 0 <= k < m
            ensures u[k] != '/'
          {
            assert u[k] == first[k];
          }
          RunLenAtLeast(u, m);
        }
        assert u[m..] == tail || u[m..] == tail + "\n" by {
          if f + "\n" == u {
            assert u == first + (tail + "\n");
          }
        }
        forall i | 0 <= i < |caps[1..]|
          ensures Capture(caps[1..][i])
        {
          assert caps[1..][i] == caps[i + 1];
        }
        MatchComplete(segs[1..], caps[1..], u[m..]);
        TryHoleComplete(segs[1..], u, RunLen(u), m);
    }
  }

  /** A pattern without placeholders matches exactly its own text, with no captures. */
  lemma {:induction false} LiteralRoute(p: string, u: string)
    requires forall k :: 0 <= k < |p| ==> p[k] != '{'
    ensures Match(Segments(p), u).Some? <==> (u == p || u == p + "\n")
  {
    LiteralSegments(p);
    var segs := Segments(p);
    LiteralFill(segs, p);
    MatchSound(segs, u);
    if u == p || u == p + "\n" {
      MatchComplete(segs, [], u);
    }
  }

  /** Literal pieces fill into their own characters. */
  lemma {:induction false} LiteralFill(segs: seq<Seg>, p: string)
    requires |segs| == |p| && forall k :: 0 <= k < |p| ==> segs[k] == Lit(p[k])
    ensures Holes(segs) == 0 && Fill(segs, []) == p
    decreases |p|
  {
    if p != [] {
      LiteralFill(segs[1..], p[1..]);
      assert [p[0]] + p[1..] == p;
    }
  }

  // -------------------------------------------------------------- dispatch

  /** `matchRoute`: the first route, in registration order, whose pattern matches, with its captures. */
  function MatchRoute(t: Table, u: string): (r: Option<(Route, seq<string>)>)
    ensures r.Some? ==> r.value.0 in t && Match(Segments(r.value.0.pattern), u) == Some(r.value.1)
    ensures r.None? <==> forall i :: 0 <= i < |t| ==> Match(Segments(t[i].pattern), u).None?
  {
    if t == [] then None
    else
      match Match(Segments(t[0].pattern), u)
      case Some(caps) => Some((t[0], caps))
      case None => MatchRoute(t[1..], u)
  }

  /** An earlier matching route always wins over a later one. */
  lemma {:induction false} FirstRouteWins(t: Table, i: nat, u: string)
    requires i < |t| && Match(Segments(t[i].pattern), u).Some?
    requires forall j :: 0 <= j < i ==> Match(Segments(t[j].pattern), u).None?
    ensures MatchRoute(t, u) == Some((t[i], Match(Segments(t[i].pattern), u).value))
    decreases i
  {
    if i > 0 {
      FirstRouteWins(t[1..], i - 1, u);
    }
  }

  /**
   * `dispatch` up to running the route: the matched route and its captures,
   * or the "not found" error it raises.
   */
  function Dispatch(router: Router, verb: string, u: string): (r: Result<(Route, seq<string>)>)
    ensures MatchRoute(RoutesOf(router, verb), u).None? ==> r == Err("Route not found for " + verb + " " + u)
    ensures MatchRoute(RoutesOf(router, verb), u).Some? ==> r == Ok(MatchRoute(RoutesOf(router, verb), u).value)
    ensures r.Ok? ==> Accepts(Segments(r.value.0.pattern), r.value.1, u)
  {
    match MatchRoute(RoutesOf(router, verb), u)
    case None => Err("Route not found for " + verb + " " + u)
    case Some(found) =>
      MatchSound(Segments(found.0.pattern), u);
      Ok(found)
  }
}

=== FILE: scan.dfy ===
/**
 * The two ways the source drives a regular expression over a text:
 * `preg_replace_callback` (Rewrite) and `preg_match_all` (Collect).
 *
 * A matcher looks only at the text from the current position on, so it is a
 * function of the suffix; none of the source's directive patterns uses an
 * anchor or a look-behind, which is what makes this reading exact.  Both
 * scans try the leftmost position first, and after a match resume right
 * after it, so replaced text is never scanned again.
 */
module Scan {
  import opened Wrappers

  /** A match at the head of a text: its length and what it captured. */
  datatype Span<T> = Span(len: nat, value: T)

  /** A matcher never claims the empty span nor more text than it was given. */
  ghost predicate Proper<T>(f: string -> Option<Span<T>>) {
    forall t :: f(t).Some? ==> 1 <= f(t).value.len <= |t|
  }

  /** No match starts anywhere inside `s`. */
  ghost predicate Quiet<T>(s: string, f: string -> Option<Span<T>>) {
    forall k :: 0 <= k < |s| ==> f(s[k..]).None?
  }

  /** No match starts inside `t` when `u` follows it. */
  ghost predicate QuietBefore<T>(t: string, u: string, f: string -> Option<Span<T>>) {
    forall k :: 0 <= k < |t| ==> f(t[k..] + u).None?
  }

  /** `preg_replace_callback`: each leftmost match is replaced by its value. */
  function Rewrite(s: string, f: string -> Option<Span<string>>): string
    requires Proper(f)
    decreases |s|
  {
    if s == [] then []
    else
      match f(s)
      case Some(h) => h.value + Rewrite(s[h.len..], f)
      case None => [s[0]] + Rewrite(s[1..], f)
  }

  /** A text in which no match starts comes out of the scan unchanged. */
  lemma {:induction false} RewriteQuiet(s: string, f: string -> Option<Span<string>>)
    requires Proper(f) && Quiet(s, f)
    ensures Rewrite(s, f) == s
  {
    forall k | 0 <= k < |s|
      ensures f(s[k..] + []).None?
    {
      assert s[k..] + [] == s[k..];
    }
    RewriteInert(s, [], f);
    assert s + [] == s;
  }

  /** `preg_match_all` with `PREG_SET_ORDER`: the captures of every leftmost match. */
  function Collect<T>(s: string, f: string -> Option<Span<T>>): (r: seq<T>)
    requires Proper(f)
    ensures |r| <= |s|
    decreases |s|
  {
    if s == [] then []
    else
      assert s[0..] == s;
      match f(s)
      case Some(h) => [h.value] + Collect(s[h.len..], f)
      case None =>
        assert forall k :: 0 <= k < |s| - 1 ==> s[1..][k..] == s[k + 1..];
        Collect(s[1..], f)
  }

  /** A match whose capture is turned into replacement text by `g`. */
  function Then<T>(m: Option<Span<T>>, g: T -> string): (r: Option<Span<string>>)
    ensures r.Some? <==> m.Some?
    ensures r.Some? ==> r.value.len == m.value.len && r.value.value == g(m.value.value)
  {
    match m
    case None => None
    case Some(sp) => Some(Span(sp.len, g(sp.value)))
  }

  /** Inertness of a text carries over to its tail. */
  lemma {:induction false} QuietBeforeTail<T>(t: string, u: string, f: string -> Option<Span<T>>)
    requires |t| > 0 && QuietBefore(t, u, f)
    ensures f(t + u).None? && (t + u)[1..] == t[1..] + u
    ensures QuietBefore(t[1..], u, f)
  {
    assert t[0..] + u == t + u;
    forall k | 0 <= k < |t| - 1
      ensures f(t[1..][k..] + u).None?
    {
      assert t[1..][k..] == t[k + 1..];
    }
  }

  /** Where no match starts, one character is copied and the scan moves on. */
  lemma {:induction false} RewriteStep(s: string, f: string -> Option<Span<string>>)
    requires Proper(f) && |s| > 0 && f(s).None?
    ensures Rewrite(s, f) == [s[0]] + Rewrite(s[1..], f)
  {
  }

  /** The first character, then the rest of `t` and `x`, is `t` then `x`. */
  lemma {:induction false} ConsRegroup(t: string, x: string)
    requires t != []
    ensures [t[0]] + (t[1..] + x) == t + x
  {
    assert t == [t[0]] + t[1..];
  }

  /** Text in which no match starts is copied unchanged, whatever follows it. */
  lemma {:induction false} RewriteInert(t: string, u: string, f: string -> Option<Span<string>>)
    requires Proper(f) && QuietBefore(t, u, f)
    ensures Rewrite(t + u, f) == t + Rewrite(u, f)
    decreases |t|
  {
    if t != [] {
      var rest := Rewrite(t[1..] + u, f);
      QuietBeforeTail(t, u, f);
      assert rest == t[1..] + Rewrite(u, f) by {
        RewriteInert(t[1..], u, f);
      }
      assert Rewrite(t + u, f) == [t[0]] + rest by {
        RewriteStep(t + u, f);
      }
      ConsRegroup(t, Rewrite(u, f));
    } else {
      assert t + u == u;
    }
  }

  /**
   * A block that the matcher recognises right after inert text is replaced by
   * its value, and the scan resumes right after the block.
   */
  lemma {:induction false} RewriteBlock(t: string, b: string, u: string, out: string, f: string -> Option<Span<string>>)
    requires Proper(f) && QuietBefore(t, b + u, f)
    requires f(b + u) == Some(Span(|b|, out))
    ensures Rewrite(t + b + u, f) == t + out + Rewrite(u, f)
  {
    RewriteInert(t, b + u, f);
    assert t + b + u == t + (b + u);
    assert (b + u)[|b|..] == u;
  }

  /** Text in which no match starts contributes no captures, whatever follows it. */
  lemma {:induction false} CollectInert<T>(t: string, u: string, f: string -> Option<Span<T>>)
    requires Proper(f) && QuietBefore(t, u, f)
    ensures Collect(t + u, f) == Collect(u, f)
    decreases |t|
  {
    if t != [] {
      QuietBeforeTail(t, u, f);
      CollectInert(t[1..], u, f);
    } else {
      assert t + u == u;
    }
  }

  /** A recognised block after inert text contributes its capture first. */
  lemma {:induction false} CollectBlock<T>(t: string, b: string, u: string, v: T, f: string -> Option<Span<T>>)
    requires Proper(f) && QuietBefore(t, b + u, f)
    requires f(b + u) == Some(Span(|b|, v))
    ensures Collect(t + b + u, f) == [v] + Collect(u, f)
  {
    CollectInert(t, b + u, f);
    assert t + b + u == t + (b + u);
    assert (b + u)[|b|..] == u;
  }
  /**
   * `preg_replace_callback` whose callback reads and updates a state: each
   * leftmost match is replaced by what `g` makes of it, in text order, and the
   * state after one replacement is the state the next one sees.
   */
  function RewriteState<T, S>(s: string, f: string -> Option<Span<T>>, g: (T, S) -> (string, S), st: S): (string, S)
    requires Proper(f)
    decreases |s|
  {
    if s == [] then ([], st)
    else
      match f(s)
      case Some(h) =>
        var (out, st1) := g(h.value, st);
        var (rest, st2) := RewriteState(s[h.len..], f, g, st1);
        (out + rest, st2)
      case None =>
        var (rest, st2) := RewriteState(s[1..], f, g, st);
        ([s[0]] + rest, st2)
  }

  /** Text in which no match starts is copied unchanged and leaves the state alone. */
  lemma {:induction false} RewriteStateInert<T, S>(t: string, u: string, f: string -> Option<Span<T>>,
                                                   g: (T, S) -> (string, S), st: S)
    requires Proper(f) && QuietBefore(t, u, f)
    ensures RewriteState(t + u, f, g, st) == (t + RewriteState(u, f, g, st).0, RewriteState(u, f, g, st).1)
    decreases |t|
  {
    if t != [] {
      QuietBeforeTail(t, u, f);
      RewriteStateInert(t[1..], u, f, g, st);
      RewriteStateStep(t + u, f, g, st);
      var tail := RewriteState(u, f, g, st);
      assert RewriteState(t[1..] + u, f, g, st) == (t[1..] + tail.0, tail.1);
      assert [t[0]] + (t[1..] + tail.0) == t + tail.0 by {
        assert t == [t[0]] + t[1..];
      }
    } else {
      assert t + u == u;
      assert t + RewriteState(u, f, g, st).0 == RewriteState(u, f, g, st).0;
    }
  }

  /** Where no match starts, one character is copied and the state is passed on. */
  lemma RewriteStateStep<T, S>(s: string, f: string -> Option<Span<T>>, g: (T, S) -> (string, S), st: S)
    requires Proper(f) && |s| > 0 && f(s).None?
    ensures var rest := RewriteState(s[1..], f, g, st);
      RewriteState(s, f, g, st) == ([s[0]] + rest.0, rest.1)
  {
  }

  /** Where a match starts, its replacement comes first and the state it leaves is passed on. */
  lemma RewriteStateMatch<T, S>(s: string, f: string -> Option<Span<T>>, g: (T, S) -> (string, S), st: S)
    requires Proper(f) && |s| > 0 && f(s).Some?
    ensures var h := f(s).value;
      var rest := RewriteState(s[h.len..], f, g, g(h.value, st).1);
      RewriteState(s, f, g, st) == (g(h.value, st).0 + rest.0, rest.1)
  {
  }

  /**
   * A block recognised right after inert text is replaced by what `g` makes of
   * it in the current state, and the scan resumes after the block in the state
   * `g` left.
   */
  lemma {:induction false} RewriteStateBlock<T, S>(t: string, b: string, u: string, v: T, f: string -> Option<Span<T>>,
                                g: (T, S) -> (string, S), st: S)
    requires Proper(f) && QuietBefore(t, b + u, f)
    requires f(b + u) == Some(Span(|b|, v))
    ensures var rest := RewriteState(u, f, g, g(v, st).1);
      RewriteState(t + b + u, f, g, st) == (t + g(v, st).0 + rest.0, rest.1)
  {
    RewriteStateInert(t, b + u, f, g, st);
    assert (b + u)[|b|..] == u;
    RewriteStateMatch(b + u, f, g, st);
    var rest := RewriteState(u, f, g, g(v, st).1);
    assert RewriteState(b + u, f, g, st) == (g(v, st).0 + rest.0, rest.1);
    assert t + b + u == t + (b + u);
    assert t + (g(v, st).0 + rest.0) == t + g(v, st).0 + rest.0;
  }

  /** The matcher `m` whose capture `g` turns into replacement text. */
  function Using<T>(m: string -> Option<Span<T>>, g: T -> string): string -> Option<Span<string>> {
    s => Then(m(s), g)
  }

  /** Turning captures into text keeps a matcher proper. */
  lemma UsingProper<T>(m: string -> Option<Span<T>>, g: T -> string)
    requires Proper(m)
    ensures Proper(Using(m, g))
  {
  }

  /** Where the matcher finds nothing, neither does its rewriting rule. */
  lemma UsingQuietBefore<T>(t: string, u: string, m: string -> Option<Span<T>>, g: T -> string)
    requires QuietBefore(t, u, m)
    ensures QuietBefore(t, u, Using(m, g))
  {
  }

  /** Text in which the matcher finds nothing is rewritten to itself. */
  lemma {:induction false} UsingQuiet<T>(s: string, m: string -> Option<Span<T>>, g: T -> string)
    requires Proper(m) && QuietBefore(s, [], m)
    ensures Proper(Using(m, g)) && Rewrite(s, Using(m, g)) == s
  {
    UsingQuietBefore(s, [], m, g);
    RewriteInert(s, [], Using(m, g));
    assert s + [] == s;
  }

  /**
   * A block the matcher recognises right after inert text is replaced by
   * what `g` makes of its capture, and the scan resumes after the block.
   */
  lemma {:induction false} UsingBlock<T>(t: string, b: string, u: string, v: T, m: string -> Option<Span<T>>, g: T -> string)
    requires Proper(m) && QuietBefore(t, b + u, m)
    requires m(b + u) == Some(Span(|b|, v))
    ensures Proper(Using(m, g))
    ensures Rewrite(t + b + u, Using(m, g)) == t + g(v) + Rewrite(u, Using(m, g))
  {
    UsingQuietBefore(t, b + u, m, g);
    RewriteBlock(t, b, u, g(v), Using(m, g));
  }
}

=== FILE: stages.dfy ===
/**
 * The directive stages of the template engine, each one left-to-right scan
 * of the text that replaces what its pattern recognises.  The component
 * stage recurses into the whole pipeline and lives with it in `Engine`.
 */
module Stages {
  import opened Wrappers
  import opened Strings
  import opened Scan
  import opened Context
  import opened Syntax
  import opened Flash
  import Validator
  import Env

  // ------------------------------------------------------------- variables

  /** `{{ name }}` becomes `$data[name] ?? ''`. */
  function VarOut(d: Data): string -> string {
    n => Lookup(d, n, "")
  }

  /** `processVariables`. */
  function ProcessVariables(s: string, d: Data): (r: string)
    ensures NoBrace(s) ==> r == s
  {
    UsingProper(VarMatch, VarOut(d));
    if NoBrace(s) then
      QuietWithout(s, [], '{', VarMatch);
      UsingQuiet(s, VarMatch, VarOut(d));
      Rewrite(s, Using(VarMatch, VarOut(d)))
    else Rewrite(s, Using(VarMatch, VarOut(d)))
  }

  /**
   * A placeholder is replaced by the value of its name, or by nothing when
   * the name is missing, and the scan resumes after it: the value itself is
   * never scanned again.
   */
  lemma {:induction false} VariableToken(t: string, n: string, u: string, d: Data)
    requires NoBrace(t) && IsWord(n)
    ensures ProcessVariables(t + VarToken(n) + u, d) == t + Lookup(d, n, "") + ProcessVariables(u, d)
  {
    VarHead(n, u);
    QuietWithout(t, VarToken(n) + u, '{', VarMatch);
    UsingBlock(t, VarToken(n), u, n, VarMatch, VarOut(d));
  }

  /** A value that is itself a placeholder comes out verbatim. */
  lemma {:induction false} ValueNotRescanned(t: string, n: string, m: string, u: string, d: Data)
    requires NoBrace(t) && IsWord(n) && IsWord(m)
    requires n in d && d[n] == Str(VarToken(m))
    ensures ProcessVariables(t + VarToken(n) + u, d) == t + VarToken(m) + ProcessVariables(u, d)
  {
    VariableToken(t, n, u, d);
  }

  // -------------------------------------------------------------- messages

  /** `{{ message }}` inside a message block becomes the message. */
  function TokenOut(m: string): (()) -> string {
    _ => m
  }

  /** The body of a shown message block, with its slots filled. */
  function FillMessage(body: string, m: string): (r: string)
    ensures NoBrace(body) ==> r == body
  {
    UsingProper(MessageTokenMatch, TokenOut(m));
    if NoBrace(body) then
      QuietWithout(body, [], '{', MessageTokenMatch);
      UsingQuiet(body, MessageTokenMatch, TokenOut(m));
      Rewrite(body, Using(MessageTokenMatch, TokenOut(m)))
    else Rewrite(body, Using(MessageTokenMatch, TokenOut(m)))
  }

  /** Each `{{ message }}` slot is replaced by the message, in one pass. */
  lemma {:induction false} FillMessageSlot(t: string, u: string, m: string)
    requires NoBrace(t)
    ensures FillMessage(t + "{{ message }}" + u, m) == t + m + FillMessage(u, m)
  {
    MessageTokenHead(u);
    QuietWithout(t, "{{ message }}" + u, '{', MessageTokenMatch);
    UsingBlock(t, "{{ message }}", u, (), MessageTokenMatch, TokenOut(m));
  }

  /**
   * The callback of `processMessage`: the message is taken out of the store;
   * with none the block disappears.
   */
  function MessageReplace(b: Block, st: Store): (r: (string, Store))
    ensures b.head in st ==> r == (FillMessage(b.body, st[b.head]), st - {b.head})
    ensures b.head !in st ==> r == ("", st)
  {
    var (m, st1) := GetMessage(st, b.head);
    if m.Some? then (FillMessage(b.body, m.value), st1) else ("", st1)
  }

  /** `processMessage`: the rendered text and the store after every block consumed its message. */
  function ProcessMessage(s: string, st: Store): (r: (string, Store))
    ensures NoAt(s) ==> r == (s, st)
  {
    if NoAt(s) then
      QuietWithout(s, [], '@', MessageMatch);
      RewriteStateInert(s, [], MessageMatch, MessageReplace, st);
      assert s + [] == s;
      RewriteState(s, MessageMatch, MessageReplace, st)
    else RewriteState(s, MessageMatch, MessageReplace, st)
  }

  /** A block whose message exists shows its body with the message and consumes it. */
  lemma {:induction false} MessageShown(t: string, name: string, body: string, u: string, st: Store)
    requires NoAt(t) && |name| > 0 && NoQuote(name) && Absent(body, "@endmessage")
    requires name in st
    ensures var rest := ProcessMessage(u, st - {name});
      ProcessMessage(t + MessageBlock(name, body) + u, st)
        == (t + FillMessage(body, st[name]) + rest.0, rest.1)
  {
    MessageHead(name, body, u);
    QuietWithout(t, MessageBlock(name, body) + u, '@', MessageMatch);
    RewriteStateBlock(t, MessageBlock(name, body), u, Block(name, body), MessageMatch, MessageReplace, st);
  }

  /** A block without a message is removed, and the store is left as it was. */
  lemma {:induction false} MessageHidden(t: string, name: string, body: string, u: string, st: Store)
    requires NoAt(t) && |name| > 0 && NoQuote(name) && Absent(body, "@endmessage")
    requires name !in st
    ensures var rest := ProcessMessage(u, st);
      ProcessMessage(t + MessageBlock(name, body) + u, st) == (t + rest.0, rest.1)
  {
    MessageHead(name, body, u);
    QuietWithout(t, MessageBlock(name, body) + u, '@', MessageMatch);
    RewriteStateBlock(t, MessageBlock(name, body), u, Block(name, body), MessageMatch, MessageReplace, st);
    assert t + "" == t;
  }

  /** Rendering never adds a message to the store. */
  lemma {:induction false} MessageStoreShrinks(s: string, st: Store)
    ensures ProcessMessage(s, st).1.Keys <= st.Keys
    decreases |s|
  {
    if s != [] {
      match MessageMatch(s)
      case Some(h) =>
        RewriteStateMatch(s, MessageMatch, MessageReplace, st);
        var st1 := MessageReplace(h.value, st).1;
        MessageStoreShrinks(s[h.len..], st1);
        ProcessMessageIs(s[h.len..], st1);
      case None =>
        RewriteStateStep(s, MessageMatch, MessageReplace, st);
        MessageStoreShrinks(s[1..], st);
        ProcessMessageIs(s[1..], st);
    }
    ProcessMessageIs(s, st);
  }

  /** `ProcessMessage` is the stateful scan with the message callback. */
  lemma ProcessMessageIs(s: string, st: Store)
    ensures ProcessMessage(s, st) == RewriteState(s, MessageMatch, MessageReplace, st)
  {
  }

  /**
   * A message is shown once: after a render that showed it, rendering the
   * same text again removes the block.
   */
  lemma {:induction false} MessageOnce(t: string, name: string, body: string, u: string, st: Store)
    requires NoAt(t) && |name| > 0 && NoQuote(name) && Absent(body, "@endmessage")
    requires name in st
    ensures var after := ProcessMessage(t + MessageBlock(name, body) + u, st).1;
      ProcessMessage(t + MessageBlock(name, body) + u, after).0 == t + ProcessMessage(u, after).0
  {
    MessageShown(t, name, body, u, st);
    var after := ProcessMessage(u, st - {name}).1;
    MessageStoreShrinks(u, st - {name});
    assert name !in after;
    MessageHidden(t, name, body, u, after);
  }

  // ----------------------------------------------------------------- loops

  /** `{{ item.key }}`, the only text a loop substitutes. */
  function Placeholder(item: string, key: string): string {
    "{{ " + item + "." + key + " }}"
  }

  /** One item's copy of the body: each field's placeholder replaced, field by field. */
  function FillItem(body: string, item: string, fields: seq<(string, string)>): (r: string)
    ensures (forall i :: 0 <= i < |fields| ==> Absent(body, Placeholder(item, fields[i].0))) ==> r == body
    decreases |fields|
  {
    if fields == [] then body
    else FillItem(ReplaceAll(body, Placeholder(item, fields[0].0), fields[0].1), item, fields[1..])
  }

  /** The copies of the body for the items, concatenated in order. */
  function EachItem(body: string, item: string, items: seq<Item>): (r: string)
    ensures items == [] ==> r == []
    ensures items != [] ==> FillItem(body, item, Fields(items[0])) <= r
    ensures |items| == 1 ==> r == FillItem(body, item, Fields(items[0]))
    decreases |items|
  {
    if items == [] then []
    else FillItem(body, item, Fields(items[0])) + EachItem(body, item, items[1..])
  }

  /**
   * The callback of `processLoops`: the copies of the body, one per item, or
   * nothing when the collection is missing, empty or not a list.
   */
  function ExpandLoop(l: Loop, d: Data): (r: string)
    ensures l.collection !in d ==> r == []
    ensures !Get(d, l.collection).Arr? ==> r == []
    ensures Get(d, l.collection) == Arr([]) ==> r == []
    ensures Get(d, l.collection).Arr? ==> r == EachItem(l.body, l.item, Get(d, l.collection).items)
  {
    var v := Get(d, l.collection);
    if !Empty(v) && v.Arr? then EachItem(l.body, l.item, v.items) else []
  }

  /** The items are expanded in order: a list split in two expands to the two expansions. */
  lemma {:induction false} EachItemAppend(body: string, item: string, a: seq<Item>, b: seq<Item>)
    ensures EachItem(body, item, a + b) == EachItem(body, item, a) + EachItem(body, item, b)
    decreases |a|
  {
    if a == [] {
      assert a + b == b;
    } else {
      assert (a + b)[0] == a[0];
      assert (a + b)[1..] == a[1..] + b;
      EachItemAppend(body, item, a[1..], b);
    }
  }

  /** The expansion of a list is the concatenation of each item's copy, item by item. */
  lemma {:induction false} EachItemSnoc(body: string, item: string, items: seq<Item>, last: Item)
    ensures EachItem(body, item, items + [last])
         == EachItem(body, item, items) + FillItem(body, item, Fields(last))
  {
    EachItemAppend(body, item, items, [last]);
    assert EachItem(body, item, [last]) == FillItem(body, item, Fields(last)) + EachItem(body, item, []);
  }

  /** A scalar item is seen as the single field `value`. */
  lemma {:induction false} ScalarItem(body: string, item: string, t: string)
    ensures FillItem(body, item, Fields(Plain(t))) == ReplaceAll(body, Placeholder(item, "value"), t)
  {
    assert Fields(Plain(t))[1..] == [];
  }

  /** A body in which no field's placeholder occurs exactly is copied as it is. */
  lemma {:induction false} FillUntouched(body: string, item: string, fields: seq<(string, string)>)
    requires forall i :: 0 <= i < |fields| ==> Absent(body, Placeholder(item, fields[i].0))
    ensures FillItem(body, item, fields) == body
    decreases |fields|
  {
    if fields != [] {
      assert ReplaceAll(body, Placeholder(item, fields[0].0), fields[0].1) == body;
      assert forall i :: 0 <= i < |fields[1..]| ==> fields[1..][i] == fields[i + 1];
      FillUntouched(body, item, fields[1..]);
    }
  }

  /** `@foreach ... @endforeach` is replaced by its expansion. */
  function LoopOut(d: Data): Loop -> string {
    l => ExpandLoop(l, d)
  }

  /** `processLoops`. */
  function ProcessLoops(s: string, d: Data): (r: string)
    ensures NoAt(s) ==> r == s
  {
    UsingProper(LoopMatch, LoopOut(d));
    if NoAt(s) then
      QuietWithout(s, [], '@', LoopMatch);
      UsingQuiet(s, LoopMatch, LoopOut(d));
      Rewrite(s, Using(LoopMatch, LoopOut(d)))
    else Rewrite(s, Using(LoopMatch, LoopOut(d)))
  }

  /** A loop block is replaced by its expansion and the scan goes on after it. */
  lemma {:induction false} LoopBlockExpands(t: string, collection: string, item: string, body: string, u: string, d: Data)
    requires NoAt(t) && IsWord(collection) && IsWord(item)
    requires body == [] || !IsWordChar(body[0])
    requires Absent(body, "@endforeach")
    ensures ProcessLoops(t + LoopBlock(collection, item, body) + u, d)
         == t + ExpandLoop(Loop(collection, item, body), d) + ProcessLoops(u, d)
  {
    LoopHead(collection, item, body, u);
    QuietWithout(t, LoopBlock(collection, item, body) + u, '@', LoopMatch);
    UsingBlock(t, LoopBlock(collection, item, body), u, Loop(collection, item, body), LoopMatch, LoopOut(d));
  }

  // ---------------------------------------------------------- conditionals

  /** `$name` becomes `$data[name] ?? 'null'`. */
  function DollarOut(d: Data): string -> string {
    n => Lookup(d, n, "null")
  }

  /** No `$` in `t`. */
  predicate NoDollar(t: string) {
    forall k :: 0 <= k < |t| ==> t[k] != '$'
  }

  /** `replaceVariables`, applied to the head of a condition, a switch or a case. */
  function ReplaceVariables(e: string, d: Data): (r: string)
    ensures NoDollar(e) ==> r == e
  {
    UsingProper(DollarMatch, DollarOut(d));
    if NoDollar(e) then
      QuietWithout(e, [], '$', DollarMatch);
      UsingQuiet(e, DollarMatch, DollarOut(d));
      Rewrite(e, Using(DollarMatch, DollarOut(d)))
    else Rewrite(e, Using(DollarMatch, DollarOut(d)))
  }

  /** `$name` becomes its value, or the literal `null` when the name is missing. */
  lemma {:induction false} DollarToken(t: string, n: string, u: string, d: Data)
    requires NoDollar(t) && IsWord(n) && (u == [] || !IsWordChar(u[0]))
    ensures ReplaceVariables(t + ("$" + n) + u, d) == t + Lookup(d, n, "null") + ReplaceVariables(u, d)
  {
    var x := "$" + n;
    DollarHead(n, u);
    QuietWithout(t, x + u, '$', DollarMatch);
    UsingBlock(t, x, u, n, DollarMatch, DollarOut(d));
  }

  /** The callback of `processConditionals`: the body when the condition holds, else nothing. */
  function IfOutput(b: Block, d: Data, cond: string -> bool): (r: string)
    ensures cond(ReplaceVariables(b.head, d)) ==> r == b.body
    ensures !cond(ReplaceVariables(b.head, d)) ==> r == []
  {
    if cond(ReplaceVariables(b.head, d)) then b.body else []
  }

  function IfOut(d: Data, cond: string -> bool): Block -> string {
    b => IfOutput(b, d, cond)
  }

  /** `processConditionals`, with the evaluation of the condition text given as `cond`. */
  function ProcessConditionals(s: string, d: Data, cond: string -> bool): (r: string)
    ensures NoAt(s) ==> r == s
  {
    UsingProper(IfMatch, IfOut(d, cond));
    if NoAt(s) then
      QuietWithout(s, [], '@', IfMatch);
      UsingQuiet(s, IfMatch, IfOut(d, cond));
      Rewrite(s, Using(IfMatch, IfOut(d, cond)))
    else Rewrite(s, Using(IfMatch, IfOut(d, cond)))
  }

  /**
   * An `@if` block whose condition has no `)` keeps its body exactly when the
   * condition, with its variables replaced, holds.
   */
  lemma {:induction false} IfBlock(t: string, c: string, body: string, u: string, d: Data, cond: string -> bool)
    requires NoAt(t) && Absent(c, ")") && Absent(body, "@endif")
    ensures ProcessConditionals(t + ParenBlock("@if(", c, body, "@endif") + u, d, cond)
         == t + (if cond(ReplaceVariables(c, d)) then body else []) + ProcessConditionals(u, d, cond)
  {
    var b := ParenBlock("@if(", c, body, "@endif");
    IfHead(c, body, u);
    QuietWithout(t, b + u, '@', IfMatch);
    UsingBlock(t, b, u, Block(c, body), IfMatch, IfOut(d, cond));
  }

  // ---------------------------------------------------------------- switch

  /**
   * The value of a switch or a case as it is compared: variables replaced,
   * surrounding quotes stripped, then surrounding white space.
   */
  function SwitchKey(head: string, d: Data): string {
    Trim(Trim(ReplaceVariables(head, d), Quotes), Whitespace)
  }

  /** The values of the cases, as they are compared. */
  function CaseKeys(cases: seq<Block>, d: Data): (r: seq<string>)
    ensures |r| == |cases|
    ensures forall i :: 0 <= i < |cases| ==> r[i] == SwitchKey(cases[i].head, d)
  {
    seq(|cases|, i requires 0 <= i < |cases| => SwitchKey(cases[i].head, d))
  }

  /** The position of the first key equal to `key`. */
  function FirstIndex(keys: seq<string>, key: string): (r: Option<nat>)
    ensures r.Some? ==> r.value < |keys| && keys[r.value] == key
    ensures r.Some? ==> forall j :: 0 <= j < r.value ==> keys[j] != key
    ensures r.None? ==> forall j :: 0 <= j < |keys| ==> keys[j] != key
    decreases |keys|
  {
    if keys == [] then None
    else if keys[0] == key then Some(0)
    else
      match FirstIndex(keys[1..], key)
      case None => None
      case Some(i) => Some(i + 1)
  }

  /** The position of the first case whose value, as compared, equals the key. */
  function FirstCase(cases: seq<Block>, key: string, d: Data): (r: Option<nat>)
    ensures r.Some? ==> r.value < |cases| && SwitchKey(cases[r.value].head, d) == key
    ensures r.Some? ==> forall j :: 0 <= j < r.value ==> SwitchKey(cases[j].head, d) != key
    ensures r.None? ==> forall j :: 0 <= j < |cases| ==> SwitchKey(cases[j].head, d) != key
  {
    FirstIndex(CaseKeys(cases, d), key)
  }

  /** `preg_match_all` of `@case(...) ... @break` over a switch body. */
  function Cases(body: string): (r: seq<Block>) {
    Collect(body, CaseMatch)
  }

  /**
   * The callback of `processSwitchCases`: the first matching case's body;
   * otherwise the `@default` text if the search finds one, else nothing.
   */
  function SwitchOutput(b: Block, d: Data): (r: string)
    ensures var i := FirstCase(Cases(b.body), SwitchKey(b.head, d), d);
      i.Some? ==> r == Cases(b.body)[i.value].body
  {
    var cases := Cases(b.body);
    match FirstCase(cases, SwitchKey(b.head, d), d)
    case Some(i) => cases[i].body
    case None =>
      match DefaultSearch(b.body)
      case Some(x) => x
      case None => []
  }

  function SwitchOut(d: Data): Block -> string {
    b => SwitchOutput(b, d)
  }

  /** `processSwitchCases`. */
  function ProcessSwitchCases(s: string, d: Data): (r: string)
    ensures NoAt(s) ==> r == s
  {
    UsingProper(SwitchMatch, SwitchOut(d));
    if NoAt(s) then
      QuietWithout(s, [], '@', SwitchMatch);
      UsingQuiet(s, SwitchMatch, SwitchOut(d));
      Rewrite(s, Using(SwitchMatch, SwitchOut(d)))
    else Rewrite(s, Using(SwitchMatch, SwitchOut(d)))
  }

  /** A switch block is replaced by its output and the scan goes on after it. */
  lemma {:induction false} SwitchBlock(t: string, v: string, cases: string, u: string, d: Data)
    requires NoAt(t) && Absent(v, ")") && Absent(cases, "@endswitch")
    ensures ProcessSwitchCases(t + ParenBlock("@switch(", v, cases, "@endswitch") + u, d)
         == t + SwitchOutput(Block(v, cases), d) + ProcessSwitchCases(u, d)
  {
    var b := ParenBlock("@switch(", v, cases, "@endswitch");
    SwitchHead(v, cases, u);
    QuietWithout(t, b + u, '@', SwitchMatch);
    UsingBlock(t, b, u, Block(v, cases), SwitchMatch, SwitchOut(d));
  }

  /**
   * With no matching case a switch yields nothing: the body it captured ends
   * before `@endswitch`, so the `@default` search never succeeds.
   */
  lemma {:induction false} SwitchUnmatched(b: Block, d: Data)
    requires Absent(b.body, "@endswitch")
    requires FirstCase(Cases(b.body), SwitchKey(b.head, d), d).None?
    ensures SwitchOutput(b, d) == []
  {
    assert DefaultSearch(b.body).None?;
  }

  /** A case written in a switch body is collected with its value and body. */
  lemma {:induction false} CaseCollected(t: string, v: string, body: string, u: string)
    requires NoAt(t) && Absent(v, ")") && Absent(body, "@break")
    ensures Cases(t + ParenBlock("@case(", v, body, "@break") + u) == [Block(v, body)] + Cases(u)
  {
    CaseHead(v, body, u);
    QuietWithout(t, ParenBlock("@case(", v, body, "@break") + u, '@', CaseMatch);
    CollectBlock(t, ParenBlock("@case(", v, body, "@break"), u, Block(v, body), CaseMatch);
  }

  /** The first case whose value equals the switch value wins, whatever follows it. */
  lemma FirstMatchWins(c: Block, rest: seq<Block>, key: string, d: Data)
    requires SwitchKey(c.head, d) == key
    ensures FirstCase([c] + rest, key, d) == Some(0)
  {
  }

  // ------------------------------------------------------ assets and images

  /**
   * `getBaseUrl`: `APP_URL` (default `http://localhost`), a colon and
   * `APP_PORT` (default `8000`), with trailing slashes removed.
   */
  function BaseUrl(env: Env.Vars): (r: string)
    ensures r == [] || r[|r| - 1] != '/'
    ensures r <= Env.Get(env, "APP_URL", "http://localhost") + ":" + Env.Get(env, "APP_PORT", "8000")
    ensures var full := Env.Get(env, "APP_URL", "http://localhost") + ":" + Env.Get(env, "APP_PORT", "8000");
      forall k :: |r| <= k < |full| ==> full[k] == '/'
  {
    var full := Env.Get(env, "APP_URL", "http://localhost") + ":" + Env.Get(env, "APP_PORT", "8000");
    var r := TrimRight(full, {'/'});
    assert r == full[..|r|];
    r
  }

  /** The sub-directory assets are served from. */
  const PublicPath: string := "src/view/public"

  /** The sub-directory images are served from. */
  const ImagesPath: string := "src/view/public/images"

  /** The URL of a file under `dir`: base, `/`, dir, `/`, then the path without leading slashes. */
  function Url(env: Env.Vars, dir: string, path: string): (r: string)
    ensures r == BaseUrl(env) + "/" + dir + "/" + TrimLeft(path, {'/'})
    ensures var tail := TrimLeft(path, {'/'}); tail == [] || tail[0] != '/'
  {
    BaseUrl(env) + "/" + dir + "/" + TrimLeft(path, {'/'})
  }

  /** `@assets\(["'](.+?)["']\)`. */
  function AssetMatch(s: string): (r: Option<Span<string>>)
    ensures r.Some? ==> 1 <= r.value.len <= |s| && s[0] == '@'
  {
    QuotedMatch(s, "@assets")
  }

  /** `@images\(["'](.+?)["']\)`: the same scan as `AssetMatch`, for the `@images` keyword. */
  function ImageMatch(s: string): (r: Option<Span<string>>)
    ensures r.Some? ==> 1 <= r.value.len <= |s| && s[0] == '@'
  {
    QuotedMatch(s, "@images")
  }

  /** `@errors\(["'](.+?)["']\)`: the same scan as `AssetMatch`, for the `@errors` keyword. */
  function ErrorMatch(s: string): (r: Option<Span<string>>)
    ensures r.Some? ==> 1 <= r.value.len <= |s| && s[0] == '@'
  {
    QuotedMatch(s, "@errors")
  }

  function UrlOut(env: Env.Vars, dir: string): string -> string {
    p => Url(env, dir, p)
  }

  /** `processAssets`: `@assets('path')` becomes the URL of the path under the public directory. */
  function ProcessAssets(s: string, env: Env.Vars): (r: string)
    ensures NoAt(s) ==> r == s
  {
    UsingProper(AssetMatch, UrlOut(env, PublicPath));
    if NoAt(s) then
      QuietWithout(s, [], '@', AssetMatch);
      UsingQuiet(s, AssetMatch, UrlOut(env, PublicPath));
      Rewrite(s, Using(AssetMatch, UrlOut(env, PublicPath)))
    else Rewrite(s, Using(AssetMatch, UrlOut(env, PublicPath)))
  }

  /** `processImages`: `@images('path')` becomes the URL of the path under the images directory. */
  function ProcessImages(s: string, env: Env.Vars): (r: string)
    ensures NoAt(s) ==> r == s
  {
    UsingProper(ImageMatch, UrlOut(env, ImagesPath));
    if NoAt(s) then
      QuietWithout(s, [], '@', ImageMatch);
      UsingQuiet(s, ImageMatch, UrlOut(env, ImagesPath));
      Rewrite(s, Using(ImageMatch, UrlOut(env, ImagesPath)))
    else Rewrite(s, Using(ImageMatch, UrlOut(env, ImagesPath)))
  }

  /** A path with no quote and no line feed is turned into its URL. */
  predicate PlainPath(p: string) {
    |p| > 0 && NoQuote(p) && forall k :: 0 <= k < |p| ==> p[k] != '\n'
  }

  /** `@assets('path')` is replaced by the asset URL. */
  lemma {:induction false} AssetCall(t: string, p: string, u: string, env: Env.Vars)
    requires NoAt(t) && PlainPath(p)
    ensures ProcessAssets(t + QuotedCall("@assets", p) + u, env)
         == t + Url(env, PublicPath, p) + ProcessAssets(u, env)
  {
    var b := QuotedCall("@assets", p);
    QuotedHead("@assets", p, u);
    QuietWithout(t, b + u, '@', AssetMatch);
    UsingBlock(t, b, u, p, AssetMatch, UrlOut(env, PublicPath));
  }

  /** `@images('path')` is replaced by the image URL. */
  lemma {:induction false} ImageCall(t: string, p: string, u: string, env: Env.Vars)
    requires NoAt(t) && PlainPath(p)
    ensures ProcessImages(t + QuotedCall("@images", p) + u, env)
         == t + Url(env, ImagesPath, p) + ProcessImages(u, env)
  {
    var b := QuotedCall("@images", p);
    QuotedHead("@images", p, u);
    QuietWithout(t, b + u, '@', ImageMatch);
    UsingBlock(t, b, u, p, ImageMatch, UrlOut(env, ImagesPath));
  }

  /** A leading slash of the path is not doubled in the URL. */
  lemma {:induction false} LeadingSlashDropped(env: Env.Vars, dir: string, p: string)
    ensures Url(env, dir, "/" + p) == Url(env, dir, TrimLeft(p, {'/'}))
  {
    assert ("/" + p)[1..] == p;
    TrimLeftTwice(p, {'/'});
  }

  /** Trimming the left again changes nothing. */
  lemma TrimLeftTwice(s: string, cs: set<char>)
    ensures TrimLeft(TrimLeft(s, cs), cs) == TrimLeft(s, cs)
  {
  }

  // ---------------------------------------------------- component parameters

  /** The characters stripped from each element of a list parameter. */
  const ListTrim: set<char> := {' ', '\'', '"'}

  /** The characters stripped from both ends of a list value before it is split. */
  const Brackets: set<char> := {'[', ']'}

  /** `^\[.*\]$` without the `s` flag: a bracketed value on one line. */
  predicate IsList(v: string) {
    |v| >= 2 && v[0] == '[' && v[|v| - 1] == ']' && forall k :: 0 <= k < |v| ==> v[k] != '\n'
  }

  /** The elements of a list value, each trimmed of spaces and quotes. */
  function ListItems(parts: seq<string>): (r: seq<Item>)
    ensures |r| == |parts|
    ensures forall i :: 0 <= i < |parts| ==> r[i] == Plain(Trim(parts[i], ListTrim))
  {
    seq(|parts|, i requires 0 <= i < |parts| => Plain(Trim(parts[i], ListTrim)))
  }

  /**
   * The value of one parameter: a list is split on commas once its brackets
   * are stripped; any other value loses its surrounding quotes.
   */
  function ParamValue(raw: string): (r: Value)
    ensures IsList(Trim(raw, Whitespace)) ==> r == Arr(ListItems(Split(Trim(Trim(raw, Whitespace), Brackets), ",")))
    ensures !IsList(Trim(raw, Whitespace)) ==> r == Str(Trim(Trim(raw, Whitespace), Quotes))
  {
    var v := Trim(raw, Whitespace);
    if IsList(v) then Arr(ListItems(Split(Trim(v, Brackets), ",")))
    else Str(Trim(v, Quotes))
  }

  /** A quoted value loses its quotes and keeps everything between them. */
  lemma {:induction false} QuotedParam(t: string)
    requires t == [] || (t[0] !in Quotes && t[|t| - 1] !in Quotes)
    ensures ParamValue("'" + t + "'") == Str(t)
  {
    var raw := "'" + t + "'";
    assert raw == ['\''] + t + ['\''];
    TrimUntouched(raw, Whitespace);
    TrimEnclosed(t, '\'', '\'', Quotes);
  }

  /** A bracketed one-line value is split on the commas between its brackets. */
  lemma BracketedParam(j: string)
    requires forall k :: 0 <= k < |j| ==> j[k] != '[' && j[k] != ']' && j[k] != '\n'
    ensures ParamValue("[" + j + "]") == Arr(ListItems(Split(j, ",")))
  {
    var raw := "[" + j + "]";
    var v := Trim(raw, Whitespace);
    assert IsList(v) && Trim(v, Brackets) == j by {
      BracketsStripped(j);
      BracketedList(j);
    }
  }

  /** Brackets around a one-line text make a list value. */
  lemma {:induction false} BracketedList(j: string)
    requires forall k :: 0 <= k < |j| ==> j[k] != '\n'
    ensures IsList("[" + j + "]")
  {
    var raw := "[" + j + "]";
    assert raw == ['['] + j + [']'];
    forall k | 0 <= k < |raw|
      ensures raw[k] != '\n'
    {
      if 0 < k < |raw| - 1 {
        assert raw[k] == j[k - 1];
      }
    }
  }

  /** The brackets around a bracket-free inside are the only ones stripped. */
  lemma {:induction false} BracketsStripped(j: string)
    requires forall k :: 0 <= k < |j| ==> j[k] != '[' && j[k] != ']'
    ensures Trim("[" + j + "]", Whitespace) == "[" + j + "]"
    ensures Trim("[" + j + "]", Brackets) == j
  {
    assert "[" + j + "]" == ['['] + j + [']'];
    TrimUntouched("[" + j + "]", Whitespace);
    TrimEnclosed(j, '[', ']', Brackets);
  }

  /** A bracketed list of comma-free items is split back into exactly those items. */
  lemma {:induction false} ListParam(items: seq<string>)
    requires |items| > 0
    requires forall i, k :: 0 <= i < |items| && 0 <= k < |items[i]| ==> items[i][k] !in {',', '[', ']', '\n'}
    ensures ParamValue("[" + Join(items, ",") + "]") == Arr(ListItems(items))
  {
    var j := Join(items, ",");
    JoinAvoids(items, ",", '[');
    JoinAvoids(items, ",", ']');
    JoinAvoids(items, ",", '\n');
    BracketedParam(j);
    forall i | 0 <= i < |items|
      ensures Absent(items[i], ",")
    {
      NoCharAbsent(items[i], ',');
    }
    LeadUniqueUnbordered(",");
    SplitJoin(items, ",");
  }

  /** The parameters stored one after the other, so a repeated key keeps its last value. */
  function AddParams(acc: Data, ps: seq<Param>): (r: Data)
    ensures forall k :: k in acc ==> k in r
    ensures forall k :: k in acc && KeyAbsent(ps, k) ==> r[k] == acc[k]
    decreases |ps|
  {
    if ps == [] then acc
    else
      var rest := ps[1..];
      assert forall k :: KeyAbsent(ps, k) ==> KeyAbsent(rest, k) && k != ps[0].key;
      AddParams(Store(acc, ps[0]), rest)
  }

  /** No parameter of the list has the key. */
  predicate KeyAbsent(ps: seq<Param>, k: string) {
    forall i :: 0 <= i < |ps| ==> ps[i].key != k
  }

  /** One parameter stored: its key gets its value, every other key keeps its own. */
  function Store(acc: Data, p: Param): (r: Data)
    ensures p.key in r && r[p.key] == ParamValue(p.raw)
    ensures forall k :: k in acc ==> k in r
    ensures forall k :: k in acc && k != p.key ==> r[k] == acc[k]
  {
    acc[p.key := ParamValue(p.raw)]
  }

  /** `parseParams`: every `'key': value` of the text; text between them contributes nothing. */
  function ParseParams(text: string): (r: Data)
    ensures Collect(text, ParamMatch) == [] ==> r == map[]
  {
    AddParams(map[], Collect(text, ParamMatch))
  }

  /** The last `'key': value` of the text overrides whatever the ones before it stored under its key. */
  lemma {:induction false} ParseParamsLast(text: string)
    requires Collect(text, ParamMatch) != []
    ensures var ps, n := Collect(text, ParamMatch), |Collect(text, ParamMatch)| - 1;
      ParseParams(text) == AddParams(map[], ps[..n])[ps[n].key := ParamValue(ps[n].raw)]
  {
    AddParamsLast(map[], Collect(text, ParamMatch));
  }

  /** `AddParamsSnoc` read from the end of a non-empty list. */
  lemma {:induction false} AddParamsLast(acc: Data, ps: seq<Param>)
    requires ps != []
    ensures AddParams(acc, ps) == AddParams(acc, ps[..|ps| - 1])[ps[|ps| - 1].key := ParamValue(ps[|ps| - 1].raw)]
  {
    var n := |ps| - 1;
    assert ps == ps[..n] + [ps[n]];
    AddParamsSnoc(acc, ps[..n], ps[n]);
  }

  /** Every key `parseParams` stores is the key of some `'key': value` in the text. */
  lemma {:induction false} ParseParamsKeys(text: string, k: string)
    requires k in ParseParams(text)
    ensures exists i :: 0 <= i < |Collect(text, ParamMatch)| && Collect(text, ParamMatch)[i].key == k
  {
    AddParamsKeys(map[], Collect(text, ParamMatch), k);
  }

  /** One more parameter overrides whatever the earlier ones stored under its key. */
  lemma {:induction false} AddParamsSnoc(acc: Data, ps: seq<Param>, p: Param)
    ensures AddParams(acc, ps + [p]) == Store(AddParams(acc, ps), p)
    decreases |ps|
  {
    if ps == [] {
      assert ps + [p] == [p];
      AddParamsCons(acc, [p]);
    } else {
      var next := Store(acc, ps[0]);
      assert AddParams(acc, ps + [p]) == AddParams(next, ps[1..] + [p]) by {
        AddParamsCons(acc, ps + [p]);
        SnocTail(ps, p);
      }
      assert AddParams(acc, ps) == AddParams(next, ps[1..]) by {
        AddParamsCons(acc, ps);
      }
      AddParamsSnoc(next, ps[1..], p);
    }
  }

  /** Appending after a non-empty list leaves its head and appends after its tail. */
  lemma SnocTail(ps: seq<Param>, p: Param)
    requires ps != []
    ensures (ps + [p])[0] == ps[0] && (ps + [p])[1..] == ps[1..] + [p]
  {
  }

  /** The first parameter is stored before the rest. */
  lemma AddParamsCons(acc: Data, ps: seq<Param>)
    requires ps != []
    ensures AddParams(acc, ps) == AddParams(Store(acc, ps[0]), ps[1..])
  {
  }

  /** The keys stored are the earlier ones and those of the parameters. */
  lemma {:induction false} AddParamsKeys(acc: Data, ps: seq<Param>, k: string)
    ensures k in AddParams(acc, ps) <==> k in acc || exists i :: 0 <= i < |ps| && ps[i].key == k
    decreases |ps|
  {
    if ps != [] {
      assert AddParams(acc, ps) == AddParams(Store(acc, ps[0]), ps[1..]) by {
        AddParamsCons(acc, ps);
      }
      AddParamsKeys(Store(acc, ps[0]), ps[1..], k);
      KeyedTail(ps, k);
    }
  }

  /** A key is among a non-empty list's keys when it is the head's or among the tail's. */
  lemma KeyedTail(ps: seq<Param>, k: string)
    requires ps != []
    ensures (exists i :: 0 <= i < |ps| && ps[i].key == k)
      <==> ps[0].key == k || exists i :: 0 <= i < |ps[1..]| && ps[1..][i].key == k
  {
    if exists i :: 0 <= i < |ps[1..]| && ps[1..][i].key == k {
      var i :| 0 <= i < |ps[1..]| && ps[1..][i].key == k;
      assert ps[i + 1].key == k;
    }
    if exists i :: 0 <= i < |ps| && ps[i].key == k {
      var i :| 0 <= i < |ps| && ps[i].key == k;
      if i > 0 {
        assert ps[1..][i - 1].key == k;
      }
    }
  }

  /** Parameters as a template writes them: `'key': value`, separated by `, `. */
  function ParamsText(ps: seq<Param>): string
    decreases |ps|
  {
    if ps == [] then []
    else if |ps| == 1 then ParamText(ps[0].key, ps[0].raw)
    else ParamText(ps[0].key, ps[0].raw) + (", " + ParamsText(ps[1..]))
  }

  /** A parameter the pattern takes whole: a word key and a bracketed or quoted value. */
  predicate WellFormed(p: Param) {
    IsWord(p.key) && RawValue(p.raw)
  }

  /** Every parameter written out is read back, in order. */
  lemma {:induction false} ParamsRoundTrip(sp: string, ps: seq<Param>)
    requires |ps| > 0 && forall i :: 0 <= i < |ps| ==> WellFormed(ps[i])
    requires forall k :: 0 <= k < |sp| ==> IsSpace(sp[k])
    ensures Collect(sp + ParamsText(ps), ParamMatch) == ps
    decreases |ps|
  {
    assert WellFormed(ps[0]);
    if |ps| == 1 {
      ParamStep(sp, ps[0], []);
      assert sp + ParamText(ps[0].key, ps[0].raw) + [] == sp + ParamsText(ps);
    } else {
      forall i | 0 <= i < |ps[1..]|
        ensures WellFormed(ps[1..][i])
      {
        assert ps[1..][i] == ps[i + 1];
      }
      ParamsRoundTrip(" ", ps[1..]);
      ParamsMore(sp, ps);
    }
  }

  /** The step of the round trip: the first parameter, then the rest after `, `. */
  lemma {:induction false} ParamsMore(sp: string, ps: seq<Param>)
    requires |ps| > 1 && WellFormed(ps[0])
    requires forall k :: 0 <= k < |sp| ==> IsSpace(sp[k])
    requires Collect(" " + ParamsText(ps[1..]), ParamMatch) == ps[1..]
    ensures Collect(sp + ParamsText(ps), ParamMatch) == ps
  {
    ParamsFirst(sp, ps);
    CommaStep(ParamsText(ps[1..]));
    assert Collect(sp + ParamsText(ps), ParamMatch) == [ps[0]] + ps[1..];
    SeqCons(ps);
  }

  /** A non-empty sequence is its head followed by its tail. */
  lemma SeqCons<T>(s: seq<T>)
    requires |s| > 0
    ensures s == [s[0]] + s[1..]
  {
  }

  /** The first of several parameters is collected, leaving `, ` and the rest. */
  lemma {:induction false} ParamsFirst(sp: string, ps: seq<Param>)
    requires |ps| > 1 && WellFormed(ps[0])
    requires forall k :: 0 <= k < |sp| ==> IsSpace(sp[k])
    ensures Collect(sp + ParamsText(ps), ParamMatch) == [ps[0]] + Collect(", " + ParamsText(ps[1..]), ParamMatch)
  {
    var p := ps[0];
    var b := ParamText(p.key, p.raw);
    var tail := ", " + ParamsText(ps[1..]);
    assert sp + ParamsText(ps) == sp + b + tail;
    ParamStep(sp, p, tail);
  }

  /** A well-formed parameter after white space is collected, and the scan goes on after it. */
  lemma {:induction false} ParamStep(sp: string, p: Param, tail: string)
    requires WellFormed(p) && forall k :: 0 <= k < |sp| ==> IsSpace(sp[k])
    ensures Collect(sp + ParamText(p.key, p.raw) + tail, ParamMatch) == [p] + Collect(tail, ParamMatch)
  {
    var b := ParamText(p.key, p.raw);
    var s := sp + b + tail;
    ParamHead(sp, p.key, p.raw, tail);
    assert s[|sp| + |b|..] == tail;
  }

  /** The comma between two parameters is skipped and the space is left to the next match. */
  lemma {:induction false} CommaStep(rest: string)
    ensures Collect(", " + rest, ParamMatch) == Collect(" " + rest, ParamMatch)
  {
    var tail := ", " + rest;
    assert SkipSpaces(tail, 0) == 0;
    assert ParamMatch(tail).None?;
    assert tail[1..] == " " + rest;
  }

  /** Written-out parameters are parsed into the map of their values, the last one of a key winning. */
  lemma {:induction false} ParseParamsText(ps: seq<Param>)
    requires |ps| > 0 && forall i :: 0 <= i < |ps| ==> WellFormed(ps[i])
    ensures ParseParams(ParamsText(ps)) == AddParams(map[], ps)
  {
    ParamsRoundTrip([], ps);
    assert [] + ParamsText(ps) == ParamsText(ps);
  }

  // ---------------------------------------------------------------- errors

  /** The callback of `processErrors`: the first error of the field, or nothing. */
  function ErrorText(errors: Validator.Errors, field: string): (r: string)
    ensures Validator.GetError(errors, field).None? ==> r == []
    ensures Validator.GetError(errors, field).Some? && Truthy(errors[field][0]) ==> r == errors[field][0]
    ensures Validator.GetError(errors, field).Some? && !Truthy(errors[field][0]) ==> r == []
  {
    match Validator.GetError(errors, field)
    case None => []
    case Some(m) => if Truthy(m) then m else []
  }

  function ErrorOut(errors: Validator.Errors): string -> string {
    f => ErrorText(errors, f)
  }

  /** `processErrors`: reads the session errors and never changes them. */
  function ProcessErrors(s: string, errors: Validator.Errors): (r: string)
    ensures NoAt(s) ==> r == s
  {
    UsingProper(ErrorMatch, ErrorOut(errors));
    if NoAt(s) then
      QuietWithout(s, [], '@', ErrorMatch);
      UsingQuiet(s, ErrorMatch, ErrorOut(errors));
      Rewrite(s, Using(ErrorMatch, ErrorOut(errors)))
    else Rewrite(s, Using(ErrorMatch, ErrorOut(errors)))
  }

  /** `@errors('field')` becomes the field's first error, which stays in the session. */
  lemma {:induction false} ErrorCall(t: string, field: string, u: string, errors: Validator.Errors)
    requires NoAt(t) && PlainPath(field)
    ensures ProcessErrors(t + QuotedCall("@errors", field) + u, errors)
         == t + ErrorText(errors, field) + ProcessErrors(u, errors)
  {
    var b := QuotedCall("@errors", field);
    QuotedHead("@errors", field, u);
    QuietWithout(t, b + u, '@', ErrorMatch);
    UsingBlock(t, b, u, field, ErrorMatch, ErrorOut(errors));
  }

  /** The same field shows the same error twice in one page: nothing is consumed. */
  lemma {:induction false} ErrorShownTwice(t: string, field: string, u: string, errors: Validator.Errors)
    requires NoAt(t) && PlainPath(field)
    ensures var c := QuotedCall("@errors", field);
      ProcessErrors(t + c + c + u, errors) == t + ErrorText(errors, field) + ErrorText(errors, field) + ProcessErrors(u, errors)
  {
    var c := QuotedCall("@errors", field);
    ErrorCall(t, field, c + u, errors);
    assert t + c + c + u == t + c + (c + u);
    var e := ErrorText(errors, field);
    ErrorCallHead(field, u, errors);
    assert t + e + (e + ProcessErrors(u, errors)) == t + e + e + ProcessErrors(u, errors);
  }

  /** `@errors('field')` at the head of the text. */
  lemma {:induction false} ErrorCallHead(field: string, u: string, errors: Validator.Errors)
    requires PlainPath(field)
    ensures ProcessErrors(QuotedCall("@errors", field) + u, errors) == ErrorText(errors, field) + ProcessErrors(u, errors)
  {
    ErrorCall([], field, u, errors);
    assert [] + QuotedCall("@errors", field) + u == QuotedCall("@errors", field) + u;
  }

  // ------------------------------------------------------------------ csrf

  /** The hidden form field that carries the token. */
  function CsrfField(token: string): string {
    "<input type=\"hidden\" name=\"csrf_token\" value=\"" + token + "\" />"
  }

  function CsrfOut(token: string): (()) -> string {
    _ => CsrfField(token)
  }

  /** `processCrsfToken`: `@csrf()` becomes the hidden field with the current token. */
  function ProcessCsrfToken(s: string, token: string): (r: string)
    ensures NoAt(s) ==> r == s
  {
    UsingProper(CsrfMatch, CsrfOut(token));
    if NoAt(s) then
      QuietWithout(s, [], '@', CsrfMatch);
      UsingQuiet(s, CsrfMatch, CsrfOut(token));
      Rewrite(s, Using(CsrfMatch, CsrfOut(token)))
    else Rewrite(s, Using(CsrfMatch, CsrfOut(token)))
  }

  /** `@csrf()` is replaced by the field. */
  lemma {:induction false} CsrfCall(t: string, u: string, token: string)
    requires NoAt(t)
    ensures ProcessCsrfToken(t + "@csrf()" + u, token) == t + CsrfField(token) + ProcessCsrfToken(u, token)
  {
    var s := "@csrf()" + u;
    assert s[0..7] == "@csrf()";
    assert CsrfMatch(s) == Some(Span(7, ()));
    QuietWithout(t, s, '@', CsrfMatch);
    UsingBlock(t, "@csrf()", u, (), CsrfMatch, CsrfOut(token));
  }
}

=== FILE: storage.dfy ===
/**
 * `Storage`: the name and path of an image file under a base directory.
 * File names are sanitised character by character; the file system calls
 * (`mkdir`, `move_uploaded_file`, `rename`, `file_exists`) are left to the
 * caller, whose answers are parameters.
 */
module Storage {
  import opened Wrappers
  import opened Strings

  /** The object: its base directory and the name and path once they are set. */
  datatype Storage = Storage(basePath: string, fileName: Option<string>, filePath: Option<string>)

  /** The class's fully qualified name, as PHP writes it in error messages. */
  const ClassName: string := "Monolog\\App\\Helpers\\Storage\\Storage"

  /** The error PHP raises on reading the typed property `property` before it was ever assigned. */
  function Uninitialized(property: string): string {
    "Typed property " + ClassName + "::$" + property + " must not be accessed before initialization"
  }

  /** The constructor: a base directory and nothing set yet. */
  function New(basePath: string): (r: Storage)
    ensures r.basePath == basePath && r.fileName.None? && r.filePath.None?
  {
    Storage(basePath, None, None)
  }

  /** A character `[a-zA-Z0-9_\-\.]` lets through. */
  predicate Allowed(c: char) {
    'a' <= c <= 'z' || 'A' <= c <= 'Z' || '0' <= c <= '9' || c == '_' || c == '-' || c == '.'
  }

  /** A name made of allowed characters only. */
  predicate Clean(s: string) {
    forall k :: 0 <= k < |s| ==> Allowed(s[k])
  }

  /** `sanitizeFileName`: each character outside the class becomes `_`, scanning left to right. */
  function Sanitize(s: string): (r: string)
    ensures |r| == |s|
    ensures forall k :: 0 <= k < |s| ==> r[k] == (if Allowed(s[k]) then s[k] else '_')
    decreases |s|
  {
    if s == [] then []
    else [if Allowed(s[0]) then s[0] else '_'] + Sanitize(s[1..])
  }

  /** A sanitised name is clean. */
  lemma SanitizeClean(s: string)
    ensures Clean(Sanitize(s))
  {
  }

  /** A name is left as it is exactly when it is already clean. */
  lemma {:induction false} SanitizeFixes(s: string)
    ensures Sanitize(s) == s <==> Clean(s)
  {
    if !Clean(s) {
      var k :| 0 <= k < |s| && !Allowed(s[k]);
      assert Sanitize(s)[k] == '_' != s[k];
    }
  }

  /** Sanitising twice is sanitising once. */
  lemma {:induction false} SanitizeIdempotent(s: string)
    ensures Sanitize(Sanitize(s)) == Sanitize(s)
  {
    SanitizeClean(s);
    SanitizeFixes(Sanitize(s));
  }

  /** `setFileName`: the sanitised name is stored and nothing else changes. */
  function SetFileName(st: Storage, name: string): (r: Storage)
    ensures r.fileName == Some(Sanitize(name)) && Clean(r.fileName.value)
    ensures r.basePath == st.basePath && r.filePath == st.filePath
  {
    SanitizeClean(name);
    st.(fileName := Some(Sanitize(name)))
  }

  /** `setFilePath`: the base directory followed by the name; an error while no name is set. */
  function SetFilePath(st: Storage): (r: Result<Storage>)
    ensures st.fileName.None? <==> r == Err(Uninitialized("fileName"))
    ensures r.Ok? ==> r.value.filePath == Some(st.basePath + st.fileName.value)
    ensures r.Ok? ==> r.value.basePath == st.basePath && r.value.fileName == st.fileName
  {
    match st.fileName
    case None => Err(Uninitialized("fileName"))
    case Some(name) => Ok(st.(filePath := Some(st.basePath + name)))
  }

  /** After `setFileName(n)`, `setFilePath` puts the file directly under the base directory with the sanitised name. */
  lemma {:induction false} NamedPath(st: Storage, name: string)
    ensures SetFilePath(SetFileName(st, name)).Ok?
    ensures var p := SetFilePath(SetFileName(st, name)).value.filePath.value;
      st.basePath <= p && p[|st.basePath|..] == Sanitize(name) && |p| == |st.basePath| + |name|
  {
    var p := st.basePath + Sanitize(name);
    assert p[|st.basePath|..] == Sanitize(name);
  }

  /** `makeDirectory`: the directory it ensures exists, the base directory and the path without outer slashes. */
  function DirectoryFor(st: Storage, path: string): (r: string)
    ensures st.basePath <= r
    ensures var sub := r[|st.basePath|..]; sub == [] || (sub[0] != '/' && sub[|sub| - 1] != '/')
  {
    var sub := Trim(path, {'/'});
    var r := st.basePath + sub;
    assert r[|st.basePath|..] == sub;
    r
  }

  /** Below the base directory is the path with only slashes cut from its ends. */
  lemma {:induction false} DirectoryStripped(st: Storage, path: string)
    ensures Stripped(path, {'/'}, DirectoryFor(st, path)[|st.basePath|..])
  {
    TrimStripped(path, {'/'});
  }

  /** `moveFile`: the path is set first; the result is whether the move, answered by `moved`, succeeded. */
  function MoveFile(st: Storage, moved: bool): (r: Result<(bool, Storage)>)
    ensures st.fileName.None? ==> r == Err(Uninitialized("fileName"))
    ensures r.Ok? ==> r.value.0 == moved && r.value.1 == SetFilePath(st).value
  {
    match SetFilePath(st)
    case Err(e) => Err(e)
    case Ok(st1) => Ok((moved, st1))
  }

  /**
   * `renameFile`: the new path is the base directory and the sanitised new
   * name; it becomes the file's path only when the old file exists and the
   * rename succeeds.  Reading a path never set is an error.
   */
  function RenameFile(st: Storage, newName: string, present: bool, renamed: bool): (r: Result<(bool, Storage)>)
    ensures st.filePath.None? <==> r == Err(Uninitialized("filePath"))
    ensures r.Ok? ==> (r.value.0 <==> present && renamed)
    ensures r.Ok? && r.value.0 ==> r.value.1 == st.(filePath := Some(st.basePath + Sanitize(newName)))
    ensures r.Ok? && !r.value.0 ==> r.value.1 == st
  {
    if st.filePath.None? then Err(Uninitialized("filePath"))
    else if present && renamed then Ok((true, st.(filePath := Some(st.basePath + Sanitize(newName)))))
    else Ok((false, st))
  }
}

=== FILE: strings.dfy ===
/**
 * The byte-string primitives the PHP source leans on: the character classes
 * of PCRE (`\s`, `\w`), `trim`/`ltrim`/`rtrim` with a character list,
 * `strpos`, `str_replace`, `explode`, `implode` and `strtolower`.
 * Strings are sequences of characters; one character stands for one byte.
 */
module Strings {
  import opened Wrappers

  /** PCRE `\s`: space, tab, line feed, vertical tab, form feed, carriage return. */
  predicate IsSpace(c: char) {
    c == ' ' || c == '\t' || c == '\n' || c == '\U{0B}' || c == '\U{0C}' || c == '\r'
  }

  /** PCRE `\w` without locale: ASCII letters, digits and underscore. */
  predicate IsWordChar(c: char) {
    ('a' <= c <= 'z') || ('A' <= c <= 'Z') || ('0' <= c <= '9') || c == '_'
  }

  /** The character class `["']` used by most directive patterns. */
  predicate IsQuote(c: char) {
    c == '"' || c == '\''
  }

  /** The characters PHP's `trim` removes when no list is given. */
  const Whitespace: set<char> := {' ', '\t', '\n', '\r', '\0', '\U{0B}'}

  /** The list `"'` given to `trim` to strip quotes. */
  const Quotes: set<char> := {'"', '\''}

  /** `ltrim(s, cs)`: drops the longest prefix made of characters in `cs`. */
  function TrimLeft(s: string, cs: set<char>): (r: string)
    ensures |r| <= |s| && r == s[|s| - |r|..]
    ensures forall k :: 0 <= k < |s| - |r| ==> s[k] in cs
    ensures r == [] || r[0] !in cs
    decreases |s|
  {
    if s != [] && s[0] in cs then TrimLeft(s[1..], cs) else s
  }

  /** `rtrim(s, cs)`: drops the longest suffix made of characters in `cs`. */
  function TrimRight(s: string, cs: set<char>): (r: string)
    ensures |r| <= |s| && r == s[..|r|]
    ensures forall k :: |r| <= k < |s| ==> s[k] in cs
    ensures r == [] || r[|r| - 1] !in cs
    decreases |s|
  {
    if s != [] && s[|s| - 1] in cs then TrimRight(s[..|s| - 1], cs) else s
  }

  /**
   * `r` is what is left of `s` once a run of listed characters is cut from
   * each end, and neither end of `r` is a listed character any more.
   */
  ghost predicate Stripped(s: string, cs: set<char>, r: string) {
    (exists i, j :: CutAt(s, cs, i, j) && r == s[i..j])
    && (r == [] || (r[0] !in cs && r[|r| - 1] !in cs))
  }

  /** `s[i..j]` is what is left after removing listed characters only, from both ends. */
  predicate CutAt(s: string, cs: set<char>, i: int, j: int) {
    0 <= i <= j <= |s|
    && (forall k :: 0 <= k < i ==> s[k] in cs)
    && (forall k :: j <= k < |s| ==> s[k] in cs)
  }

  /** `trim(s, cs)`: both ends. */
  function Trim(s: string, cs: set<char>): (r: string)
    ensures |r| <= |s|
    ensures r == [] || (r[0] !in cs && r[|r| - 1] !in cs)
  {
    TrimRight(TrimLeft(s, cs), cs)
  }

  /** `trim` strips `s` as `Stripped` says, so by `StrippedUnique` it is the only such text. */
  lemma {:induction false} TrimStripped(s: string, cs: set<char>)
    ensures Stripped(s, cs, Trim(s, cs))
  {
    var l := TrimLeft(s, cs);
    var r := TrimRight(l, cs);
    var i := |s| - |l|;
    var j := i + |r|;
    assert r == s[i..j] by {
      assert l == s[i..] && r == l[..|r|];
    }
    assert CutAt(s, cs, i, j) by {
      forall k | j <= k < |s|
        ensures s[k] in cs
      {
        assert s[k] == l[k - i];
      }
    }
    assert r == [] || (r[0] !in cs && r[|r| - 1] !in cs) by {
      if r != [] {
        assert r[0] == l[0];
      }
    }
    StrippedAt(s, cs, r, i, j);
  }

  /** A cut at `i` and `j` that leaves unlisted ends is a witness of `Stripped`. */
  lemma StrippedAt(s: string, cs: set<char>, r: string, i: int, j: int)
    requires CutAt(s, cs, i, j) && r == s[i..j]
    requires r == [] || (r[0] !in cs && r[|r| - 1] !in cs)
    ensures Stripped(s, cs, r)
  {
  }

  /** Only one text is stripped that way, so `Stripped` pins the result of `trim`. */
  lemma {:induction false} StrippedUnique(s: string, cs: set<char>, r1: string, r2: string)
    requires Stripped(s, cs, r1) && Stripped(s, cs, r2)
    ensures r1 == r2
  {
    var i1, j1 :| CutAt(s, cs, i1, j1) && r1 == s[i1..j1];
    var i2, j2 :| CutAt(s, cs, i2, j2) && r2 == s[i2..j2];
    if i1 < j1 {
      assert r1[0] == s[i1] && r1[|r1| - 1] == s[j1 - 1];
    }
    if i2 < j2 {
      assert r2[0] == s[i2] && r2[|r2| - 1] == s[j2 - 1];
    }
    SameCut(s, cs, i1, j1, i2, j2);
  }

  /** Two cuts of listed characters that both leave unlisted ends cut at the same places. */
  lemma SameCut(s: string, cs: set<char>, i1: int, j1: int, i2: int, j2: int)
    requires CutAt(s, cs, i1, j1) && CutAt(s, cs, i2, j2)
    requires i1 < j1 ==> s[i1] !in cs && s[j1 - 1] !in cs
    requires i2 < j2 ==> s[i2] !in cs && s[j2 - 1] !in cs
    ensures s[i1..j1] == s[i2..j2]
  {
  }

  /** Text that neither starts nor ends with a listed character is left as it is. */
  lemma TrimUntouched(s: string, cs: set<char>)
    requires s == [] || (s[0] !in cs && s[|s| - 1] !in cs)
    ensures Trim(s, cs) == s
  {
  }

  /** One listed character on each side is stripped, and nothing more when the inside does not start or end with one. */
  lemma {:induction false} TrimEnclosed(t: string, a: char, b: char, cs: set<char>)
    requires a in cs && b in cs
    requires t == [] || (t[0] !in cs && t[|t| - 1] !in cs)
    ensures Trim([a] + t + [b], cs) == t
  {
    var s := [a] + t + [b];
    assert s[1..] == t + [b];
    assert TrimLeft(s, cs) == TrimLeft(t + [b], cs);
    if t == [] {
      assert t + [b] == [b];
      assert [b][1..] == [];
    } else {
      assert (t + [b])[0] == t[0];
      assert TrimLeft(t + [b], cs) == t + [b];
      assert (t + [b])[..|t|] == t;
    }
  }

  /** Trimming twice removes nothing more than trimming once. */
  lemma {:induction false} TrimIdempotent(s: string, cs: set<char>)
    ensures Trim(Trim(s, cs), cs) == Trim(s, cs)
  {
    var t := Trim(s, cs);
    if t != [] {
      assert TrimLeft(t, cs) == t;
      assert TrimRight(t, cs) == t;
    }
  }

  /** `p` occurs in `s` starting at index `k`. */
  predicate At(s: string, p: string, k: nat) {
    k + |p| <= |s| && s[k..k + |p|] == p
  }

  /** `strpos(s, p, from)`: the first index at or after `from` where `p` occurs. */
  function IndexOf(s: string, p: string, from: nat): (r: Option<nat>)
    ensures r.Some? ==> from <= r.value && At(s, p, r.value)
    ensures r.Some? ==> forall k :: from <= k < r.value ==> !At(s, p, k)
    ensures r.None? ==> forall k :: from <= k ==> !At(s, p, k)
    decreases |s| - from
  {
    if from + |p| > |s| then None
    else if s[from..from + |p|] == p then Some(from)
    else IndexOf(s, p, from + 1)
  }

  /** `IndexOf` returns the first occurrence from its start. */
  lemma {:induction false} FirstFrom(s: string, p: string, from: nat, j: nat)
    requires from <= j && At(s, p, j)
    requires forall k :: from <= k < j ==> !At(s, p, k)
    ensures IndexOf(s, p, from) == Some(j)
    decreases j - from
  {
    if from < j {
      FirstFrom(s, p, from + 1, j);
    }
  }

  /** An occurrence after a prefix `x` is an occurrence in the suffix, shifted. */
  lemma {:induction false} AtShift(x: string, t: string, p: string, j: nat)
    ensures At(x + t, p, |x| + j) <==> At(t, p, j)
  {
    if j + |p| <= |t| {
      assert (x + t)[|x| + j..|x| + j + |p|] == t[j..j + |p|];
    }
  }

  /** `AtShift` with the text and the position named: `s` is `x + t`, `at` is `|x| + j`. */
  lemma {:induction false} AtAfter(x: string, t: string, s: string, p: string, j: nat, at: nat)
    requires s == x + t && at == |x| + j && At(t, p, j)
    ensures At(s, p, at)
  {
    AtShift(x, t, p, j);
  }

  /**
   * A search in the suffix after `x` finds the same occurrence, shifted:
   * `s` is `x + t`, from `j` in `t` is from `from` in `s`, and `r` becomes `at`.
   */
  lemma {:induction false} IndexOfShift(x: string, t: string, s: string, p: string, j: nat, r: nat, from: nat, at: nat)
    requires s == x + t && IndexOf(t, p, j) == Some(r) && from == |x| + j && at == |x| + r
    ensures IndexOf(s, p, from) == Some(at)
  {
    AtAfter(x, t, s, p, r, at);
    forall k | from <= k < at
      ensures !At(s, p, k)
    {
      AtShift(x, t, p, k - |x|);
    }
    FirstFrom(s, p, from, at);
  }

  /** An unbordered pattern absent from `t` is first found right after `t`. */
  lemma {:induction false} FirstAt(t: string, p: string, u: string)
    requires |p| > 0 && Unbordered(p) && Absent(t, p)
    ensures IndexOf(t + (p + u), p, 0) == Some(|t|)
  {
    FirstAfter(t, p, u, 0);
    assert t + p + u == t + (p + u);
  }

  /**
   * After any prefix, an unbordered pattern absent from `body` is first found
   * right after `body`: `s` is `pre + t` and `t` is `body + (p + u)`.
   */
  lemma {:induction false} SearchPast(pre: string, body: string, p: string, u: string, t: string, s: string, from: nat, at: nat)
    requires |p| > 0 && Unbordered(p) && Absent(body, p)
    requires t == body + (p + u) && s == pre + t && from == |pre| && at == from + |body|
    ensures IndexOf(s, p, from) == Some(at)
  {
    FirstAt(body, p, u);
    IndexOfShift(pre, t, s, p, 0, |body|, from, at);
  }

  /** `p` occurs nowhere in `s`. */
  predicate Absent(s: string, p: string) {
    IndexOf(s, p, 0).None?
  }

  /**
   * No proper suffix of `p` is also a prefix of `p`; then an occurrence of
   * `p` that starts before a copy of `p` must end before that copy begins.
   */
  predicate Unbordered(p: string) {
    forall m :: 0 < m < |p| ==> !Border(p, m)
  }

  /** The last `|p| - m` characters of `p` are also its first ones. */
  predicate Border(p: string, m: nat)
    requires m <= |p|
  {
    p[m..] == p[..|p| - m]
  }

  /** A pattern whose first character does not recur is unbordered. */
  lemma {:induction false} LeadUniqueUnbordered(p: string)
    requires |p| > 0
    requires forall j :: 0 < j < |p| ==> p[j] != p[0]
    ensures Unbordered(p)
  {
    forall m | 0 < m < |p|
      ensures !Border(p, m)
    {
      assert p[m..][0] == p[m] != p[0] == p[..|p| - m][0];
    }
  }

  /**
   * When `p` is absent from `t` and unbordered, the first occurrence of `p`
   * in `t + p + u` is the copy that follows `t`.
   */
  lemma {:induction false} FirstAfter(t: string, p: string, u: string, from: nat)
    requires |p| > 0 && Unbordered(p)
    requires from <= |t|
    requires forall k :: from <= k ==> !At(t, p, k)
    ensures IndexOf(t + p + u, p, from) == Some(|t|)
    decreases |t| - from
  {
    var s := t + p + u;
    assert s[|t|..|t| + |p|] == p;
    if from < |t| {
      assert !At(s, p, from) by {
        if from + |p| <= |t| {
          assert s[from..from + |p|] == t[from..from + |p|];
          assert !At(t, p, from);
        } else if from + |p| <= |s| {
          var m := |t| - from;
          assert s[from..from + |p|][m..] == s[from + m..from + |p|] == p[..|p| - m];
          assert !Border(p, m);
        }
      }
      FirstAfter(t, p, u, from + 1);
    }
  }

  /** Dropping the first character keeps a pattern absent. */
  lemma {:induction false} AbsentTail(s: string, p: string)
    requires |s| > 0
    ensures Absent(s, p) ==> Absent(s[1..], p)
  {
    var b := IndexOf(s[1..], p, 0);
    if b.Some? && Absent(s, p) {
      assert s[b.value + 1..b.value + 1 + |p|] == s[1..][b.value..b.value + |p|];
      assert At(s, p, b.value + 1);
    }
  }

  /** A text without the character `c` holds no occurrence of `[c]`. */
  lemma {:induction false} NoCharAbsent(s: string, c: char)
    requires forall k :: 0 <= k < |s| ==> s[k] != c
    ensures Absent(s, [c])
  {
    forall k | 0 <= k
      ensures !At(s, [c], k)
    {
      if k + 1 <= |s| {
        assert s[k..k + 1][0] == s[k];
      }
    }
  }

  /** `str_replace(pat, rep, s)`: every leftmost, non-overlapping `pat` becomes `rep`. */
  function ReplaceAll(s: string, pat: string, rep: string): (r: string)
    ensures Absent(s, pat) && |pat| > 0 ==> r == s
    decreases |s|
  {
    if |pat| == 0 || s == [] then s
    else if pat <= s then
      assert At(s, pat, 0);
      rep + ReplaceAll(s[|pat|..], pat, rep)
    else
      AbsentTail(s, pat);
      [s[0]] + ReplaceAll(s[1..], pat, rep)
  }

  /** Replacing one character by another keeps every position and changes exactly that character. */
  lemma {:induction false} ReplaceChar(s: string, a: char, b: char)
    ensures |ReplaceAll(s, [a], [b])| == |s|
    ensures forall k :: 0 <= k < |s| ==> ReplaceAll(s, [a], [b])[k] == (if s[k] == a then b else s[k])
    decreases |s|
  {
    if s != [] {
      ReplaceChar(s[1..], a, b);
      var r := ReplaceAll(s, [a], [b]);
      var tail := ReplaceAll(s[1..], [a], [b]);
      if s[0] == a {
        assert [a] <= s;
        assert r == [b] + tail;
      } else {
        assert !([a] <= s);
        assert r == [s[0]] + tail;
      }
      forall k | 0 < k < |s|
        ensures r[k] == (if s[k] == a then b else s[k])
      {
        assert r[k] == tail[k - 1] && s[k] == s[1..][k - 1];
      }
    }
  }

  /** `explode(sep, s)`: the pieces between leftmost occurrences of `sep`. */
  function Split(s: string, sep: string): (r: seq<string>)
    requires |sep| > 0
    ensures |r| >= 1
    decreases |s|
  {
    match IndexOf(s, sep, 0)
    case None => [s]
    case Some(k) => [s[..k]] + Split(s[k + |sep|..], sep)
  }

  /** `implode(sep, parts)`. */
  function Join(parts: seq<string>, sep: string): (r: string)
    ensures |parts| > 0 ==> parts[0] <= r
    decreases |parts|
  {
    if |parts| == 0 then []
    else if |parts| == 1 then parts[0]
    else parts[0] + sep + Join(parts[1..], sep)
  }

  /** A character found in neither the parts nor the separator is not in their join. */
  lemma {:induction false} JoinAvoids(parts: seq<string>, sep: string, c: char)
    requires forall i, k :: 0 <= i < |parts| && 0 <= k < |parts[i]| ==> parts[i][k] != c
    requires forall k :: 0 <= k < |sep| ==> sep[k] != c
    ensures forall k :: 0 <= k < |Join(parts, sep)| ==> Join(parts, sep)[k] != c
    decreases |parts|
  {
    if |parts| > 1 {
      assert forall i, k :: 0 <= i < |parts[1..]| && 0 <= k < |parts[1..][i]| ==> parts[1..][i][k] == parts[i + 1][k];
      JoinAvoids(parts[1..], sep, c);
      var p := parts[0];
      var j := Join(parts[1..], sep);
      assert Join(parts, sep) == p + sep + j;
      forall k | 0 <= k < |p + sep + j|
        ensures (p + sep + j)[k] != c
      {
        if k < |p| {
          assert (p + sep + j)[k] == p[k];
        } else if k < |p| + |sep| {
          assert (p + sep + j)[k] == sep[k - |p|];
        } else {
          assert (p + sep + j)[k] == j[k - |p| - |sep|];
        }
      }
    } else if |parts| == 1 {
      assert Join(parts, sep) == parts[0];
    }
  }

  /** One step of `explode` at the first occurrence of the separator. */
  lemma {:induction false} SplitStep(s: string, sep: string, k: nat)
    requires |sep| > 0 && IndexOf(s, sep, 0) == Some(k)
    ensures Split(s, sep) == [s[..k]] + Split(s[k + |sep|..], sep)
  {
  }

  /** One step of `implode`. */
  lemma {:induction false} JoinCons(p: string, rest: seq<string>, sep: string)
    requires |rest| > 0
    ensures Join([p] + rest, sep) == p + sep + Join(rest, sep)
  {
    assert ([p] + rest)[1..] == rest;
  }

  /** No piece of an `explode` on one character holds that character. */
  lemma {:induction false} SplitPiecesLack(s: string, c: char)
    ensures forall i :: 0 <= i < |Split(s, [c])| ==> c !in Split(s, [c])[i]
    decreases |s|
  {
    match IndexOf(s, [c], 0)
    case None =>
      forall j | 0 <= j < |s|
        ensures s[j] != c
      {
        assert !At(s, [c], j) && s[j..j + 1] == [s[j]];
      }
    case Some(k) =>
      forall j | 0 <= j < k
        ensures s[j] != c
      {
        assert !At(s, [c], j) && s[j..j + 1] == [s[j]];
      }
      SplitPiecesLack(s[k + 1..], c);
  }

  /** Exploding and imploding with the same separator gives back the text. */
  lemma {:induction false} JoinSplit(s: string, sep: string)
    requires |sep| > 0
    ensures Join(Split(s, sep), sep) == s
    decreases |s|
  {
    match IndexOf(s, sep, 0)
    case None =>
      assert Split(s, sep) == [s];
    case Some(k) =>
      var rest := s[k + |sep|..];
      SplitStep(s, sep, k);
      JoinSplit(rest, sep);
      JoinCons(s[..k], Split(rest, sep), sep);
      assert s[k..k + |sep|] == sep;
      assert s == s[..k] + sep + rest;
  }

  /** Imploding occurrence-free parts and exploding again gives back the parts. */
  lemma {:induction false} SplitJoin(parts: seq<string>, sep: string)
    requires |sep| > 0 && Unbordered(sep) && |parts| > 0
    requires forall i :: 0 <= i < |parts| ==> Absent(parts[i], sep)
    ensures Split(Join(parts, sep), sep) == parts
    decreases |parts|
  {
    if |parts| > 1 {
      var tail := Join(parts[1..], sep);
      FirstAfter(parts[0], sep, tail, 0);
      assert (parts[0] + sep + tail)[..|parts[0]|] == parts[0];
      assert (parts[0] + sep + tail)[|parts[0]| + |sep|..] == tail;
      SplitJoin(parts[1..], sep);
    }
  }

  /** A text without the first character of a pattern holds no occurrence of it. */
  lemma {:induction false} NoLeadAbsent(s: string, p: string)
    requires |p| > 0 && p[0] !in s
    ensures Absent(s, p)
  {
    forall k | 0 <= k
      ensures !At(s, p, k)
    {
      if k + |p| <= |s| {
        assert s[k..k + |p|][0] == s[k];
      }
    }
  }

  /** `explode` cuts off a separator-free head at the separator that follows it. */
  lemma {:induction false} SplitHead(a: string, sep: string, rest: string)
    requires |sep| > 0 && Unbordered(sep) && Absent(a, sep)
    ensures Split(a + sep + rest, sep) == [a] + Split(rest, sep)
  {
    var s := a + sep + rest;
    FirstAfter(a, sep, rest, 0);
    assert s[..|a|] == a;
    assert s[|a| + |sep|..] == rest;
  }

  /** Shifting the start of a search by one character shifts its answer. */
  lemma {:induction false} ShiftIndexOf(s: string, p: string)
    requires |s| > 0 && |p| > 0 && !At(s, p, 0)
    ensures IndexOf(s, p, 0).Some? <==> IndexOf(s[1..], p, 0).Some?
    ensures IndexOf(s, p, 0).Some? ==> IndexOf(s[1..], p, 0).value == IndexOf(s, p, 0).value - 1
  {
    assert forall k :: 1 <= k ==> At(s, p, k) == At(s[1..], p, k - 1);
    var a := IndexOf(s, p, 0);
    var b := IndexOf(s[1..], p, 0);
    if a.Some? {
      assert At(s[1..], p, a.value - 1);
    }
    if b.Some? {
      assert At(s, p, b.value + 1);
    }
  }

  /**
   * `str_replace` agrees with `implode(rep, explode(pat, s))`, the reading of
   * replacement as cutting at every occurrence and gluing with `rep`.
   */
  lemma {:induction false} ReplaceAllIsJoinSplit(s: string, pat: string, rep: string)
    requires |pat| > 0
    ensures ReplaceAll(s, pat, rep) == Join(Split(s, pat), rep)
    decreases |s|
  {
    if s == [] {
      assert Split(s, pat) == [s];
    } else if pat <= s {
      ReplaceAllIsJoinSplit(s[|pat|..], pat, rep);
      JoinSplitLead(s, pat, rep);
    } else {
      ReplaceAllIsJoinSplit(s[1..], pat, rep);
      JoinSplitShift(s, pat, rep);
    }
  }

  /** The cut-and-glue reading turns a leading occurrence into `rep`. */
  lemma {:induction false} JoinSplitLead(s: string, pat: string, rep: string)
    requires |pat| > 0 && pat <= s
    ensures Join(Split(s, pat), rep) == rep + Join(Split(s[|pat|..], pat), rep)
  {
    assert At(s, pat, 0);
    SplitStep(s, pat, 0);
    JoinCons([], Split(s[|pat|..], pat), rep);
  }

  /** The cut-and-glue reading moves one leading non-occurrence character out. */
  lemma {:induction false} JoinSplitShift(s: string, pat: string, rep: string)
    requires |pat| > 0 && |s| > 0 && !(pat <= s)
    ensures Join(Split(s, pat), rep) == [s[0]] + Join(Split(s[1..], pat), rep)
  {
    assert !At(s, pat, 0);
    ShiftIndexOf(s, pat);
    match IndexOf(s, pat, 0)
    case None =>
      assert Split(s, pat) == [s];
      assert Split(s[1..], pat) == [s[1..]];
    case Some(k) =>
      JoinSplitShiftAt(s, pat, rep, k);
  }

  /** `JoinSplitShift` when the first occurrence is at `k`. */
  lemma {:induction false} JoinSplitShiftAt(s: string, pat: string, rep: string, k: nat)
    requires |pat| > 0 && IndexOf(s, pat, 0) == Some(k) && k > 0
    requires IndexOf(s[1..], pat, 0) == Some(k - 1)
    ensures Join(Split(s, pat), rep) == [s[0]] + Join(Split(s[1..], pat), rep)
  {
    var t := s[1..];
    var rest := s[k + |pat|..];
    var j := Join(Split(rest, pat), rep);
    assert Join(Split(s, pat), rep) == s[..k] + rep + j by {
      JoinSplitAt(s, pat, rep, k, rest);
    }
    assert Join(Split(t, pat), rep) == t[..k - 1] + rep + j by {
      DropDrop(s, 1, k - 1 + |pat|);
      JoinSplitAt(t, pat, rep, k - 1, rest);
    }
    assert s[..k] == [s[0]] + t[..k - 1] by {
      TakeCons(s, k);
    }
    HeadRegroup(s[0], t[..k - 1], rep, j);
  }

  /** Regrouping a glued text that starts with one character. */
  lemma HeadRegroup(c: char, b: string, sep: string, j: string)
    ensures [c] + b + sep + j == [c] + (b + sep + j)
  {
  }

  /** The glued pieces when the first occurrence is at `k` and `rest` follows it. */
  lemma {:induction false} JoinSplitAt(s: string, pat: string, rep: string, k: nat, rest: string)
    requires |pat| > 0 && IndexOf(s, pat, 0) == Some(k)
    requires k + |pat| <= |s| && s[k + |pat|..] == rest
    ensures Join(Split(s, pat), rep) == s[..k] + rep + Join(Split(rest, pat), rep)
  {
    SplitStep(s, pat, k);
    JoinCons(s[..k], Split(rest, pat), rep);
  }

  /** Dropping twice is dropping once. */
  lemma DropDrop(s: string, i: nat, j: nat)
    requires i + j <= |s|
    ensures s[i..][j..] == s[i + j..]
  {
  }

  /** A non-empty prefix is its first character before a prefix of the tail. */
  lemma TakeCons(s: string, k: nat)
    requires 0 < k <= |s|
    ensures s[..k] == [s[0]] + s[1..][..k - 1]
  {
  }

  /** Replacing a pattern by itself changes nothing. */
  lemma {:induction false} ReplaceBySelf(s: string, pat: string)
    requires |pat| > 0
    ensures ReplaceAll(s, pat, pat) == s
  {
    ReplaceAllIsJoinSplit(s, pat, pat);
    JoinSplit(s, pat);
  }

  /** Replacing the separator of occurrence-free parts swaps the glue. */
  lemma {:induction false} ReplaceInJoin(parts: seq<string>, pat: string, rep: string)
    requires |pat| > 0 && Unbordered(pat) && |parts| > 0
    requires forall i :: 0 <= i < |parts| ==> Absent(parts[i], pat)
    ensures ReplaceAll(Join(parts, pat), pat, rep) == Join(parts, rep)
  {
    ReplaceAllIsJoinSplit(Join(parts, pat), pat, rep);
    SplitJoin(parts, pat);
  }

  /** ASCII `strtolower` on one character. */
  function LowerChar(c: char): (r: char)
    ensures 'A' <= c <= 'Z' ==> 'a' <= r <= 'z'
    ensures !('A' <= c <= 'Z') ==> r == c
  {
    if 'A' <= c <= 'Z' then (c as int - 'A' as int + 'a' as int) as char else c
  }

  /** PHP 8 `strtolower`: ASCII letters only, other bytes untouched. */
  function Lower(s: string): (r: string)
    ensures |r| == |s|
    ensures forall i :: 0 <= i < |s| ==> r[i] == LowerChar(s[i])
  {
    seq(|s|, i requires 0 <= i < |s| => LowerChar(s[i]))
  }

  /** Lower-casing is idempotent, so the driver switch sees the same key twice over. */
  lemma LowerIdempotent(s: string)
    ensures Lower(Lower(s)) == Lower(s)
  {
  }

  /** PHP truthiness of a string: everything but `""` and `"0"`. */
  predicate Truthy(s: string) {
    s != "" && s != "0"
  }

  /** The decimal digits of a natural number. */
  function NatToString(n: nat): (r: string)
    ensures |r| >= 1
    ensures forall i :: 0 <= i < |r| ==> '0' <= r[i] <= '9'
    decreases n
  {
    if n < 10 then [('0' as int + n) as char]
    else NatToString(n / 10) + [('0' as int + n % 10) as char]
  }

  /** PHP's string form of an integer. */
  function IntToString(i: int): (r: string)
    ensures |r| >= 1
  {
    if i < 0 then "-" + NatToString(-i) else NatToString(i)
  }
  /** A decimal digit. */
  predicate IsDigit(c: char) {
    '0' <= c <= '9'
  }

  /** The length of the run of digits at the head of `s`. */
  function LeadDigits(s: string): (n: nat)
    ensures n <= |s|
    ensures forall i :: 0 <= i < n ==> IsDigit(s[i])
    ensures n == |s| || !IsDigit(s[n])
  {
    if s != [] && IsDigit(s[0]) then 1 + LeadDigits(s[1..]) else 0
  }

  /** The value of a run of decimal digits, read most significant first. */
  function DigitsValue(s: string): (v: nat)
    requires forall i :: 0 <= i < |s| ==> IsDigit(s[i])
  {
    if s == [] then 0
    else
      assert IsDigit(s[|s| - 1]);
      DigitsValue(s[..|s| - 1]) * 10 + (s[|s| - 1] as int - '0' as int)
  }

  /** The white space PHP skips before a number. */
  const NumberSpace: set<char> := {' ', '\t', '\n', '\r', '\U{0B}', '\U{0C}'}

  /**
   * PHP's `(int)` cast of a string, on its integer forms: leading white space,
   * an optional sign, then the leading digits; a string without them is 0.
   */
  function IntVal(s: string): (r: int)
    ensures var t := TrimLeft(s, NumberSpace);
      r != 0 ==> t != [] && (IsDigit(t[0]) || ((t[0] == '-' || t[0] == '+') && |t| > 1 && IsDigit(t[1])))
    ensures r < 0 ==> TrimLeft(s, NumberSpace)[0] == '-'
  {
    var t := TrimLeft(s, NumberSpace);
    if t != [] && (t[0] == '-' || t[0] == '+') then
      var m: int := DigitsValue(t[1..][..LeadDigits(t[1..])]);
      if t[0] == '-' then -m else m
    else
      DigitsValue(t[..LeadDigits(t)])
  }

  /** Digits read back give the number they were written from. */
  lemma {:induction false} DigitsOfNat(n: nat)
    ensures forall i :: 0 <= i < |NatToString(n)| ==> IsDigit(NatToString(n)[i])
    ensures DigitsValue(NatToString(n)) == n
    decreases n
  {
    var s := NatToString(n);
    if n >= 10 {
      DigitsOfNat(n / 10);
      assert s[..|s| - 1] == NatToString(n / 10);
    }
  }

  /** A string of digits is read whole. */
  lemma {:induction false} LeadDigitsAll(s: string)
    requires forall i :: 0 <= i < |s| ==> IsDigit(s[i])
    ensures LeadDigits(s) == |s|
    decreases |s|
  {
    if s != [] {
      LeadDigitsAll(s[1..]);
    }
  }

  /** A plain run of digits is read as its value. */
  lemma {:induction false} IntValDigits(d: string)
    requires d != [] && forall i :: 0 <= i < |d| ==> IsDigit(d[i])
    ensures IntVal(d) == DigitsValue(d)
  {
    LeadDigitsAll(d);
    assert d[..|d|] == d;
    assert d[0] !in NumberSpace;
    assert TrimLeft(d, NumberSpace) == d;
  }

  /** A minus sign before a run of digits negates its value. */
  lemma {:induction false} IntValNegated(d: string)
    requires d != [] && forall i :: 0 <= i < |d| ==> IsDigit(d[i])
    ensures IntVal("-" + d) == 0 - DigitsValue(d) as int
  {
    var s := "-" + d;
    LeadDigitsAll(d);
    assert d[..|d|] == d;
    assert s[0] !in NumberSpace;
    assert TrimLeft(s, NumberSpace) == s;
    assert s[1..] == d;
  }

  /** The `(int)` cast reads back every integer PHP writes. */
  lemma {:induction false} IntValRoundTrip(i: int)
    ensures IntVal(IntToString(i)) == i
  {
    var n: nat := if i < 0 then -i else i;
    DigitsOfNat(n);
    if i < 0 {
      IntValNegated(NatToString(n));
    } else {
      IntValDigits(NatToString(n));
    }
  }
  /**
   * A numeric string in PHP 8's sense, on its integer forms: optional white
   * space, an optional sign, one or more digits, optional white space.
   */
  predicate IntegerNumeric(s: string) {
    var t := TrimRight(TrimLeft(s, NumberSpace), NumberSpace);
    var d := if t != [] && (t[0] == '-' || t[0] == '+') then t[1..] else t;
    d != [] && forall i :: 0 <= i < |d| ==> IsDigit(d[i])
  }

  /**
   * PHP 8's `==` between two strings: two numeric strings are equal when
   * their values are, any other pair only when the strings are identical.
   */
  predicate LooseEquals(a: string, b: string) {
    if IntegerNumeric(a) && IntegerNumeric(b) then IntVal(a) == IntVal(b) else a == b
  }

  /** `in_array` without its strict flag: some element is loosely equal to the needle. */
  predicate InArray(x: string, xs: seq<string>) {
    exists i :: 0 <= i < |xs| && LooseEquals(x, xs[i])
  }

  /** An element of the array is always found, numeric or not. */
  lemma {:induction false} InArrayMember(x: string, xs: seq<string>)
    requires x in xs
    ensures InArray(x, xs)
  {
    var i :| 0 <= i < |xs| && xs[i] == x;
    assert LooseEquals(x, xs[i]);
  }

  /** A needle that is not a numeric string is found exactly when it is an element. */
  lemma {:induction false} InArrayExact(x: string, xs: seq<string>)
    requires !IntegerNumeric(x)
    ensures InArray(x, xs) <==> x in xs
  {
    if x in xs {
      InArrayMember(x, xs);
    }
    if InArray(x, xs) {
      var i :| 0 <= i < |xs| && LooseEquals(x, xs[i]);
      assert xs[i] == x;
    }
  }

  /** A run of digits is a numeric string. */
  lemma {:induction false} DigitsNumeric(d: string)
    requires d != [] && forall i :: 0 <= i < |d| ==> IsDigit(d[i])
    ensures IntegerNumeric(d)
  {
    assert d[0] !in NumberSpace;
    assert TrimLeft(d, NumberSpace) == d;
    assert d[|d| - 1] !in NumberSpace;
    assert TrimRight(d, NumberSpace) == d;
  }

  /** A leading zero does not change the value of a run of digits. */
  lemma {:induction false} LeadingZeroValue(d: string)
    requires forall i :: 0 <= i < |d| ==> IsDigit(d[i])
    ensures DigitsValue("0" + d) == DigitsValue(d)
    decreases |d|
  {
    if d != [] {
      var z := "0" + d;
      assert z[..|z| - 1] == "0" + d[..|d| - 1];
      assert z[|z| - 1] == d[|d| - 1];
      LeadingZeroValue(d[..|d| - 1]);
    }
  }

  /** Two strings of digits that differ by a leading zero are loosely equal, though not identical. */
  lemma {:induction false} LeadingZeroLoose(d: string)
    requires d != [] && forall i :: 0 <= i < |d| ==> IsDigit(d[i])
    ensures LooseEquals("0" + d, d) && "0" + d != d
  {
    var z := "0" + d;
    assert forall i :: 0 <= i < |z| ==> IsDigit(z[i]);
    DigitsNumeric(d);
    DigitsNumeric(z);
    IntValDigits(d);
    IntValDigits(z);
    LeadingZeroValue(d);
    assert |z| != |d|;
  }
}

=== FILE: syntax.dfy ===
/**
 * The directive patterns of the template engine, each as a deterministic
 * matcher at the head of a text (see `Scan`).  Every pattern here is
 * unambiguous once its greedy and lazy parts are resolved: a lazy `(.*?)`
 * followed by a keyword stops at the first occurrence of the keyword, a
 * `\w+` next to a non-word character cannot give anything back, and the
 * single-line greedy `(.*)` of the component pattern extends to the last `)`
 * before the end of the line.
 */
module Syntax {
  import opened Wrappers
  import opened Strings
  import opened Scan

  /** A directive with a head (name, condition or value) and a body. */
  datatype Block = Block(head: string, body: string)

  /** `@foreach collection as item body @endforeach`. */
  datatype Loop = Loop(collection: string, item: string, body: string)

  /** `@component('name', params)`; the parameter text is absent when there is no comma. */
  datatype Call = Call(name: string, params: Option<string>)

  /** One `'key': value` pair of a component's parameter text. */
  datatype Param = Param(key: string, raw: string)

  // ---------------------------------------------------------------- scanning

  /** The end of the run of `\s` characters from `i`. */
  function SkipSpaces(s: string, i: nat): (j: nat)
    requires i <= |s|
    ensures i <= j <= |s|
    ensures forall k :: i <= k < j ==> IsSpace(s[k])
    ensures j == |s| || !IsSpace(s[j])
    decreases |s| - i
  {
    if i < |s| && IsSpace(s[i]) then SkipSpaces(s, i + 1) else i
  }

  /** The end of the run of `\w` characters from `i`. */
  function WordEnd(s: string, i: nat): (j: nat)
    requires i <= |s|
    ensures i <= j <= |s|
    ensures forall k :: i <= k < j ==> IsWordChar(s[k])
    ensures j == |s| || !IsWordChar(s[j])
    decreases |s| - i
  {
    if i < |s| && IsWordChar(s[i]) then WordEnd(s, i + 1) else i
  }

  /** All characters of `w` are word characters and there is at least one. */
  predicate IsWord(w: string) {
    |w| > 0 && forall k :: 0 <= k < |w| ==> IsWordChar(w[k])
  }

  /** A quote followed by `)` sits at `j`. */
  predicate QuoteParenAt(s: string, j: nat) {
    j + 1 < |s| && IsQuote(s[j]) && s[j + 1] == ')'
  }

  /**
   * The first `j >= from` where a quote is followed by `)`; when `line` is
   * set the search gives up at a line feed, as `.` does without the `s` flag.
   */
  function QuoteParen(s: string, from: nat, line: bool): (r: Option<nat>)
    ensures r.Some? ==> from <= r.value && QuoteParenAt(s, r.value)
    ensures r.Some? ==> forall k :: from <= k < r.value ==> !QuoteParenAt(s, k)
    ensures r.Some? && line ==> forall k :: from <= k < r.value ==> s[k] != '\n'
    decreases |s| - from
  {
    if from + 1 >= |s| then None
    else if QuoteParenAt(s, from) then Some(from)
    else if line && s[from] == '\n' then None
    else QuoteParen(s, from + 1, line)
  }

  /** The first quote character at or after `from`. */
  function NextQuote(s: string, from: nat): (r: Option<nat>)
    ensures r.Some? ==> from <= r.value < |s| && IsQuote(s[r.value])
    ensures r.Some? ==> forall k :: from <= k < r.value ==> !IsQuote(s[k])
    decreases |s| - from
  {
    if from >= |s| then None
    else if IsQuote(s[from]) then Some(from)
    else NextQuote(s, from + 1)
  }

  /** The last `)` in `s[lo..hi]`. */
  function LastParen(s: string, lo: nat, hi: nat): (r: Option<nat>)
    requires lo <= hi <= |s|
    ensures r.Some? ==> lo <= r.value < hi && s[r.value] == ')'
    ensures r.Some? ==> forall k :: r.value < k < hi ==> s[k] != ')'
    ensures r.None? ==> forall k :: lo <= k < hi ==> s[k] != ')'
    decreases hi - lo
  {
    if lo == hi then None
    else if s[hi - 1] == ')' then Some(hi - 1)
    else LastParen(s, lo, hi - 1)
  }

  /** The end of the line that contains position `from`. */
  function LineEnd(s: string, from: nat): (r: nat)
    requires from <= |s|
    ensures from <= r <= |s|
    ensures forall k :: from <= k < r ==> s[k] != '\n'
    ensures r == |s| || s[r] == '\n'
  {
    match IndexOf(s, "\n", from)
    case Some(k) =>
      assert s[k..k + 1] == "\n";
      assert forall i :: from <= i < k ==> s[i] != '\n' by {
        forall i | from <= i < k ensures s[i] != '\n' {
          assert !At(s, "\n", i);
          assert s[i..i + 1] == [s[i]];
        }
      }
      k
    case None =>
      assert forall k :: from <= k < |s| ==> s[k] != '\n' by {
        forall k | from <= k < |s| ensures s[k] != '\n' {
          assert !At(s, "\n", k);
          assert s[k..k + 1] == [s[k]];
        }
      }
      |s|
  }

  // ---------------------------------------------------------------- matchers

  /** `{{\s*(\w+)\s*}}`. */
  function VarMatch(s: string): (r: Option<Span<string>>)
    ensures r.Some? ==> 1 <= r.value.len <= |s| && s[0] == '{'
    ensures r.Some? ==> IsWord(r.value.value)
  {
    if !At(s, "{{", 0) then None
    else
      assert s[0] == s[0..2][0];
      var a := SkipSpaces(s, 2);
      var b := WordEnd(s, a);
      var c := SkipSpaces(s, b);
      if a < b && At(s, "}}", c) then WordRun(s, a); Some(Span(c + 2, s[a..b])) else None
  }

  /** `\$(\w+)`, the variables of a condition or a switch value. */
  function DollarMatch(s: string): (r: Option<Span<string>>)
    ensures r.Some? ==> 1 <= r.value.len <= |s| && s[0] == '$'
    ensures r.Some? ==> IsWord(r.value.value)
  {
    if s == [] || s[0] != '$' then None
    else
      var b := WordEnd(s, 1);
      if b > 1 then Some(Span(b, s[1..b])) else None
  }

  /** `\{\{\s*message\s*\}\}`, the slot of a message block. */
  function MessageTokenMatch(s: string): (r: Option<Span<()>>)
    ensures r.Some? ==> 1 <= r.value.len <= |s| && s[0] == '{'
  {
    if !At(s, "{{", 0) then None
    else
      assert s[0] == s[0..2][0];
      var a := SkipSpaces(s, 2);
      if !At(s, "message", a) then None
      else
        var c := SkipSpaces(s, a + 7);
        if At(s, "}}", c) then Some(Span(c + 2, ())) else None
  }

  /** `@csrf\(\)`. */
  function CsrfMatch(s: string): (r: Option<Span<()>>)
    ensures r.Some? ==> 1 <= r.value.len <= |s| && s[0] == '@'
  {
    if At(s, "@csrf()", 0) then assert s[0] == s[0..7][0]; Some(Span(7, ())) else None
  }

  /**
   * `<keyword>\(["'](.+?)["']\)` without the `s` flag, for `@assets`,
   * `@images` and `@errors`: the argument runs to the first quote followed
   * by `)`, and may not cross a line feed.
   */
  function QuotedMatch(s: string, keyword: string): (r: Option<Span<string>>)
    requires |keyword| > 0 && keyword[0] == '@'
    ensures r.Some? ==> 1 <= r.value.len <= |s| && s[0] == '@'
    ensures r.Some? ==> |r.value.value| >= 1 && forall k :: 0 <= k < |r.value.value| ==> r.value.value[k] != '\n'
  {
    var n := |keyword|;
    if !At(s, keyword + "(", 0) || n + 3 > |s| || !IsQuote(s[n + 1]) || s[n + 2] == '\n' then None
    else
      assert s[0] == s[0..n + 1][0];
      match QuoteParen(s, n + 3, true)
      case None => None
      case Some(j) => Some(Span(j + 2, s[n + 2..j]))
  }

  /**
   * `@message\(["'](.+?)["']\)(.*?)@endmessage` with the `s` flag: the name
   * ends at the first quote followed by `)`, the body at the first
   * `@endmessage` after it.
   */
  function MessageMatch(s: string): (r: Option<Span<Block>>)
    ensures r.Some? ==> 1 <= r.value.len <= |s| && s[0] == '@'
    ensures r.Some? ==> Absent(r.value.value.body, "@endmessage")
  {
    if !At(s, "@message(", 0) || |s| < 11 || !IsQuote(s[9]) then None
    else
      assert s[0] == s[0..9][0];
      match QuoteParen(s, 11, false)
      case None => None
      case Some(j) => MessageBody(s, j)
  }

  /** The rest of `MessageMatch` once the name is known to end at the quote at `j`. */
  function MessageBody(s: string, j: nat): (r: Option<Span<Block>>)
    requires 11 <= j && j + 2 <= |s|
    ensures r.Some? ==> j + 13 <= r.value.len <= |s|
    ensures r.Some? ==> Absent(r.value.value.body, "@endmessage")
  {
    match IndexOf(s, "@endmessage", j + 2)
    case None => None
    case Some(e) =>
      AbsentBetween(s, "@endmessage", j + 2, e);
      Some(Span(e + 11, Block(s[10..j], s[j + 2..e])))
  }

  /**
   * `<open>(.*?)\)(.*?)<close>` with the `s` flag, the shape of `@if`,
   * `@switch` and `@case`: the head ends at the first `)`, the body at the
   * first `close` after it.
   */
  function ParenMatch(s: string, open: string, close: string): (r: Option<Span<Block>>)
    requires |open| > 0 && open[0] == '@' && |close| > 0
    ensures r.Some? ==> 1 <= r.value.len <= |s| && s[0] == '@'
    ensures r.Some? ==> Absent(r.value.value.head, ")") && Absent(r.value.value.body, close)
  {
    if !At(s, open, 0) then None
    else
      assert s[0] == s[0..|open|][0];
      match IndexOf(s, ")", |open|)
      case None => None
      case Some(c) =>
        AbsentBetween(s, ")", |open|, c);
        ParenBody(s, |open|, close, c)
  }

  /** The rest of `ParenMatch` once the head is known to run from `h` to the `)` at `c`. */
  function ParenBody(s: string, h: nat, close: string, c: nat): (r: Option<Span<Block>>)
    requires h <= c < |s| && |close| > 0
    ensures r.Some? ==> c + 1 + |close| <= r.value.len <= |s|
    ensures r.Some? ==> r.value.value.head == s[h..c] && Absent(r.value.value.body, close)
  {
    match IndexOf(s, close, c + 1)
    case None => None
    case Some(e) =>
      AbsentBetween(s, close, c + 1, e);
      Some(Span(e + |close|, Block(s[h..c], s[c + 1..e])))
  }

  /** `@if\((.*?)\)(.*?)@endif`. */
  function IfMatch(s: string): (r: Option<Span<Block>>)
    ensures r.Some? ==> 1 <= r.value.len <= |s| && s[0] == '@'
  {
    ParenMatch(s, "@if(", "@endif")
  }

  /** `@switch\((.*?)\)(.*?)@endswitch`. */
  function SwitchMatch(s: string): (r: Option<Span<Block>>)
    ensures r.Some? ==> 1 <= r.value.len <= |s| && s[0] == '@'
    ensures r.Some? ==> Absent(r.value.value.body, "@endswitch")
  {
    ParenMatch(s, "@switch(", "@endswitch")
  }

  /** `@case\((.*?)\)(.*?)@break`: the same scan as `IfMatch`, with `@break` closing the body. */
  function CaseMatch(s: string): (r: Option<Span<Block>>)
    ensures r.Some? ==> 1 <= r.value.len <= |s| && s[0] == '@'
  {
    ParenMatch(s, "@case(", "@break")
  }

  /**
   * `@default(.*?)@endswitch`, searched anywhere in a switch body: the first
   * `@default` that has an `@endswitch` after it.
   */
  function DefaultSearch(cases: string): (r: Option<string>)
    ensures r.Some? ==> !Absent(cases, "@endswitch")
  {
    match IndexOf(cases, "@default", 0)
    case None => None
    case Some(d) =>
      match IndexOf(cases, "@endswitch", d + 8)
      case None => None
      case Some(e) => Some(cases[d + 8..e])
  }

  /**
   * The header `@foreach\s+(\w+)\s+as\s+(\w+)`: the bounds of the collection
   * name and of the item name.
   */
  function LoopHeader(s: string): (r: Option<(nat, nat, nat, nat)>)
    ensures r.Some? ==> At(s, "@foreach", 0)
    ensures r.Some? ==> r.value.0 < r.value.1 <= r.value.2 < r.value.3 <= |s|
    ensures r.Some? ==> IsWord(s[r.value.0..r.value.1]) && IsWord(s[r.value.2..r.value.3])
  {
    if !At(s, "@foreach", 0) then None
    else
      var a := SkipSpaces(s, 8);
      var b := WordEnd(s, a);
      var c := SkipSpaces(s, b);
      if a == 8 || b == a || c == b || !At(s, "as", c) then None
      else
        var d := SkipSpaces(s, c + 2);
        var e := WordEnd(s, d);
        if d == c + 2 || e == d then None
        else Some((a, b, d, e))
  }

  /**
   * `@foreach\s+(\w+)\s+as\s+(\w+)(.*?)@endforeach` with the `s` flag.
   */
  function LoopMatch(s: string): (r: Option<Span<Loop>>)
    ensures r.Some? ==> 1 <= r.value.len <= |s| && s[0] == '@'
    ensures r.Some? ==> IsWord(r.value.value.collection) && IsWord(r.value.value.item)
    ensures r.Some? ==> Absent(r.value.value.body, "@endforeach")
  {
    match LoopHeader(s)
    case None => None
    case Some((a, b, d, e)) =>
      assert s[0] == s[0..8][0];
      LoopBody(s, a, b, d, e)
  }

  /** The rest of `LoopMatch` once the header is known to name `s[a..b]` and `s[d..e]`. */
  function LoopBody(s: string, a: nat, b: nat, d: nat, e: nat): (r: Option<Span<Loop>>)
    requires a < b <= d < e <= |s| && IsWord(s[a..b]) && IsWord(s[d..e])
    ensures r.Some? ==> e + 11 <= r.value.len <= |s|
    ensures r.Some? ==> IsWord(r.value.value.collection) && IsWord(r.value.value.item)
    ensures r.Some? ==> Absent(r.value.value.body, "@endforeach")
  {
    match IndexOf(s, "@endforeach", e)
    case None => None
    case Some(f) =>
      AbsentBetween(s, "@endforeach", e, f);
      Some(Span(f + 11, Loop(s[a..b], s[d..e], s[e..f])))
  }

  /**
   * `@component\(\s*['"](\w+)['"]\s*(?:,\s*(.*))?\)` without the `s` flag.
   * After a comma the parameter text runs to the last `)` of the line.
   */
  function ComponentMatch(s: string): (r: Option<Span<Call>>)
    ensures r.Some? ==> 1 <= r.value.len <= |s| && s[0] == '@'
    ensures r.Some? ==> IsWord(r.value.value.name)
  {
    if !At(s, "@component(", 0) then None
    else
      assert s[0] == s[0..11][0];
      var a := SkipSpaces(s, 11);
      match QuotedWordEnd(s, a)
      case None => None
      case Some(b) =>
        var p := SkipSpaces(s, b + 1);
        if p < |s| && s[p] == ',' then
          var q := SkipSpaces(s, p + 1);
          match LastParen(s, q, LineEnd(s, q))
          case None => None
          case Some(e) => Some(Span(e + 1, Call(s[a + 1..b], Some(s[q..e]))))
        else if p < |s| && s[p] == ')' then
          Some(Span(p + 1, Call(s[a + 1..b], None)))
        else None
  }

  /** `['"](\w+)['"]` at `a`: the position of the closing quote. */
  function QuotedWordEnd(s: string, a: nat): (r: Option<nat>)
    requires a <= |s|
    ensures r.Some? ==> a + 1 < r.value < |s| && IsQuote(s[a]) && IsQuote(s[r.value])
    ensures r.Some? ==> IsWord(s[a + 1..r.value])
  {
    if a >= |s| || !IsQuote(s[a]) then None
    else
      var b := WordEnd(s, a + 1);
      if b == a + 1 || b >= |s| || !IsQuote(s[b]) then None else Some(b)
  }

  /**
   * `\s*['"](\w+)['"]\s*:\s*(\[[^\]]*\]|['"][^'"]*['"])`, one parameter:
   * a bracketed list up to the first `]`, or a quoted text up to the next quote.
   */
  function ParamMatch(s: string): (r: Option<Span<Param>>)
    ensures r.Some? ==> 1 <= r.value.len <= |s|
    ensures r.Some? ==> IsWord(r.value.value.key)
  {
    var a := SkipSpaces(s, 0);
    match QuotedWordEnd(s, a)
    case None => None
    case Some(b) =>
      match ParamValueAfter(s, b)
      case None => None
      case Some((v, w)) => Some(Span(w + 1, Param(s[a + 1..b], s[v..w + 1])))
  }

  /**
   * `\s*:\s*` and a value after the quote that closes a key at `b`: where the
   * value starts and where it ends.
   */
  function ParamValueAfter(s: string, b: nat): (r: Option<(nat, nat)>)
    requires b < |s|
    ensures r.Some? ==> b < r.value.0 < r.value.1 < |s|
  {
    var c := SkipSpaces(s, b + 1);
    if c >= |s| || s[c] != ':' then None
    else
      var v := SkipSpaces(s, c + 1);
      if v >= |s| then None
      else
        match ValueEnd(s, v)
        case None => None
        case Some(w) => Some((v, w))
  }

  /**
   * `\[[^\]]*\]|['"][^'"]*['"]` at `v`: the position of the `]` or of the
   * quote that ends the value.
   */
  function ValueEnd(s: string, v: nat): (r: Option<nat>)
    requires v < |s|
    ensures r.Some? ==> v < r.value < |s|
    ensures r.Some? && s[v] == '[' ==> s[r.value] == ']'
    ensures r.Some? && s[v] != '[' ==> IsQuote(s[v]) && IsQuote(s[r.value])
  {
    if s[v] == '[' then
      match IndexOf(s, "]", v + 1)
      case None => None
      case Some(w) => assert s[w..w + 1] == "]"; Some(w)
    else if IsQuote(s[v]) then NextQuote(s, v + 1)
    else None
  }

  // ------------------------------------------------------------ proof helpers

  /** The first occurrence found by `IndexOf` leaves the text before it free of the pattern. */
  lemma {:induction false} AbsentBetween(s: string, p: string, from: nat, e: nat)
    requires |p| > 0 && IndexOf(s, p, from) == Some(e)
    ensures Absent(s[from..e], p)
  {
    var i := IndexOf(s[from..e], p, 0);
    if i.Some? {
      AtSlice(s, p, from, e, i.value);
    }
  }

  /** An occurrence inside a slice is an occurrence in the whole text. */
  lemma {:induction false} AtSlice(s: string, p: string, from: nat, e: nat, i: nat)
    requires from <= e <= |s| && At(s[from..e], p, i)
    ensures At(s, p, from + i) && from + i + |p| <= e
  {
    SliceSlice(s, from, e, i, i + |p|);
  }

  /** A slice of a slice is a slice. */
  lemma {:induction false} SliceSlice(s: string, a: nat, b: nat, c: nat, d: nat)
    requires a <= b <= |s| && c <= d <= b - a
    ensures s[a..b][c..d] == s[a + c..a + d]
  {
    var x, y := s[a..b][c..d], s[a + c..a + d];
    assert |x| == |y|;
    forall k | 0 <= k < |x|
      ensures x[k] == y[k]
    {
      assert x[k] == s[a..b][c + k] == s[a + c + k];
    }
  }

  /** A pattern absent from a suffix occurs at no index inside that suffix. */
  lemma {:induction false} AbsentSuffix(pre: string, body: string, p: string)
    requires Absent(body, p)
    ensures forall k :: |pre| <= k ==> !At(pre + body, p, k)
  {
    forall k | |pre| <= k && At(pre + body, p, k)
      ensures false
    {
      assert (pre + body)[k..k + |p|] == body[k - |pre|..k - |pre| + |p|];
      assert At(body, p, k - |pre|);
    }
  }

  /** `SkipSpaces` stops exactly at the first non-space. */
  lemma {:induction false} SkipSpacesAt(s: string, i: nat, j: nat)
    requires i <= j <= |s|
    requires forall k :: i <= k < j ==> IsSpace(s[k])
    requires j == |s| || !IsSpace(s[j])
    ensures SkipSpaces(s, i) == j
    decreases j - i
  {
    if i < j {
      SkipSpacesAt(s, i + 1, j);
    }
  }

  /** `WordEnd` stops exactly at the first non-word character. */
  lemma {:induction false} WordEndAt(s: string, i: nat, j: nat)
    requires i <= j <= |s|
    requires forall k :: i <= k < j ==> IsWordChar(s[k])
    requires j == |s| || !IsWordChar(s[j])
    ensures WordEnd(s, i) == j
    decreases j - i
  {
    if i < j {
      WordEndAt(s, i + 1, j);
    }
  }

  /** The run `WordEnd` scans over, when it is not empty, is a word. */
  lemma {:induction false} WordRun(s: string, a: nat)
    requires a <= |s| && a < WordEnd(s, a)
    ensures IsWord(s[a..WordEnd(s, a)])
  {
    var b := WordEnd(s, a);
    forall k | 0 <= k < b - a
      ensures IsWordChar(s[a..b][k])
    {
      assert s[a..b][k] == s[a + k];
    }
  }

  /** Word characters are not white space. */
  lemma WordNotSpace(c: char)
    requires IsWordChar(c)
    ensures !IsSpace(c)
  {
  }

  /*
   * The lemmas below read a text `s` that is a prefix `x` followed by `t`:
   * a scan that starts `|x|` characters in does in `s` what it does in `t`.
   * Positions in `s` are named (`from`, `at`) rather than written as sums,
   * which keeps the chains of these facts cheap to combine.
   */

  /** Skipping white space after a prefix skips the same run in the suffix. */
  lemma {:induction false} SkipSpacesShift(x: string, t: string, s: string, j: nat, r: nat, from: nat, at: nat)
    requires s == x + t && j <= |t| && SkipSpaces(t, j) == r && from == |x| + j && at == |x| + r
    ensures SkipSpaces(s, from) == at
  {
    assert forall k :: from <= k < at ==> s[k] == t[k - |x|];
    SkipSpacesAt(s, from, at);
  }

  /** Reading a word after a prefix reads the same word in the suffix. */
  lemma {:induction false} WordEndShift(x: string, t: string, s: string, j: nat, r: nat, from: nat, at: nat)
    requires s == x + t && j <= |t| && WordEnd(t, j) == r && from == |x| + j && at == |x| + r
    ensures WordEnd(s, from) == at
  {
    assert forall k :: from <= k < at ==> s[k] == t[k - |x|];
    WordEndAt(s, from, at);
  }

  /** The search for a quote and `)` after a prefix finds the same pair, shifted. */
  lemma {:induction false} QuoteParenShift(x: string, t: string, s: string, j: nat, line: bool, r: nat, from: nat, at: nat)
    requires s == x + t && QuoteParen(t, j, line) == Some(r) && from == |x| + j && at == |x| + r
    ensures QuoteParen(s, from, line) == Some(at)
  {
    forall k | from <= k < at
      ensures !QuoteParenAt(s, k) && (line ==> s[k] != '\n')
    {
      assert !QuoteParenAt(t, k - |x|);
      assert s[k] == t[k - |x|] && s[k + 1] == t[k + 1 - |x|];
    }
    assert s[at] == t[r] && s[at + 1] == t[r + 1];
    QuoteParenFirst(s, from, at, line);
  }

  /** The search for a quote after a prefix finds the same quote, shifted. */
  lemma {:induction false} NextQuoteShift(x: string, t: string, s: string, j: nat, r: nat, from: nat, at: nat)
    requires s == x + t && NextQuote(t, j) == Some(r) && from == |x| + j && at == |x| + r
    ensures NextQuote(s, from) == Some(at)
  {
    assert forall k :: from <= k <= at ==> s[k] == t[k - |x|];
    NextQuoteAt(s, from, at);
  }

  /** A slice of the suffix, read in the whole text. */
  lemma SliceShift(x: string, t: string, s: string, a: nat, b: nat, from: nat, to: nat)
    requires s == x + t && a <= b <= |t| && from == |x| + a && to == |x| + b
    ensures s[from..to] == t[a..b]
  {
  }

  /** White space from `i` to `j` inside the literal `w`, then a non-space, is skipped whole. */
  lemma {:induction false} SkipSpacesLit(w: string, t: string, s: string, i: nat, j: nat)
    requires s == w + t && i <= j <= |w| && forall k :: i <= k < j ==> IsSpace(w[k])
    requires if j < |w| then !IsSpace(w[j]) else t == [] || !IsSpace(t[0])
    ensures SkipSpaces(s, i) == j
  {
    assert forall k :: i <= k < j ==> s[k] == w[k];
    assert j < |s| ==> s[j] == if j < |w| then w[j] else t[0];
    SkipSpacesAt(s, i, j);
  }

  /** A word at the head of a text, followed by a non-word character, is read whole. */
  lemma {:induction false} WordEndOf(w: string, t: string, s: string)
    requires s == w + t && IsWord(w) && (t == [] || !IsWordChar(t[0]))
    ensures WordEnd(s, 0) == |w|
  {
    assert forall k :: 0 <= k < |w| ==> s[k] == w[k];
    assert |w| < |s| ==> s[|w|] == t[0];
    WordEndAt(s, 0, |w|);
  }

  /** A text that starts with a word starts with neither white space nor a quote. */
  lemma {:induction false} WordLead(w: string, t: string, s: string)
    requires s == w + t && IsWord(w)
    ensures s != [] && !IsSpace(s[0]) && !IsQuote(s[0]) && IsWordChar(s[0])
  {
    assert s[0] == w[0];
  }

  /** `p` occurs at `i` of the literal `w`, whatever follows it. */
  lemma {:induction false} AtLit(w: string, t: string, s: string, p: string, i: nat)
    requires s == w + t && At(w, p, i)
    ensures At(s, p, i)
  {
    assert s[i..i + |p|] == w[i..i + |p|];
  }

  /** The head of a text is what was put there. */
  lemma SliceLead(w: string, t: string, s: string)
    requires s == w + t
    ensures s[0..|w|] == w
  {
  }

  /** The closing keywords of the block directives are unbordered: each starts with the only `@`. */
  lemma {:induction false} ClosersUnbordered()
    ensures Unbordered("@endmessage") && Unbordered("@endforeach") && Unbordered("@endif")
    ensures Unbordered("@endswitch") && Unbordered("@break")
  {
    LeadUniqueUnbordered("@endmessage");
    LeadUniqueUnbordered("@endforeach");
    LeadUniqueUnbordered("@endif");
    LeadUniqueUnbordered("@endswitch");
    LeadUniqueUnbordered("@break");
  }

  /** A text with no `@` holds no directive. */
  predicate NoAt(t: string) {
    forall k :: 0 <= k < |t| ==> t[k] != '@'
  }

  /** A text with no `{` holds no `{{ ... }}` placeholder. */
  predicate NoBrace(t: string) {
    forall k :: 0 <= k < |t| ==> t[k] != '{'
  }

  /** A matcher that only fires on `c` is quiet inside text without `c`. */
  lemma {:induction false} QuietWithout<T>(t: string, u: string, c: char, f: string -> Option<Span<T>>)
    requires forall x :: f(x).Some? ==> |x| > 0 && x[0] == c
    requires forall k :: 0 <= k < |t| ==> t[k] != c
    ensures QuietBefore(t, u, f)
  {
    forall k | 0 <= k < |t|
      ensures f(t[k..] + u).None?
    {
      assert (t[k..] + u)[0] == t[k];
    }
  }

  // ---------------------------------------------------- directives as written

  /** `{{ name }}` as a template writes it. */
  function VarToken(n: string): string {
    "{{ " + n + " }}"
  }

  /** `@message('name') body @endmessage`. */
  function MessageBlock(name: string, body: string): string {
    "@message('" + name + "')" + body + "@endmessage"
  }

  /** `open head ) body close`, the shape of `@if`, `@switch` and `@case`. */
  function ParenBlock(open: string, head: string, body: string, close: string): string {
    open + head + ")" + body + close
  }

  /** `@foreach collection as item body @endforeach`. */
  function LoopBlock(collection: string, item: string, body: string): string {
    "@foreach " + collection + " as " + item + body + "@endforeach"
  }

  /** `keyword('arg')`, the shape of `@assets`, `@images` and `@errors`. */
  function QuotedCall(keyword: string, arg: string): string {
    keyword + "('" + arg + "')"
  }

  /** `@component('name')`. */
  function ComponentCall(name: string): string {
    "@component('" + name + "')"
  }

  /** `@component('name', params)`. */
  function ComponentCallWith(name: string, params: string): string {
    "@component('" + name + "', " + params + ")"
  }

  /** No quote character in `t`. */
  predicate NoQuote(t: string) {
    forall k :: 0 <= k < |t| ==> !IsQuote(t[k])
  }

  /** `QuoteParen` finds the first quote-and-paren when nothing stops it earlier. */
  lemma {:induction false} QuoteParenFirst(s: string, from: nat, j: nat, line: bool)
    requires from <= j && QuoteParenAt(s, j)
    requires forall k :: from <= k < j ==> !QuoteParenAt(s, k)
    requires line ==> forall k :: from <= k < j ==> s[k] != '\n'
    ensures QuoteParen(s, from, line) == Some(j)
    decreases j - from
  {
    if from < j {
      QuoteParenFirst(s, from + 1, j, line);
    }
  }

  /** `LastParen` finds the last `)` of a range. */
  lemma {:induction false} LastParenAt(s: string, lo: nat, e: nat, hi: nat)
    requires lo <= e < hi <= |s| && s[e] == ')'
    requires forall k :: e < k < hi ==> s[k] != ')'
    ensures LastParen(s, lo, hi) == Some(e)
    decreases hi - e
  {
    if e < hi - 1 {
      LastParenAt(s, lo, e, hi - 1);
    }
  }

  /** `{{ name }}` is recognised, with the name as its capture. */
  lemma {:induction false} VarHead(n: string, u: string)
    requires IsWord(n)
    ensures VarMatch(VarToken(n) + u) == Some(Span(|VarToken(n)|, n))
  {
    var s := VarToken(n) + u;
    var m := |n|;
    VarTokenLaid(n, u, s);
    SkipSpacesAt(s, 2, 3);
    WordEndAt(s, 3, 3 + m);
    SkipSpacesAt(s, 3 + m, 4 + m);
  }

  /** Where the braces, the spaces and the name sit in a variable token followed by `u`. */
  lemma {:induction false} VarTokenLaid(n: string, u: string, s: string)
    requires s == VarToken(n) + u
    ensures |s| >= |n| + 6 && At(s, "{{", 0) && s[2] == ' ' && s[3 + |n|] == ' ' && At(s, "}}", 4 + |n|)
    ensures s[3..3 + |n|] == n && forall k :: 3 <= k < 3 + |n| ==> s[k] == n[k - 3]
  {
    var m := |n|;
    assert s[..2] == "{{" && s[2] == ' ' && s[3 + m] == ' ' && s[4 + m..6 + m] == "}}";
    assert forall k :: 3 <= k < 3 + m ==> s[k] == n[k - 3];
    assert s[3..3 + m] == n;
  }

  /** `$name` followed by a non-word character is recognised. */
  lemma {:induction false} DollarHead(n: string, u: string)
    requires IsWord(n) && (u == [] || !IsWordChar(u[0]))
    ensures DollarMatch("$" + n + u) == Some(Span(|n| + 1, n))
  {
    var s := "$" + n + u;
    assert forall k :: 1 <= k < 1 + |n| ==> s[k] == n[k - 1];
    WordEndAt(s, 1, 1 + |n|);
    assert s[1..1 + |n|] == n;
  }

  /** `{{ message }}` is recognised. */
  lemma {:induction false} MessageTokenHead(u: string)
    ensures MessageTokenMatch("{{ message }}" + u) == Some(Span(13, ()))
  {
    var s := "{{ message }}" + u;
    assert s[..13] == "{{ message }}";
    assert At(s, "{{", 0);
    SkipSpacesAt(s, 2, 3);
    assert At(s, "message", 3);
    SkipSpacesAt(s, 10, 11);
    assert At(s, "}}", 11);
  }

  /** `keyword('arg')` is recognised when the argument holds no quote and no line feed. */
  lemma {:induction false} QuotedHead(keyword: string, arg: string, u: string)
    requires |keyword| > 0 && keyword[0] == '@'
    requires |arg| > 0 && NoQuote(arg) && forall k :: 0 <= k < |arg| ==> arg[k] != '\n'
    ensures QuotedMatch(QuotedCall(keyword, arg) + u, keyword) == Some(Span(|QuotedCall(keyword, arg)|, arg))
  {
    var s := QuotedCall(keyword, arg) + u;
    var n := |keyword|;
    var j := n + 2 + |arg|;
    assert s[..n + 1] == keyword + "(";
    assert s[n + 1] == '\'' && s[j] == '\'' && s[j + 1] == ')';
    assert forall k :: n + 2 <= k < j ==> s[k] == arg[k - n - 2];
    QuoteParenFirst(s, n + 3, j, true);
    assert s[n + 2..j] == arg;
  }

  /** What `MessageMatch` returns once its two searches are known. */
  lemma MessageMatchIs(s: string, j: nat, e: nat, len: nat, name: string, body: string)
    requires At(s, "@message(", 0) && |s| >= 11 && IsQuote(s[9])
    requires QuoteParen(s, 11, false) == Some(j) && IndexOf(s, "@endmessage", j + 2) == Some(e)
    requires name == s[10..j] && body == s[j + 2..e] && len == e + 11
    ensures MessageMatch(s) == Some(Span(len, Block(name, body)))
  {
  }

  /**
   * A message block as written followed by `u`, cut into nested tails:
   * `s = "@message('" + r1`, `r1 = name + r2`, `r2 = "')" + r3`,
   * `r3 = body + "@endmessage" + u`.
   */
  predicate MessageLayout(s: string, r1: string, r2: string, r3: string, name: string, body: string, u: string) {
    r3 == body + ("@endmessage" + u) && r2 == "')" + r3 && r1 == name + r2 && s == "@message('" + r1
  }

  /** The keyword and the opening quote. */
  lemma {:induction false} MessageOpenOf(s: string, r1: string, r2: string, r3: string, name: string, body: string, u: string)
    requires MessageLayout(s, r1, r2, r3, name, body, u)
    ensures At(s, "@message(", 0) && |s| >= 11 && IsQuote(s[9])
  {
    assert "@message('"[0..9] == "@message(";
    AtLit("@message('", r1, s, "@message(", 0);
  }

  /** The name runs to the quote and `)` that follow it. */
  lemma {:induction false} MessageNameOf(s: string, r1: string, r2: string, r3: string, name: string, body: string, u: string, j: nat)
    requires MessageLayout(s, r1, r2, r3, name, body, u)
    requires |name| > 0 && NoQuote(name) && j == 10 + |name|
    ensures QuoteParen(s, 11, false) == Some(j)
  {
    var n := |name|;
    assert r1[n] == '\'' && r1[n + 1] == ')';
    assert forall k :: 0 <= k < n ==> r1[k] == name[k];
    QuoteParenFirst(r1, 1, n, false);
    QuoteParenShift("@message('", r1, s, 1, false, n, 11, j);
  }

  /** The search for the closing keyword `p` stops at the end of the body. */
  lemma {:induction false} MessageSearch(s: string, r1: string, r2: string, r3: string, name: string, body: string,
                      p: string, u: string, from: nat, e: nat)
    requires |p| > 0 && Unbordered(p) && Absent(body, p)
    requires r3 == body + (p + u) && r2 == "')" + r3 && r1 == name + r2 && s == "@message('" + r1
    requires from == 12 + |name| && e == from + |body|
    ensures IndexOf(s, p, from) == Some(e)
  {
    var n, k := |name|, |body|;
    var k2, n2, nk2 := k + 2, n + 2, n + k + 2;
    SearchPast("')", body, p, u, r3, r2, 2, k2);
    IndexOfShift(name, r2, r1, p, 2, k2, n2, nk2);
    IndexOfShift("@message('", r1, s, p, n2, nk2, from, e);
  }

  /** The two captures of a message block as written, read back by position. */
  lemma {:induction false} MessageParts(s: string, r1: string, r2: string, r3: string, name: string, body: string, u: string,
                     j: nat, e: nat)
    requires MessageLayout(s, r1, r2, r3, name, body, u)
    requires j == 10 + |name| && e == j + 2 + |body|
    ensures s[10..j] == name && s[j + 2..e] == body
  {
    var n, k := |name|, |body|;
    var k2, n2, nk2 := k + 2, n + 2, n + k + 2;
    SliceLead(name, r2, r1);
    SliceShift("@message('", r1, s, 0, n, 10, j);
    SliceLead(body, "@endmessage" + u, r3);
    SliceShift("')", r3, r2, 0, k, 2, k2);
    SliceShift(name, r2, r1, 2, k2, n2, nk2);
    SliceShift("@message('", r1, s, n2, nk2, j + 2, e);
  }

  /** `@message('name') body @endmessage` is recognised when the body does not close early. */
  lemma {:induction false} MessageHead(name: string, body: string, u: string)
    requires |name| > 0 && NoQuote(name) && Absent(body, "@endmessage")
    ensures MessageMatch(MessageBlock(name, body) + u) == Some(Span(|MessageBlock(name, body)|, Block(name, body)))
  {
    var s := MessageBlock(name, body) + u;
    var r3 := body + ("@endmessage" + u);
    var r2 := "')" + r3;
    var r1 := name + r2;
    assert MessageLayout(s, r1, r2, r3, name, body, u);
    var j := 10 + |name|;
    var from := j + 2;
    var e := from + |body|;
    var len := |MessageBlock(name, body)|;
    MessageOpenOf(s, r1, r2, r3, name, body, u);
    MessageNameOf(s, r1, r2, r3, name, body, u, j);
    ClosersUnbordered();
    MessageSearch(s, r1, r2, r3, name, body, "@endmessage", u, from, e);
    MessageParts(s, r1, r2, r3, name, body, u, j, e);
    MessageMatchIs(s, j, e, len, name, body);
  }

  /** What `ParenMatch` returns once its two searches are known. */
  lemma {:induction false} ParenMatchIs(s: string, open: string, close: string, c: nat, e: nat, head: string, body: string, len: nat)
    requires |open| > 0 && open[0] == '@' && |close| > 0 && At(s, open, 0)
    requires IndexOf(s, ")", |open|) == Some(c) && IndexOf(s, close, c + 1) == Some(e)
    requires head == s[|open|..c] && body == s[c + 1..e] && len == e + |close|
    ensures ParenMatch(s, open, close) == Some(Span(len, Block(head, body)))
  {
    ParenMatchAt(s, open, close, c, e);
  }

  /** The same, with the block read off by position. */
  lemma ParenMatchAt(s: string, open: string, close: string, c: nat, e: nat)
    requires |open| > 0 && open[0] == '@' && |close| > 0 && At(s, open, 0)
    requires IndexOf(s, ")", |open|) == Some(c) && IndexOf(s, close, c + 1) == Some(e)
    ensures ParenMatch(s, open, close) == Some(Span(e + |close|, Block(s[|open|..c], s[c + 1..e])))
  {
  }

  /**
   * A block of the `@if` shape as written followed by `u`, cut into nested
   * tails: `s = open + r1`, `r1 = head + r2`, `r2 = ")" + r3`, `r3 = body + close + u`.
   */
  predicate ParenLayout(s: string, r1: string, r2: string, r3: string,
                        open: string, head: string, body: string, close: string, u: string) {
    r3 == body + (close + u) && r2 == ")" + r3 && r1 == head + r2 && s == open + r1
  }

  /** The first `)` after the opening closes the head. */
  lemma {:induction false} ParenFirstParen(s: string, r1: string, r2: string, r3: string,
                        open: string, head: string, body: string, close: string, u: string, c: nat)
    requires ParenLayout(s, r1, r2, r3, open, head, body, close, u)
    requires Absent(head, ")") && c == |open| + |head|
    ensures IndexOf(s, ")", |open|) == Some(c)
  {
    LeadUniqueUnbordered(")");
    SearchPast(open, head, ")", r3, r1, s, |open|, c);
  }

  /** The first `close` after the head ends the body. */
  lemma {:induction false} ParenFirstClose(s: string, r1: string, r2: string, r3: string,
                        open: string, head: string, body: string, close: string, u: string, from: nat, e: nat)
    requires ParenLayout(s, r1, r2, r3, open, head, body, close, u)
    requires |close| > 0 && Unbordered(close) && Absent(body, close)
    requires from == |open| + |head| + 1 && e == from + |body|
    ensures IndexOf(s, close, from) == Some(e)
  {
    var h, k := |head|, |body|;
    var k1, h1, hk1 := k + 1, h + 1, h + k + 1;
    SearchPast(")", body, close, u, r3, r2, 1, k1);
    IndexOfShift(head, r2, r1, close, 1, k1, h1, hk1);
    IndexOfShift(open, r1, s, close, h1, hk1, from, e);
  }

  /** The opening, the head and the body of a block as written, read back by position. */
  lemma {:induction false} ParenParts(s: string, r1: string, r2: string, r3: string,
                   open: string, head: string, body: string, close: string, u: string, c: nat, e: nat)
    requires ParenLayout(s, r1, r2, r3, open, head, body, close, u)
    requires c == |open| + |head| && e == c + 1 + |body|
    ensures At(s, open, 0) && s[|open|..c] == head && s[c + 1..e] == body
  {
    var o, h, k := |open|, |head|, |body|;
    var k1, h1, hk1 := k + 1, h + 1, h + k + 1;
    SliceLead(open, r1, s);
    SliceLead(head, r2, r1);
    SliceShift(open, r1, s, 0, h, o, c);
    SliceLead(body, close + u, r3);
    SliceShift(")", r3, r2, 0, k, 1, k1);
    SliceShift(head, r2, r1, 1, k1, h1, hk1);
    SliceShift(open, r1, s, h1, hk1, c + 1, e);
  }

  /** `open head ) body close` is recognised when neither part closes early. */
  lemma {:induction false} ParenHead(open: string, head: string, body: string, close: string, u: string)
    requires |open| > 0 && open[0] == '@' && |close| > 0 && Unbordered(close)
    requires Absent(head, ")") && Absent(body, close)
    ensures ParenMatch(ParenBlock(open, head, body, close) + u, open, close)
         == Some(Span(|ParenBlock(open, head, body, close)|, Block(head, body)))
  {
    var s := ParenBlock(open, head, body, close) + u;
    var r3 := body + (close + u);
    var r2 := ")" + r3;
    var r1 := head + r2;
    assert ParenLayout(s, r1, r2, r3, open, head, body, close, u);
    var c := |open| + |head|;
    var from := c + 1;
    var e := from + |body|;
    var len := |ParenBlock(open, head, body, close)|;
    ParenFirstParen(s, r1, r2, r3, open, head, body, close, u, c);
    ParenFirstClose(s, r1, r2, r3, open, head, body, close, u, from, e);
    ParenParts(s, r1, r2, r3, open, head, body, close, u, c, e);
    ParenMatchIs(s, open, close, c, e, head, body, len);
  }

  /** `@if(cond) body @endif` is recognised when the condition has no `)`. */
  lemma {:induction false} IfHead(cond: string, body: string, u: string)
    requires Absent(cond, ")") && Absent(body, "@endif")
    ensures IfMatch(ParenBlock("@if(", cond, body, "@endif") + u)
         == Some(Span(|ParenBlock("@if(", cond, body, "@endif")|, Block(cond, body)))
  {
    LeadUniqueUnbordered("@endif");
    ParenHead("@if(", cond, body, "@endif", u);
  }

  /** `@switch(value) cases @endswitch` is recognised. */
  lemma {:induction false} SwitchHead(value: string, cases: string, u: string)
    requires Absent(value, ")") && Absent(cases, "@endswitch")
    ensures SwitchMatch(ParenBlock("@switch(", value, cases, "@endswitch") + u)
         == Some(Span(|ParenBlock("@switch(", value, cases, "@endswitch")|, Block(value, cases)))
  {
    LeadUniqueUnbordered("@endswitch");
    ParenHead("@switch(", value, cases, "@endswitch", u);
  }

  /** `@case(value) body @break` is recognised. */
  lemma {:induction false} CaseHead(value: string, body: string, u: string)
    requires Absent(value, ")") && Absent(body, "@break")
    ensures CaseMatch(ParenBlock("@case(", value, body, "@break") + u)
         == Some(Span(|ParenBlock("@case(", value, body, "@break")|, Block(value, body)))
  {
    LeadUniqueUnbordered("@break");
    ParenHead("@case(", value, body, "@break", u);
  }

  /** The body of a recognised switch never holds `@endswitch`, so the default search finds nothing. */
  lemma DefaultNeverFound(s: string)
    requires SwitchMatch(s).Some?
    ensures DefaultSearch(SwitchMatch(s).value.value.body).None?
  {
  }

  /** What `LoopHeader` returns once its scans are known. */
  lemma LoopHeaderIs(s: string, a: nat, b: nat, c: nat, d: nat, e: nat)
    requires At(s, "@foreach", 0) && 8 < a && SkipSpaces(s, 8) == a
    requires a < b && WordEnd(s, a) == b
    requires b < c && SkipSpaces(s, b) == c && At(s, "as", c)
    requires c + 2 < d && SkipSpaces(s, c + 2) == d
    requires d < e && WordEnd(s, d) == e
    ensures LoopHeader(s) == Some((a, b, d, e))
  {
  }

  /**
   * A loop as written followed by `u`, cut into nested tails:
   * `s = "@foreach " + r1`, `r1 = collection + r2`, `r2 = " as " + r3`,
   * `r3 = item + r4`, `r4 = body + "@endforeach" + u`.
   */
  predicate LoopLayout(s: string, r1: string, r2: string, r3: string, r4: string,
                       collection: string, item: string, body: string, u: string) {
    r4 == body + ("@endforeach" + u) && r3 == item + r4 && r2 == " as " + r3 &&
    r1 == collection + r2 && s == "@foreach " + r1
  }

  /** The nested tails spell the loop as written. */
  lemma LoopLayoutOf(collection: string, item: string, body: string, u: string)
    ensures var r4 := body + ("@endforeach" + u);
      var r3 := item + r4;
      var r2 := " as " + r3;
      var r1 := collection + r2;
      LoopLayout(LoopBlock(collection, item, body) + u, r1, r2, r3, r4, collection, item, body, u)
  {
  }

  /** The keyword, the space after it and the collection name. */
  lemma {:induction false} LoopCollectionOf(s: string, r1: string, r2: string, r3: string, r4: string,
                         collection: string, item: string, body: string, u: string, b: nat)
    requires LoopLayout(s, r1, r2, r3, r4, collection, item, body, u)
    requires IsWord(collection) && b == 9 + |collection|
    ensures At(s, "@foreach", 0) && SkipSpaces(s, 8) == 9 && WordEnd(s, 9) == b
  {
    assert "@foreach "[0..8] == "@foreach";
    AtLit("@foreach ", r1, s, "@foreach", 0);
    WordLead(collection, r2, r1);
    SkipSpacesLit("@foreach ", r1, s, 8, 9);
    var n := |collection|;
    assert r2[0] == ' ';
    WordEndOf(collection, r2, r1);
    WordEndShift("@foreach ", r1, s, 0, n, 9, b);
  }

  /** The ` as ` between the two names. */
  lemma {:induction false} LoopAsOf(s: string, r1: string, r2: string, r3: string, r4: string,
                 collection: string, item: string, body: string, u: string, b: nat, c: nat)
    requires LoopLayout(s, r1, r2, r3, r4, collection, item, body, u)
    requires b == 9 + |collection| && c == b + 1
    ensures SkipSpaces(s, b) == c && At(s, "as", c)
  {
    var n := |collection|;
    var n1 := n + 1;
    SkipSpacesLit(" as ", r3, r2, 0, 1);
    SkipSpacesShift(collection, r2, r1, 0, 1, n, n1);
    SkipSpacesShift("@foreach ", r1, s, n, n1, b, c);
    assert " as "[1..3] == "as";
    AtLit(" as ", r3, r2, "as", 1);
    AtAfter(collection, r2, r1, "as", 1, n1);
    AtAfter("@foreach ", r1, s, "as", n1, c);
  }

  /** The space after ` as ` and the item name. */
  lemma {:induction false} LoopItemOf(s: string, r1: string, r2: string, r3: string, r4: string,
                   collection: string, item: string, body: string, u: string, c: nat, d: nat, e: nat)
    requires LoopLayout(s, r1, r2, r3, r4, collection, item, body, u)
    requires IsWord(item) && (body == [] || !IsWordChar(body[0]))
    requires c == 10 + |collection| && d == c + 3 && e == d + |item|
    ensures SkipSpaces(s, c + 2) == d && WordEnd(s, d) == e
  {
    var n := |collection|;
    var c2, n3, n4 := c + 2, n + 3, n + 4;
    var m := |item|;
    var m4, nm4 := m + 4, n + m + 4;
    WordLead(item, r4, r3);
    SkipSpacesLit(" as ", r3, r2, 3, 4);
    SkipSpacesShift(collection, r2, r1, 3, 4, n3, n4);
    SkipSpacesShift("@foreach ", r1, s, n3, n4, c2, d);
    LoopBodyLead(body, u, r4);
    WordEndOf(item, r4, r3);
    WordEndShift(" as ", r3, r2, 0, m, 4, m4);
    WordEndShift(collection, r2, r1, 4, m4, n4, nm4);
    WordEndShift("@foreach ", r1, s, n4, nm4, d, e);
  }

  /** A loop body that starts with a word character would lengthen the item name. */
  lemma {:induction false} LoopBodyLead(body: string, u: string, r4: string)
    requires r4 == body + ("@endforeach" + u) && (body == [] || !IsWordChar(body[0]))
    ensures r4 != [] && !IsWordChar(r4[0])
  {
    if body == [] {
      assert r4[0] == '@';
    } else {
      assert r4[0] == body[0];
    }
  }

  /**
   * The search for the closing keyword `p` stops at the end of the body of a
   * loop as written, when the body does not hold `p`.
   */
  lemma {:induction false} LoopSearch(s: string, r1: string, r2: string, r3: string, r4: string,
                   collection: string, item: string, body: string, p: string, u: string, e: nat, f: nat)
    requires |p| > 0 && Unbordered(p) && Absent(body, p)
    requires r4 == body + (p + u) && r3 == item + r4 && r2 == " as " + r3 && r1 == collection + r2 && s == "@foreach " + r1
    requires e == 13 + |collection| + |item| && f == e + |body|
    ensures IndexOf(s, p, e) == Some(f)
  {
    var m, k := |item|, |body|;
    var m4, mk4 := m + 4, m + k + 4;
    var n := |collection|;
    var nm4, nmk4 := n + m4, n + mk4;
    SearchPast(item, body, p, u, r4, r3, m, m + k);
    IndexOfShift(" as ", r3, r2, p, m, m + k, m4, mk4);
    IndexOfShift(collection, r2, r1, p, m4, mk4, nm4, nmk4);
    IndexOfShift("@foreach ", r1, s, p, nm4, nmk4, e, f);
  }

  /** The three captures of a loop as written, read back by position. */
  lemma {:induction false} LoopParts(s: string, r1: string, r2: string, r3: string, r4: string,
                  collection: string, item: string, body: string, u: string, b: nat, d: nat, e: nat, f: nat)
    requires LoopLayout(s, r1, r2, r3, r4, collection, item, body, u)
    requires b == 9 + |collection| && d == b + 4 && e == d + |item| && f == e + |body|
    ensures s[9..b] == collection && s[d..e] == item && s[e..f] == body
  {
    var n, m, k := |collection|, |item|, |body|;
    var n4, m4, nm4, mk, mk4, nmk4 := n + 4, m + 4, n + m + 4, m + k, m + k + 4, n + m + k + 4;
    SliceLead(collection, r2, r1);
    SliceShift("@foreach ", r1, s, 0, n, 9, b);
    SliceLead(item, r4, r3);
    SliceShift(" as ", r3, r2, 0, m, 4, m4);
    SliceShift(collection, r2, r1, 4, m4, n4, nm4);
    SliceShift("@foreach ", r1, s, n4, nm4, d, e);
    SliceLead(body, "@endforeach" + u, r4);
    SliceShift(item, r4, r3, 0, k, m, mk);
    SliceShift(" as ", r3, r2, m, mk, m4, mk4);
    SliceShift(collection, r2, r1, m4, mk4, nm4, nmk4);
    SliceShift("@foreach ", r1, s, nm4, nmk4, e, f);
  }

  /** What `LoopMatch` returns once the header and the search are known. */
  lemma LoopMatchIs(s: string, a: nat, b: nat, d: nat, e: nat, f: nat, len: nat,
                    collection: string, item: string, body: string)
    requires LoopHeader(s) == Some((a, b, d, e)) && IndexOf(s, "@endforeach", e) == Some(f)
    requires collection == s[a..b] && item == s[d..e] && body == s[e..f] && len == f + 11
    ensures LoopMatch(s) == Some(Span(len, Loop(collection, item, body)))
  {
  }

  /** `@foreach collection as item body @endforeach` is recognised. */
  lemma {:induction false} LoopHead(collection: string, item: string, body: string, u: string)
    requires IsWord(collection) && IsWord(item)
    requires body == [] || !IsWordChar(body[0])
    requires Absent(body, "@endforeach")
    ensures LoopMatch(LoopBlock(collection, item, body) + u)
         == Some(Span(|LoopBlock(collection, item, body)|, Loop(collection, item, body)))
  {
    var s := LoopBlock(collection, item, body) + u;
    var r4 := body + ("@endforeach" + u);
    var r3 := item + r4;
    var r2 := " as " + r3;
    var r1 := collection + r2;
    LoopLayoutOf(collection, item, body, u);
    var b := 9 + |collection|;
    var c, d := b + 1, b + 4;
    var e := d + |item|;
    var f := e + |body|;
    var len := |LoopBlock(collection, item, body)|;
    LoopCollectionOf(s, r1, r2, r3, r4, collection, item, body, u, b);
    LoopAsOf(s, r1, r2, r3, r4, collection, item, body, u, b, c);
    LoopItemOf(s, r1, r2, r3, r4, collection, item, body, u, c, d, e);
    LoopHeaderIs(s, 9, b, c, d, e);
    ClosersUnbordered();
    LoopSearch(s, r1, r2, r3, r4, collection, item, body, "@endforeach", u, e, f);
    LoopParts(s, r1, r2, r3, r4, collection, item, body, u, b, d, e, f);
    LoopMatchIs(s, 9, b, d, e, f, len, collection, item, body);
  }

  /** `@component('name')` is recognised, without parameter text. */
  lemma {:induction false} ComponentHead(name: string, u: string)
    requires IsWord(name)
    ensures ComponentMatch(ComponentCall(name) + u) == Some(Span(|ComponentCall(name)|, Call(name, None)))
  {
    var s := ComponentCall(name) + u;
    var b := 12 + |name|;
    assert s[..11] == "@component(" && s[11] == '\'' && s[b] == '\'' && s[b + 1] == ')';
    assert forall k :: 12 <= k < b ==> s[k] == name[k - 12];
    assert At(s, "@component(", 0);
    SkipSpacesAt(s, 11, 11);
    WordEndAt(s, 12, b);
    SkipSpacesAt(s, b + 1, b + 1);
    assert s[12..b] == name;
  }

  /** `)` does not occur in `u` before its first line feed. */
  predicate NoParenOnLine(u: string) {
    forall k :: 0 <= k < LineEnd(u, 0) ==> u[k] != ')'
  }

  /** What `ComponentMatch` returns on a call with parameter text, once its scans are known. */
  lemma {:induction false} ComponentWithIs(s: string, b: nat, q: nat, e: nat, len: nat, name: string, params: string)
    requires At(s, "@component(", 0) && SkipSpaces(s, 11) == 11 && 11 < |s| && IsQuote(s[11])
    requires WordEnd(s, 12) == b && b > 12 && b + 1 < |s| && IsQuote(s[b])
    requires SkipSpaces(s, b + 1) == b + 1 && s[b + 1] == ','
    requires b + 2 <= |s| && SkipSpaces(s, b + 2) == q
    requires LastParen(s, q, LineEnd(s, q)) == Some(e)
    requires name == s[12..b] && params == s[q..e] && len == e + 1
    ensures ComponentMatch(s) == Some(Span(len, Call(name, Some(params))))
  {
    QuotedWordEndIs(s, 11, b);
    var p := SkipSpaces(s, b + 1);
    assert p < |s| && s[p] == ',';
    assert SkipSpaces(s, p + 1) == q;
  }

  /**
   * A call with parameter text as written followed by `u`, cut into nested
   * tails: `s = "@component('" + r1`, `r1 = name + r2`, `r2 = "', " + r3`,
   * `r3 = params + r4`, `r4 = ")" + u`.
   */
  predicate ComponentLayout(s: string, r1: string, r2: string, r3: string, r4: string,
                            name: string, params: string, u: string) {
    r4 == ")" + u && r3 == params + r4 && r2 == "', " + r3 && r1 == name + r2 && s == "@component('" + r1
  }

  /** The keyword and the opening quote. */
  lemma {:induction false} ComponentOpenOf(s: string, r1: string, r2: string, r3: string, r4: string,
                        name: string, params: string, u: string)
    requires ComponentLayout(s, r1, r2, r3, r4, name, params, u)
    ensures At(s, "@component(", 0) && SkipSpaces(s, 11) == 11 && 11 < |s| && IsQuote(s[11])
  {
    assert "@component('"[0..11] == "@component(";
    AtLit("@component('", r1, s, "@component(", 0);
    SkipSpacesLit("@component('", r1, s, 11, 11);
  }

  /** The name, the quote and comma after it, and the white space before the parameter text. */
  lemma {:induction false} ComponentNameOf(s: string, r1: string, r2: string, r3: string, r4: string,
                        name: string, params: string, u: string, b: nat, q: nat)
    requires ComponentLayout(s, r1, r2, r3, r4, name, params, u)
    requires IsWord(name) && (params == [] || !IsSpace(params[0]))
    requires b == 12 + |name| && q == b + 3
    ensures WordEnd(s, 12) == b && b + 1 < |s| && IsQuote(s[b]) && s[b + 1] == ','
    ensures SkipSpaces(s, b + 1) == b + 1 && SkipSpaces(s, b + 2) == q
  {
    var n := |name|;
    var n1, n2, n3, b1, b2 := n + 1, n + 2, n + 3, b + 1, b + 2;
    assert r2[0] == '\'';
    WordEndOf(name, r2, r1);
    WordEndShift("@component('", r1, s, 0, n, 12, b);
    SliceLead("', ", r3, r2);
    SliceShift(name, r2, r1, 0, 3, n, n3);
    SliceShift("@component('", r1, s, n, n3, b, q);
    assert s[b] == s[b..q][0] && s[b + 1] == s[b..q][1];
    SkipSpacesLit("', ", r3, r2, 1, 1);
    SkipSpacesShift(name, r2, r1, 1, 1, n1, n1);
    SkipSpacesShift("@component('", r1, s, n1, n1, b1, b1);
    assert r3[0] == if params == [] then ')' else params[0];
    SkipSpacesLit("', ", r3, r2, 2, 3);
    SkipSpacesShift(name, r2, r1, 2, 3, n2, n3);
    SkipSpacesShift("@component('", r1, s, n2, n3, b2, q);
  }

  /** `LineEnd` stops exactly at the first line feed, or at the end. */
  lemma LineEndAt(s: string, from: nat, r: nat)
    requires from <= r <= |s| && forall k :: from <= k < r ==> s[k] != '\n'
    requires r == |s| || s[r] == '\n'
    ensures LineEnd(s, from) == r
  {
  }

  /** The end of the line after a prefix is the end of the same line in the suffix, shifted. */
  lemma {:induction false} LineEndShift(x: string, t: string, s: string, j: nat, r: nat, from: nat, at: nat)
    requires s == x + t && j <= |t| && LineEnd(t, j) == r && from == |x| + j && at == |x| + r
    ensures LineEnd(s, from) == at
  {
    assert forall k :: from <= k < at ==> s[k] == t[k - |x|];
    assert at < |s| ==> s[at] == t[r];
    LineEndAt(s, from, at);
  }

  /** The last `)` of a range after a prefix is the last one of the same range in the suffix, shifted. */
  lemma {:induction false} LastParenShift(x: string, t: string, s: string, lo: nat, hi: nat, r: nat,
                       lo2: nat, hi2: nat, at: nat)
    requires s == x + t && lo <= hi <= |t| && LastParen(t, lo, hi) == Some(r)
    requires lo2 == |x| + lo && hi2 == |x| + hi && at == |x| + r
    ensures LastParen(s, lo2, hi2) == Some(at)
  {
    assert forall k :: at <= k < hi2 ==> s[k] == t[k - |x|];
    LastParenAt(s, lo2, at, hi2);
  }

  /**
   * In the parameter text followed by `)` and the rest of the line, the line
   * ends after the rest of the line and its last `)` is the closing one.
   */
  lemma {:induction false} ComponentLineIn(r3: string, r4: string, params: string, u: string, line: nat, e: nat)
    requires r4 == ")" + u && r3 == params + r4
    requires forall k :: 0 <= k < |params| ==> params[k] != '\n'
    requires NoParenOnLine(u) && e == |params| && line == e + 1 + LineEnd(u, 0)
    ensures LineEnd(r3, 0) == line && LastParen(r3, 0, line) == Some(e)
  {
    var lu := LineEnd(u, 0);
    assert forall k :: e < k < |r3| ==> r3[k] == u[k - e - 1];
    assert forall k :: 0 <= k < e ==> r3[k] == params[k];
    assert r3[e] == ')';
    LineEndAt(r3, 0, line);
    LastParenAt(r3, 0, e, line);
  }

  /** The last `)` of the line is the one that closes a call as written. */
  lemma {:induction false} ComponentWithParen(s: string, r1: string, r2: string, r3: string, r4: string,
                           name: string, params: string, u: string, q: nat, e: nat)
    requires ComponentLayout(s, r1, r2, r3, r4, name, params, u)
    requires forall k :: 0 <= k < |params| ==> params[k] != '\n'
    requires NoParenOnLine(u) && q == 15 + |name| && e == q + |params|
    ensures q <= |s| && LastParen(s, q, LineEnd(s, q)) == Some(e)
  {
    var n, p := |name|, |params|;
    var l3 := p + 1 + LineEnd(u, 0);
    ComponentLineIn(r3, r4, params, u, l3, p);
    var l2, p3 := l3 + 3, p + 3;
    LineEndShift("', ", r3, r2, 0, l3, 3, l2);
    LastParenShift("', ", r3, r2, 0, l3, p, 3, l2, p3);
    var n3, l1, p1 := n + 3, n + l2, n + p3;
    LineEndShift(name, r2, r1, 3, l2, n3, l1);
    LastParenShift(name, r2, r1, 3, l2, p3, n3, l1, p1);
    var line := 12 + l1;
    LineEndShift("@component('", r1, s, n3, l1, q, line);
    LastParenShift("@component('", r1, s, n3, l1, p1, q, line, e);
  }

  /** The name and the parameter text of a call as written, read back by position. */
  lemma {:induction false} ComponentParts(s: string, r1: string, r2: string, r3: string, r4: string,
                       name: string, params: string, u: string, b: nat, q: nat, e: nat)
    requires ComponentLayout(s, r1, r2, r3, r4, name, params, u)
    requires b == 12 + |name| && q == b + 3 && e == q + |params|
    ensures s[12..b] == name && s[q..e] == params
  {
    var n, p := |name|, |params|;
    var p3, n3, np3 := p + 3, n + 3, n + p + 3;
    SliceLead(name, r2, r1);
    SliceShift("@component('", r1, s, 0, n, 12, b);
    SliceLead(params, r4, r3);
    SliceShift("', ", r3, r2, 0, p, 3, p3);
    SliceShift(name, r2, r1, 3, p3, n3, np3);
    SliceShift("@component('", r1, s, n3, np3, q, e);
  }

  /**
   * `@component('name', params)` is recognised with `params` as its parameter
   * text, provided the rest of the line holds no further `)`.
   */
  lemma {:induction false} ComponentWithHead(name: string, params: string, u: string)
    requires IsWord(name)
    requires params == [] || !IsSpace(params[0])
    requires forall k :: 0 <= k < |params| ==> params[k] != '\n'
    requires NoParenOnLine(u)
    ensures ComponentMatch(ComponentCallWith(name, params) + u)
         == Some(Span(|ComponentCallWith(name, params)|, Call(name, Some(params))))
  {
    var s := ComponentCallWith(name, params) + u;
    var r4 := ")" + u;
    var r3 := params + r4;
    var r2 := "', " + r3;
    var r1 := name + r2;
    assert ComponentLayout(s, r1, r2, r3, r4, name, params, u);
    var b := 12 + |name|;
    var q := b + 3;
    var e := q + |params|;
    var len := |ComponentCallWith(name, params)|;
    ComponentOpenOf(s, r1, r2, r3, r4, name, params, u);
    ComponentNameOf(s, r1, r2, r3, r4, name, params, u, b, q);
    ComponentWithParen(s, r1, r2, r3, r4, name, params, u, q, e);
    ComponentParts(s, r1, r2, r3, r4, name, params, u, b, q, e);
    ComponentWithIs(s, b, q, e, len, name, params);
  }

  /** A raw parameter value the matcher takes whole: a bracketed list or a quoted text. */
  predicate RawValue(v: string) {
    |v| >= 2 &&
    ((v[0] == '[' && v[|v| - 1] == ']' && forall k :: 1 <= k < |v| - 1 ==> v[k] != ']') ||
     (IsQuote(v[0]) && IsQuote(v[|v| - 1]) && forall k :: 1 <= k < |v| - 1 ==> !IsQuote(v[k])))
  }

  /** `'key': value`, one parameter as a template writes it. */
  function ParamText(key: string, value: string): string {
    "'" + key + "': " + value
  }

  /** The scans of `ParamMatch` find the key between `a` and `b` and the value from `v` to `w`. */
  predicate Scanned(s: string, a: nat, b: nat, v: nat, w: nat, key: string, value: string) {
    SkipSpaces(s, 0) == a && QuotedWordEnd(s, a) == Some(b) && ParamValueAfter(s, b) == Some((v, w)) &&
    key == s[a + 1..b] && value == s[v..w + 1]
  }

  /** What `ParamMatch` returns once its two scans are known. */
  lemma ParamMatchOf(s: string, a: nat, b: nat, v: nat, w: nat, key: string, value: string)
    requires Scanned(s, a, b, v, w, key, value)
    ensures ParamMatch(s) == Some(Span(w + 1, Param(key, value)))
  {
  }

  /** The key scan, once its pieces are known. */
  lemma QuotedWordEndIs(s: string, a: nat, b: nat)
    requires a < |s| && IsQuote(s[a])
    requires WordEnd(s, a + 1) == b && a + 1 < b < |s| && IsQuote(s[b])
    ensures QuotedWordEnd(s, a) == Some(b)
  {
  }

  /** The colon and value scan, once its pieces are known. */
  lemma ParamValueAfterIs(s: string, b: nat, v: nat, w: nat)
    requires b + 1 < |s| && SkipSpaces(s, b + 1) == b + 1 && s[b + 1] == ':'
    requires SkipSpaces(s, b + 2) == v && v < |s| && ValueEnd(s, v) == Some(w)
    ensures ParamValueAfter(s, b) == Some((v, w))
  {
  }

  /**
   * A parameter as written followed by `u`, cut into nested tails:
   * `s = sp + r1`, `r1 = "'" + r2`, `r2 = key + r3`, `r3 = "': " + r4`, `r4 = value + u`.
   */
  predicate ParamLayout(s: string, r1: string, r2: string, r3: string, r4: string,
                        sp: string, key: string, value: string, u: string) {
    r4 == value + u && r3 == "': " + r4 && r2 == key + r3 && r1 == "'" + r2 && s == sp + r1
  }

  /** The leading white space, the quotes around the key and the key itself. */
  lemma {:induction false} ParamKeyOf(s: string, r1: string, r2: string, r3: string, r4: string,
                   sp: string, key: string, value: string, u: string, a: nat, b: nat)
    requires ParamLayout(s, r1, r2, r3, r4, sp, key, value, u)
    requires (forall k :: 0 <= k < |sp| ==> IsSpace(sp[k])) && IsWord(key)
    requires a == |sp| && b == a + 1 + |key|
    ensures SkipSpaces(s, 0) == a && a < |s| && IsQuote(s[a])
    ensures WordEnd(s, a + 1) == b && b + 1 < |s| && IsQuote(s[b]) && s[b + 1] == ':'
  {
    var m := |key|;
    var m1, m3, m4, a1, b3 := m + 1, m + 3, m + 4, a + 1, b + 3;
    assert r1[0] == '\'';
    SkipSpacesLit(sp, r1, s, 0, a);
    SliceShift(sp, r1, s, 0, 1, a, a1);
    assert s[a] == s[a..a1][0];
    assert r3[0] == '\'';
    WordEndOf(key, r3, r2);
    WordEndShift("'", r2, r1, 0, m, 1, m1);
    WordEndShift(sp, r1, s, 1, m1, a1, b);
    SliceLead("': ", r4, r3);
    SliceShift(key, r3, r2, 0, 3, m, m3);
    SliceShift("'", r2, r1, m, m3, m1, m4);
    SliceShift(sp, r1, s, m1, m4, b, b3);
    assert s[b] == s[b..b3][0] && s[b + 1] == s[b..b3][1];
  }

  /** The white space around the colon. */
  lemma {:induction false} ParamColonOf(s: string, r1: string, r2: string, r3: string, r4: string,
                     sp: string, key: string, value: string, u: string, b: nat, v: nat)
    requires ParamLayout(s, r1, r2, r3, r4, sp, key, value, u)
    requires RawValue(value) && b == |sp| + 1 + |key| && v == b + 3
    ensures SkipSpaces(s, b + 1) == b + 1 && SkipSpaces(s, b + 2) == v
  {
    var m := |key|;
    var m1, m2, m3, m4, m5 := m + 1, m + 2, m + 3, m + 4, m + 5;
    var b1, b2 := b + 1, b + 2;
    SkipSpacesLit("': ", r4, r3, 1, 1);
    SkipSpacesShift(key, r3, r2, 1, 1, m1, m1);
    SkipSpacesShift("'", r2, r1, m1, m1, m2, m2);
    SkipSpacesShift(sp, r1, s, m2, m2, b1, b1);
    assert r4[0] == value[0];
    SkipSpacesLit("': ", r4, r3, 2, 3);
    SkipSpacesShift(key, r3, r2, 2, 3, m2, m3);
    SkipSpacesShift("'", r2, r1, m2, m3, m3, m4);
    SkipSpacesShift(sp, r1, s, m3, m4, b2, v);
  }

  /** The value of a parameter as written, read back by position. */
  lemma {:induction false} ParamValueOf(s: string, r1: string, r2: string, r3: string, r4: string,
                     sp: string, key: string, value: string, u: string, a: nat, b: nat, v: nat, w1: nat)
    requires ParamLayout(s, r1, r2, r3, r4, sp, key, value, u)
    requires a == |sp| && b == a + 1 + |key| && v == b + 3 && w1 == v + |value|
    ensures s[a + 1..b] == key && s[v..w1] == value
  {
    var m, x := |key|, |value|;
    var m1, m3, m4, x3, mx3, mx4 := m + 1, m + 3, m + 4, x + 3, m + x + 3, m + x + 4;
    SliceLead(key, r3, r2);
    SliceShift("'", r2, r1, 0, m, 1, m1);
    SliceShift(sp, r1, s, 1, m1, a + 1, b);
    SliceLead(value, u, r4);
    SliceShift("': ", r4, r3, 0, x, 3, x3);
    SliceShift(key, r3, r2, 3, x3, m3, mx3);
    SliceShift("'", r2, r1, m3, mx3, m4, mx4);
    SliceShift(sp, r1, s, m4, mx4, v, w1);
  }

  /** In a bracketed value followed by anything, the first `]` after the `[` is the last character. */
  lemma {:induction false} BracketEndIn(value: string, u: string, r4: string, w: nat)
    requires r4 == value + u && RawValue(value) && value[0] == '[' && w == |value| - 1
    ensures IndexOf(r4, "]", 1) == Some(w)
  {
    assert r4[w..w + 1] == "]";
    forall k | 1 <= k < w
      ensures !At(r4, "]", k)
    {
      assert r4[k..k + 1] == [value[k]];
    }
    FirstFrom(r4, "]", 1, w);
  }

  /** In a quoted value followed by anything, the next quote after the opening one is the last character. */
  lemma {:induction false} QuoteEndIn(value: string, u: string, r4: string, w: nat)
    requires r4 == value + u && RawValue(value) && value[0] != '[' && w == |value| - 1
    ensures NextQuote(r4, 1) == Some(w)
  {
    assert forall k :: 0 <= k <= w ==> r4[k] == value[k];
    NextQuoteAt(r4, 1, w);
  }

  /** The search that ends a bracketed value, carried out to the whole text. */
  lemma {:induction false} ParamBracketSearch(s: string, r1: string, r2: string, r3: string, r4: string,
                           sp: string, key: string, value: string, u: string, v: nat, w: nat)
    requires ParamLayout(s, r1, r2, r3, r4, sp, key, value, u)
    requires RawValue(value) && value[0] == '['
    requires v == |sp| + |key| + 4 && w == v + |value| - 1
    ensures IndexOf(s, "]", v + 1) == Some(w)
  {
    ParamBracketQuoted(r1, r2, r3, r4, key, value, u);
    IndexOfShift(sp, r1, s, "]", |key| + 5, |key| + |value| + 3, v + 1, w);
  }

  /** The closing bracket of the value, searched for from the quote that opens the key. */
  lemma {:induction false} ParamBracketQuoted(r1: string, r2: string, r3: string, r4: string, key: string, value: string, u: string)
    requires r4 == value + u && r3 == "': " + r4 && r2 == key + r3 && r1 == "'" + r2
    requires RawValue(value) && value[0] == '['
    ensures IndexOf(r1, "]", |key| + 5) == Some(|key| + |value| + 3)
  {
    ParamBracketInner(r2, r3, r4, key, value, u);
    IndexOfShift("'", r2, r1, "]", |key| + 4, |key| + |value| + 2, |key| + 5, |key| + |value| + 3);
  }

  /** The same search, read after the key. */
  lemma {:induction false} ParamBracketInner(r2: string, r3: string, r4: string, key: string, value: string, u: string)
    requires r4 == value + u && r3 == "': " + r4 && r2 == key + r3
    requires RawValue(value) && value[0] == '['
    ensures IndexOf(r2, "]", |key| + 4) == Some(|key| + |value| + 2)
  {
    var x1 := |value| - 1;
    BracketEndIn(value, u, r4, x1);
    IndexOfShift("': ", r4, r3, "]", 1, x1, 4, x1 + 3);
    IndexOfShift(key, r3, r2, "]", 4, x1 + 3, |key| + 4, |key| + x1 + 3);
  }

  /** The search that ends a quoted value, carried out to the whole text. */
  lemma {:induction false} ParamQuoteSearch(s: string, r1: string, r2: string, r3: string, r4: string,
                         sp: string, key: string, value: string, u: string, v: nat, w: nat)
    requires ParamLayout(s, r1, r2, r3, r4, sp, key, value, u)
    requires RawValue(value) && value[0] != '['
    requires v == |sp| + |key| + 4 && w == v + |value| - 1
    ensures NextQuote(s, v + 1) == Some(w)
  {
    var m, x := |key|, |value|;
    var mx2 := m + x + 2;
    ParamQuoteInner(r2, r3, r4, key, value, u);
    NextQuoteShift("'", r2, r1, m + 4, mx2, m + 5, mx2 + 1);
    NextQuoteShift(sp, r1, s, m + 5, mx2 + 1, v + 1, w);
  }

  /** The same search, read after the key. */
  lemma {:induction false} ParamQuoteInner(r2: string, r3: string, r4: string, key: string, value: string, u: string)
    requires r4 == value + u && r3 == "': " + r4 && r2 == key + r3
    requires RawValue(value) && value[0] != '['
    ensures NextQuote(r2, |key| + 4) == Some(|key| + |value| + 2)
  {
    var x1 := |value| - 1;
    QuoteEndIn(value, u, r4, x1);
    NextQuoteShift("': ", r4, r3, 1, x1, 4, x1 + 3);
    NextQuoteShift(key, r3, r2, 4, x1 + 3, |key| + 4, |key| + x1 + 3);
  }

  /** The value of a parameter as written ends at its last character. */
  lemma {:induction false} ParamValueEnd(s: string, r1: string, r2: string, r3: string, r4: string,
                      sp: string, key: string, value: string, u: string, v: nat, w: nat)
    requires ParamLayout(s, r1, r2, r3, r4, sp, key, value, u)
    requires RawValue(value) && v == |sp| + |key| + 4 && w == v + |value| - 1
    requires s[v..w + 1] == value
    ensures v < |s| && ValueEnd(s, v) == Some(w)
  {
    assert s[v] == value[0];
    if value[0] == '[' {
      ParamBracketSearch(s, r1, r2, r3, r4, sp, key, value, u, v, w);
    } else {
      ParamQuoteSearch(s, r1, r2, r3, r4, sp, key, value, u, v, w);
    }
  }

  /** Leading white space, then `'key': value`, is one parameter match. */
  lemma {:induction false} ParamHead(sp: string, key: string, value: string, u: string)
    requires forall k :: 0 <= k < |sp| ==> IsSpace(sp[k])
    requires IsWord(key) && RawValue(value)
    ensures ParamMatch(sp + ParamText(key, value) + u)
         == Some(Span(|sp| + |ParamText(key, value)|, Param(key, value)))
  {
    ParamScans(sp + ParamText(key, value) + u, sp, key, value, u,
               |sp|, |sp| + 1 + |key|, |sp| + |key| + 4, |sp| + |key| + |value| + 3);
  }

  /** The text of a parameter between two others, regrouped from the right. */
  lemma {:induction false} ParamTextLaid(sp: string, key: string, value: string, u: string)
    ensures sp + ParamText(key, value) + u == sp + ("'" + (key + ("': " + (value + u))))
    ensures |ParamText(key, value)| == |key| + |value| + 4
  {
    var t := ParamText(key, value);
    assert t + u == "'" + (key + ("': " + (value + u))) by {
      assert t == "'" + (key + ("': " + value));
    }
  }

  /**
   * The scans `ParamMatch` makes over a parameter as written, each with its
   * result: the key between `a` and `b`, the value from `v` to `w`; so the
   * match is the parameter and its length.
   */
  lemma {:induction false} ParamScans(s: string, sp: string, key: string, value: string, u: string, a: nat, b: nat, v: nat, w: nat)
    requires s == sp + ParamText(key, value) + u
    requires forall k :: 0 <= k < |sp| ==> IsSpace(sp[k])
    requires IsWord(key) && RawValue(value)
    requires a == |sp| && b == a + 1 + |key| && v == b + 3 && w == v + |value| - 1
    ensures ParamMatch(s) == Some(Span(|sp| + |ParamText(key, value)|, Param(key, value)))
  {
    ParamScanned(s, sp, key, value, u, a, b, v, w);
    ParamMatchOf(s, a, b, v, w, key, value);
  }

  /** The two scans of a laid-out parameter, and where the value ends. */
  lemma {:induction false} ParamScanned(s: string, sp: string, key: string, value: string, u: string, a: nat, b: nat, v: nat, w: nat)
    requires s == sp + ParamText(key, value) + u
    requires forall k :: 0 <= k < |sp| ==> IsSpace(sp[k])
    requires IsWord(key) && RawValue(value)
    requires a == |sp| && b == a + 1 + |key| && v == b + 3 && w == v + |value| - 1
    ensures Scanned(s, a, b, v, w, key, value) && w + 1 == |sp| + |ParamText(key, value)|
  {
    ParamTextLaid(sp, key, value, u);
    ParamLaid(s, sp, key, value, u, a, b, v, w);
  }

  /** The same, with the text taken apart at its pieces. */
  lemma {:induction false} ParamLaid(s: string, sp: string, key: string, value: string, u: string, a: nat, b: nat, v: nat, w: nat)
    requires s == sp + ("'" + (key + ("': " + (value + u))))
    requires forall k :: 0 <= k < |sp| ==> IsSpace(sp[k])
    requires IsWord(key) && RawValue(value)
    requires a == |sp| && b == a + 1 + |key| && v == b + 3 && w == v + |value| - 1
    ensures Scanned(s, a, b, v, w, key, value)
  {
    var r4 := value + u;
    var r3 := "': " + r4;
    var r2 := key + r3;
    var r1 := "'" + r2;
    assert ParamLayout(s, r1, r2, r3, r4, sp, key, value, u);
    ParamKeyOf(s, r1, r2, r3, r4, sp, key, value, u, a, b);
    QuotedWordEndIs(s, a, b);
    assert ParamValueAfter(s, b) == Some((v, w)) by {
      ParamColonOf(s, r1, r2, r3, r4, sp, key, value, u, b, v);
      ParamValueOf(s, r1, r2, r3, r4, sp, key, value, u, a, b, v, w + 1);
      ParamValueEnd(s, r1, r2, r3, r4, sp, key, value, u, v, w);
      ParamValueAfterIs(s, b, v, w);
    }
    ParamValueOf(s, r1, r2, r3, r4, sp, key, value, u, a, b, v, w + 1);
  }

  /** `NextQuote` returns the first quote from its start. */
  lemma {:induction false} NextQuoteAt(s: string, from: nat, j: nat)
    requires from <= j < |s| && IsQuote(s[j])
    requires forall k :: from <= k < j ==> !IsQuote(s[k])
    ensures NextQuote(s, from) == Some(j)
    decreases j - from
  {
    if from < j {
      NextQuoteAt(s, from + 1, j);
    }
  }
}

=== FILE: validator.dfy ===
/**
 * The rule engine that checks request input: each field has a `|`-separated
 * list of rules, a failing rule adds a message to the field's errors, and a
 * non-empty error set is kept in the session for the next page, where the
 * `@errors` directive reads it back.
 */
module Validator {
  import opened Wrappers
  import opened Strings
  import opened Context

  /** Error messages by field, in the order they were added. */
  type Errors = map<string, seq<string>>

  /** What `$_FILES[field]` says about an upload: no upload error, its extension and its size in bytes. */
  datatype Upload = Upload(ok: bool, ext: string, size: int)

  /**
   * `filter_var` with the e-mail and the integer filters, which the model
   * takes as given.  `email` is whether the e-mail filter accepts the value
   * (an accepted address is never `""` or `"0"`, so acceptance is the truth
   * of its result); `integer` is the integer the integer filter returns, or
   * nothing when it rejects the value.
   */
  datatype Filters = Filters(email: Value -> bool, integer: Value -> Option<int>)

  /** What one validation run sees besides the input. */
  datatype Inputs = Inputs(data: Data, messages: map<string, string>, uploads: map<string, Upload>, filters: Filters)

  /** The truth of what the integer filter returns: `false` and the int 0 are both false. */
  predicate IntTruthy(n: Option<int>) {
    n.Some? && n.value != 0
  }

  /**
   * `name:parameter` split at its first colon; a rule without a colon has no
   * parameter.
   */
  function ParseRule(rule: string): (r: (string, Option<string>))
    ensures r.1.None? ==> r.0 == rule && forall k :: 0 <= k < |rule| ==> rule[k] != ':'
    ensures r.1.Some? ==> rule == r.0 + ":" + r.1.value
    ensures forall k :: 0 <= k < |r.0| ==> r.0[k] != ':'
  {
    match IndexOf(rule, ":", 0)
    case None =>
      assert forall k :: 0 <= k < |rule| ==> rule[k] != ':' by {
        forall k | 0 <= k < |rule| ensures rule[k] != ':' {
          assert !At(rule, ":", k) && rule[k..k + 1] == [rule[k]];
        }
      }
      (rule, None)
    case Some(i) =>
      assert rule[i..i + 1] == ":";
      assert forall k :: 0 <= k < i ==> rule[k] != ':' by {
        forall k | 0 <= k < i ensures rule[k] != ':' {
          assert !At(rule, ":", k) && rule[k..k + 1] == [rule[k]];
        }
      }
      assert rule == rule[..i] + ":" + rule[i + 1..];
      (rule[..i], Some(rule[i + 1..]))
  }

  /** Writing a rule name and parameter and parsing them back gives them again. */
  lemma {:induction false} ParseRuleRoundTrip(name: string, param: string)
    requires forall k :: 0 <= k < |name| ==> name[k] != ':'
    ensures ParseRule(name + ":" + param) == (name, Some(param))
  {
    var rule := name + ":" + param;
    var n := |name|;
    assert rule[n..n + 1] == ":";
    forall k | 0 <= k < n
      ensures !At(rule, ":", k)
    {
      assert rule[k..k + 1] == [name[k]];
    }
    FirstFrom(rule, ":", 0, n);
    assert rule[..n] == name && rule[n + 1..] == param;
  }

  /** `strlen` of a value; an array raises a type error. */
  function Strlen(v: Value): (r: Result<int>)
    ensures r.Ok? ==> r.value >= 0
    ensures v.Str? ==> r == Ok(|v.text|)
    ensures v.Null? ==> r == Ok(0)
    ensures r.Err? <==> v.Arr?
  {
    match v
    case Null => Ok(0)
    case Str(t) => Ok(|t|)
    case Arr(_) => Err("strlen(): Argument #1 ($string) must be of type string, array given")
  }

  /** The default message of a failing rule: `The field <field> <what>.`. */
  function Default(field: string, what: string): string {
    "The field " + field + " " + what + "."
  }

  /**
   * One rule checked against a field's value: the default message when it
   * fails, nothing when it passes or is not a rule the validator knows.
   */
  function CheckRule(field: string, value: Value, name: string, param: Option<string>, inp: Inputs): (r: Result<Option<string>>)
    ensures name !in KnownRules ==> r == Ok(None)
    ensures r.Err? ==> (name == "min" || name == "max") && value.Arr?
  {
    var p := param.GetOr("");
    match name
    case "required" => Ok(if Empty(value) then Some(Default(field, "is required")) else None)
    case "email" => Ok(if !inp.filters.email(value) then Some(Default(field, "must be a valid email address")) else None)
    case "integer" => Ok(if !IntTruthy(inp.filters.integer(value)) then Some(Default(field, "must be an integer")) else None)
    case "string" => Ok(if !value.Str? then Some(Default(field, "must be a string")) else None)
    case "min" =>
      (match Strlen(value)
       case Err(e) => Err(e)
       case Ok(n) => Ok(if n < IntVal(p) then Some(Default(field, "must be at least " + p)) else None))
    case "max" =>
      (match Strlen(value)
       case Err(e) => Err(e)
       case Ok(n) => Ok(if n > IntVal(p) then Some(Default(field, "must be at most " + p)) else None))
    case "file" =>
      Ok(if field !in inp.uploads || !inp.uploads[field].ok then Some(Default(field, "must be a valid file")) else None)
    case "mimes" =>
      Ok(if field in inp.uploads && !InArray(inp.uploads[field].ext, Split(p, ","))
         then Some(Default(field, "must be a file of type: " + p)) else None)
    case "max_size" =>
      Ok(if field in inp.uploads && inp.uploads[field].size > IntVal(p) * 1024
         then Some(Default(field, "must not exceed " + p + " KB")) else None)
    case _ => Ok(None)
  }

  /** The rule names the validator acts on. */
  const KnownRules: set<string> := {"required", "email", "integer", "string", "min", "max", "file", "mimes", "max_size"}

  /** `addError`: the custom message for `key` if there is one, else the default, appended to the field's list. */
  function AddError(errs: Errors, messages: map<string, string>, field: string, key: string, default: string): (r: Errors)
    ensures field in r && |r[field]| >= 1
    ensures r[field] == Messages(errs, field) + [if key in messages then messages[key] else default]
    ensures forall k :: k != field ==> (k in r <==> k in errs) && (k in errs ==> r[k] == errs[k])
  {
    errs[field := Messages(errs, field) + [if key in messages then messages[key] else default]]
  }

  /** The messages recorded for a field so far. */
  function Messages(errs: Errors, field: string): (r: seq<string>)
    ensures field in errs ==> r == errs[field]
    ensures field !in errs ==> r == []
  {
    if field in errs then errs[field] else []
  }

  /** The message one rule contributes to its field: none, or the custom or default text. */
  function RuleMessage(field: string, value: Value, rule: string, inp: Inputs): (r: Result<seq<string>>)
    ensures r.Ok? ==> |r.value| <= 1
  {
    var (name, param) := ParseRule(rule);
    match CheckRule(field, value, name, param, inp)
    case Err(e) => Err(e)
    case Ok(None) => Ok([])
    case Ok(Some(d)) =>
      var key := field + "." + name;
      Ok([if key in inp.messages then inp.messages[key] else d])
  }

  /** `applyRule`: check one rule and record its message when it fails. */
  function ApplyRule(errs: Errors, field: string, value: Value, rule: string, inp: Inputs): (r: Result<Errors>)
    ensures r.Ok? <==> RuleMessage(field, value, rule, inp).Ok?
    ensures r.Ok? ==> Messages(r.value, field) == Messages(errs, field) + RuleMessage(field, value, rule, inp).value
    ensures r.Ok? ==> forall k :: k != field ==> (k in r.value <==> k in errs) && (k in errs ==> r.value[k] == errs[k])
    ensures r.Ok? && RuleMessage(field, value, rule, inp).value == [] ==> r.value == errs
  {
    var (name, param) := ParseRule(rule);
    match CheckRule(field, value, name, param, inp)
    case Err(e) => Err(e)
    case Ok(None) => Ok(errs)
    case Ok(Some(d)) => Ok(AddError(errs, inp.messages, field, field + "." + name, d))
  }

  /** The messages a list of rules contributes to one field, in rule order. */
  function FieldMessages(field: string, value: Value, rules: seq<string>, inp: Inputs): (r: Result<seq<string>>)
    ensures r.Ok? ==> |r.value| <= |rules|
    decreases |rules|
  {
    if rules == [] then Ok([])
    else
      match RuleMessage(field, value, rules[0], inp)
      case Err(e) => Err(e)
      case Ok(m) =>
        match FieldMessages(field, value, rules[1..], inp)
        case Err(e) => Err(e)
        case Ok(ms) => Ok(m + ms)
  }

  /** `validate`'s inner loop: the rules of one field, applied in order. */
  function ApplyRules(errs: Errors, field: string, value: Value, rules: seq<string>, inp: Inputs): (r: Result<Errors>)
    ensures r.Ok? ==> errs.Keys <= r.value.Keys <= errs.Keys + {field}
    decreases |rules|
  {
    if rules == [] then Ok(errs)
    else
      match ApplyRule(errs, field, value, rules[0], inp)
      case Err(e) => Err(e)
      case Ok(e1) => ApplyRules(e1, field, value, rules[1..], inp)
  }

  /** The rules of a field run to the end exactly when none of them raises. */
  lemma {:induction false} ApplyRulesOk(errs: Errors, field: string, value: Value, rules: seq<string>, inp: Inputs)
    ensures ApplyRules(errs, field, value, rules, inp).Ok? <==> FieldMessages(field, value, rules, inp).Ok?
    decreases |rules|
  {
    if rules != [] {
      var a := ApplyRule(errs, field, value, rules[0], inp);
      if a.Ok? {
        ApplyRulesOk(a.value, field, value, rules[1..], inp);
      }
    }
  }

  /**
   * Applying a field's rules in order grows the field's messages by exactly
   * the messages of its failing rules, in rule order.
   */
  lemma {:induction false} ApplyRulesMessages(errs: Errors, field: string, value: Value, rules: seq<string>, inp: Inputs)
    requires ApplyRules(errs, field, value, rules, inp).Ok? && FieldMessages(field, value, rules, inp).Ok?
    ensures Messages(ApplyRules(errs, field, value, rules, inp).value, field)
         == Messages(errs, field) + FieldMessages(field, value, rules, inp).value
    decreases |rules|
  {
    if rules != [] {
      var a := ApplyRule(errs, field, value, rules[0], inp).value;
      var m := RuleMessage(field, value, rules[0], inp).value;
      var ms := FieldMessages(field, value, rules[1..], inp).value;
      var total := Messages(ApplyRules(a, field, value, rules[1..], inp).value, field);
      assert Messages(ApplyRules(errs, field, value, rules, inp).value, field) == total by {
        assert ApplyRules(errs, field, value, rules, inp) == ApplyRules(a, field, value, rules[1..], inp);
      }
      assert FieldMessages(field, value, rules, inp).value == m + ms by {
        assert FieldMessages(field, value, rules, inp) == Ok(m + ms);
      }
      assert total == Messages(a, field) + ms by {
        ApplyRulesMessages(a, field, value, rules[1..], inp);
      }
      assert Messages(a, field) == Messages(errs, field) + m;
      assert Messages(errs, field) + m + ms == Messages(errs, field) + (m + ms);
    }
  }

  /** Applying a field's rules changes no other field. */
  lemma {:induction false} ApplyRulesOthers(errs: Errors, field: string, value: Value, rules: seq<string>, inp: Inputs, k: string)
    requires ApplyRules(errs, field, value, rules, inp).Ok? && k != field
    ensures var r := ApplyRules(errs, field, value, rules, inp).value;
      (k in r <==> k in errs) && (k in errs ==> r[k] == errs[k])
    decreases |rules|
  {
    if rules != [] {
      var a := ApplyRule(errs, field, value, rules[0], inp).value;
      ApplyRulesOthers(a, field, value, rules[1..], inp, k);
    }
  }

  /** A field whose rules all pass leaves the errors exactly as they were. */
  lemma {:induction false} ApplyRulesQuiet(errs: Errors, field: string, value: Value, rules: seq<string>, inp: Inputs)
    requires FieldMessages(field, value, rules, inp) == Ok([])
    ensures ApplyRules(errs, field, value, rules, inp) == Ok(errs)
    decreases |rules|
  {
    if rules != [] {
      var m := RuleMessage(field, value, rules[0], inp);
      var ms := FieldMessages(field, value, rules[1..], inp);
      assert m.Ok? && ms.Ok? && m.value + ms.value == [];
      assert |m.value + ms.value| == |m.value| + |ms.value|;
      ApplyRulesQuiet(errs, field, value, rules[1..], inp);
    }
  }

  /** `validate` over the fields from `i` on, in the order the rules list them. */
  function ValidateFrom(errs: Errors, rules: seq<(string, string)>, i: nat, inp: Inputs): (r: Result<Errors>)
    requires i <= |rules|
    ensures r.Ok? ==> errs.Keys <= r.value.Keys <= errs.Keys + FieldsFrom(rules, i)
    decreases |rules| - i
  {
    if i == |rules| then Ok(errs)
    else
      var (field, list) := rules[i];
      match ApplyRules(errs, field, Get(inp.data, field), Split(list, "|"), inp)
      case Err(e) => Err(e)
      case Ok(e1) => ValidateFrom(e1, rules, i + 1, inp)
  }

  /** The fields the rules name from `i` on. */
  function FieldsFrom(rules: seq<(string, string)>, i: nat): set<string>
    requires i <= |rules|
    decreases |rules| - i
  {
    if i == |rules| then {} else {rules[i].0} + FieldsFrom(rules, i + 1)
  }

  /** `validate`: every field's rules, fields in order, from no errors; only fields with rules get messages. */
  function Validate(rules: seq<(string, string)>, inp: Inputs): (r: Result<Errors>)
    ensures r.Ok? ==> r.value.Keys <= FieldsFrom(rules, 0)
  {
    ValidateFrom(map[], rules, 0, inp)
  }

  /** Some rule of the fields from `i` on fails. */
  predicate SomeFailsFrom(rules: seq<(string, string)>, i: nat, inp: Inputs)
    requires i <= |rules|
  {
    exists j :: i <= j < |rules| &&
      var ms := FieldMessages(rules[j].0, Get(inp.data, rules[j].0), Split(rules[j].1, "|"), inp);
      ms.Ok? && ms.value != []
  }

  /** `fails()`: at least one field has messages recorded. */
  predicate Fails(errs: Errors)
    ensures Fails(errs) <==> exists f :: f in errs
  {
    errs != map[]
  }

  /** One field's rules leave errors behind exactly when there were some or one of them fails. */
  lemma {:induction false} FieldFails(errs: Errors, field: string, value: Value, rules: seq<string>, inp: Inputs)
    requires ApplyRules(errs, field, value, rules, inp).Ok?
    ensures Fails(ApplyRules(errs, field, value, rules, inp).value) <==>
            Fails(errs) || FieldMessages(field, value, rules, inp) != Ok([])
  {
    ApplyRulesOk(errs, field, value, rules, inp);
    ApplyRulesMessages(errs, field, value, rules, inp);
    var e1 := ApplyRules(errs, field, value, rules, inp).value;
    var ms := FieldMessages(field, value, rules, inp).value;
    if ms != [] {
      assert field in e1;
    } else {
      ApplyRulesQuiet(errs, field, value, rules, inp);
    }
  }

  /** Some rule of the fields from `i` fails exactly when one of field `i` or of the later ones does. */
  lemma SomeFailsStep(rules: seq<(string, string)>, i: nat, inp: Inputs)
    requires i < |rules|
    ensures var ms := FieldMessages(rules[i].0, Get(inp.data, rules[i].0), Split(rules[i].1, "|"), inp);
      SomeFailsFrom(rules, i, inp) <==> (ms.Ok? && ms.value != []) || SomeFailsFrom(rules, i + 1, inp)
  {
  }

  /**
   * A run over the fields from `i` ends with errors exactly when it started
   * with some or one of its rules fails.
   */
  lemma {:induction false} ValidateFromFails(errs: Errors, rules: seq<(string, string)>, i: nat, inp: Inputs)
    requires i <= |rules| && ValidateFrom(errs, rules, i, inp).Ok?
    ensures Fails(ValidateFrom(errs, rules, i, inp).value) <==> Fails(errs) || SomeFailsFrom(rules, i, inp)
    decreases |rules| - i
  {
    if i < |rules| {
      var (field, list) := rules[i];
      var e1 := ApplyRules(errs, field, Get(inp.data, field), Split(list, "|"), inp).value;
      FieldFails(errs, field, Get(inp.data, field), Split(list, "|"), inp);
      ValidateFromFails(e1, rules, i + 1, inp);
      SomeFailsStep(rules, i, inp);
      ApplyRulesOk(errs, field, Get(inp.data, field), Split(list, "|"), inp);
    }
  }

  /** `fails()` after validation is true exactly when some rule of some field failed. */
  lemma {:induction false} ValidateFails(rules: seq<(string, string)>, inp: Inputs)
    requires Validate(rules, inp).Ok?
    ensures Fails(Validate(rules, inp).value) <==> SomeFailsFrom(rules, 0, inp)
  {
    ValidateFromFails(map[], rules, 0, inp);
  }

  /** A rule name the validator does not know never adds an error. */
  lemma UnknownRuleSilent(errs: Errors, field: string, value: Value, rule: string, inp: Inputs)
    requires ParseRule(rule).0 !in KnownRules
    ensures ApplyRule(errs, field, value, rule, inp) == Ok(errs)
  {
  }

  /** `min:n` fails exactly when the string is shorter than `n`. */
  lemma MinRule(field: string, t: string, n: string, inp: Inputs)
    ensures CheckRule(field, Str(t), "min", Some(n), inp).Ok?
    ensures CheckRule(field, Str(t), "min", Some(n), inp).value.Some? <==> |t| < IntVal(n)
  {
  }

  /** `max:n` fails exactly when the string is longer than `n`. */
  lemma MaxRule(field: string, t: string, n: string, inp: Inputs)
    ensures CheckRule(field, Str(t), "max", Some(n), inp).Ok?
    ensures CheckRule(field, Str(t), "max", Some(n), inp).value.Some? <==> |t| > IntVal(n)
  {
  }

  /** `required` fails exactly on what `empty()` accepts: null, `""`, `"0"` and the empty list. */
  lemma RequiredRule(field: string, value: Value, param: Option<string>, inp: Inputs)
    ensures var c := CheckRule(field, value, "required", param, inp);
      c.Ok? && (c.value.Some? <==> value in {Null, Str(""), Str("0"), Arr([])})
      && (c.value.Some? ==> c.value.value == Default(field, "is required"))
  {
  }

  /** `email` fails exactly when the e-mail filter rejects the value. */
  lemma EmailRule(field: string, value: Value, param: Option<string>, inp: Inputs)
    ensures var c := CheckRule(field, value, "email", param, inp);
      c.Ok? && (c.value.Some? <==> !inp.filters.email(value))
      && (c.value.Some? ==> c.value.value == Default(field, "must be a valid email address"))
  {
  }

  /**
   * `integer` fails exactly when the integer filter rejects the value or
   * returns 0: `!filter_var(...)` is also true of the int 0 that `"0"`,
   * `"+0"` and `"-0"` give.
   */
  lemma IntegerRule(field: string, value: Value, param: Option<string>, inp: Inputs)
    ensures var c := CheckRule(field, value, "integer", param, inp);
      c.Ok? && (c.value.Some? <==> inp.filters.integer(value) == None || inp.filters.integer(value) == Some(0))
      && (c.value.Some? ==> c.value.value == Default(field, "must be an integer"))
  {
  }

  /** `string` fails exactly on null and on an array. */
  lemma StringRule(field: string, value: Value, param: Option<string>, inp: Inputs)
    ensures var c := CheckRule(field, value, "string", param, inp);
      c.Ok? && (c.value.Some? <==> value.Null? || value.Arr?)
      && (c.value.Some? ==> c.value.value == Default(field, "must be a string"))
  {
  }

  /** `min` and `max` on an array raise the `strlen` type error instead of checking anything. */
  lemma LengthRuleOnArray(field: string, items: seq<Item>, name: string, param: Option<string>, inp: Inputs)
    requires name == "min" || name == "max"
    ensures CheckRule(field, Arr(items), name, param, inp).Err?
  {
  }

  /** `file` fails exactly when no upload is listed for the field or it carries an upload error. */
  lemma FileRule(field: string, value: Value, param: Option<string>, inp: Inputs)
    ensures var c := CheckRule(field, value, "file", param, inp);
      c.Ok? && (c.value.Some? <==> field !in inp.uploads || !inp.uploads[field].ok)
      && (c.value.Some? ==> c.value.value == Default(field, "must be a valid file"))
  {
  }

  /**
   * `mimes:a,b` fails exactly when an upload is listed and its extension is
   * loosely equal to none of the comma-separated ones (`in_array` without
   * its strict flag); without a parameter the only allowed extension is the
   * empty one.
   */
  lemma MimesRule(field: string, value: Value, param: Option<string>, inp: Inputs)
    ensures var c := CheckRule(field, value, "mimes", param, inp);
      var p := if param.Some? then param.value else "";
      c.Ok? && (c.value.Some? <==> field in inp.uploads && !InArray(inp.uploads[field].ext, Split(p, ",")))
      && (c.value.Some? ==> c.value.value == Default(field, "must be a file of type: " + p))
  {
  }

  /** An extension that is not a numeric string must be one of the listed ones exactly. */
  lemma {:induction false} MimesExact(field: string, value: Value, param: Option<string>, inp: Inputs)
    requires field in inp.uploads && !IntegerNumeric(inp.uploads[field].ext)
    ensures var c := CheckRule(field, value, "mimes", param, inp);
      var p := if param.Some? then param.value else "";
      c.Ok? && (c.value.Some? <==> inp.uploads[field].ext !in Split(p, ","))
  {
    var p := if param.Some? then param.value else "";
    InArrayExact(inp.uploads[field].ext, Split(p, ","));
  }

  /**
   * A numeric extension passes when it equals a listed one as a number:
   * `backup.001` is accepted by `mimes:1`.
   */
  lemma {:induction false} MimesLeadingZero(field: string, value: Value, d: string, inp: Inputs)
    requires d != [] && forall i :: 0 <= i < |d| ==> IsDigit(d[i])
    requires field in inp.uploads && inp.uploads[field].ext == "0" + d
    ensures CheckRule(field, value, "mimes", Some(d), inp) == Ok(None)
  {
    assert InArray("0" + d, Split(d, ",")) by {
      assert ',' !in d;
      NoLeadAbsent(d, ",");
      assert Split(d, ",") == [d];
      LeadingZeroLoose(d);
      assert LooseEquals("0" + d, Split(d, ",")[0]);
    }
    MimesRule(field, value, Some(d), inp);
  }

  /** `max_size:n` fails exactly when an upload is listed and is larger than `n` kilobytes. */
  lemma MaxSizeRule(field: string, value: Value, n: string, inp: Inputs)
    ensures var c := CheckRule(field, value, "max_size", Some(n), inp);
      c.Ok? && (c.value.Some? <==> field in inp.uploads && inp.uploads[field].size > IntVal(n) * 1024)
      && (c.value.Some? ==> c.value.value == Default(field, "must not exceed " + n + " KB"))
  {
  }

  /** A custom message for `field.rule` replaces the default one. */
  lemma CustomMessage(field: string, value: Value, rule: string, inp: Inputs)
    requires var (name, param) := ParseRule(rule);
      var c := CheckRule(field, value, name, param, inp);
      c.Ok? && c.value.Some? && field + "." + name in inp.messages
    ensures RuleMessage(field, value, rule, inp) == Ok([inp.messages[field + "." + ParseRule(rule).0]])
  {
  }

  /** The session keeps its previous errors unless this run produced some. */
  function StoreErrors(session: Errors, errs: Errors): (r: Errors)
    ensures Fails(errs) ==> r == errs
    ensures !Fails(errs) ==> r == session
  {
    if errs != map[] then errs else session
  }

  /** `getError`: the first message recorded for the field, if any; the session is not changed. */
  function GetError(session: Errors, field: string): (r: Option<string>)
    ensures r.Some? <==> field in session && |session[field]| > 0
    ensures r.Some? ==> r.value == session[field][0]
  {
    if field in session && |session[field]| > 0 then Some(session[field][0]) else None
  }

  /** `forget`: all errors are cleared. */
  function Forget(session: Errors): (r: Errors)
    ensures forall f :: GetError(r, f).None?
  {
    map[]
  }

  /** After a failing run, `getError` hands out the first message of the first failing rule of the field. */
  lemma ErrorAfterValidate(session: Errors, errs: Errors, field: string)
    requires field in errs && |errs[field]| > 0
    ensures GetError(StoreErrors(session, errs), field) == Some(errs[field][0])
  {
  }
}

=== FILE: view.dfy ===
/**
 * `View`: a page is rendered from its template file with the directive
 * pipeline, optionally wrapped in a layout whose `{{slot}}` receives the
 * rendered content.  A view object keeps the data, the rendered content
 * (`null` until a render) and the layout name.
 */
module View {
  import opened Wrappers
  import opened Strings
  import opened Context
  import opened Syntax
  import opened Flash
  import opened Engine
  import opened Stages

  /** The state of a view object: its data, its rendered content, its layout name. */
  datatype Page = Page(data: Data, content: Option<string>, layout: Option<string>)

  /** A render that finished, with the page and the flash store it left, or one nested too deep. */
  datatype Shown = Shown(page: Page, store: Store) | TooDeep

  /** What `layout` does: print the processed layout, return an error fragment, or nest too deep. */
  datatype LayoutOut = Echoed(text: string, store: Store) | Returned(text: string) | LayoutTooDeep

  /** The placeholder a layout holds for the content. */
  const Slot: string := "{{slot}}"

  /** `<viewPath><name>.html`; layouts live in the same directory. */
  function ViewPath(site: Site, name: string): (r: string)
    ensures site.viewDir <= r && |r| == |site.viewDir| + |name| + 5
    ensures r[|site.viewDir|..|site.viewDir| + |name|] == name && r[|site.viewDir| + |name|..] == ".html"
  {
    var r := site.viewDir + name + ".html";
    assert r[|site.viewDir|..|site.viewDir| + |name|] == name;
    r
  }

  /** Different view names never share a file. */
  lemma {:induction false} ViewPathInjective(site: Site, a: string, b: string)
    requires ViewPath(site, a) == ViewPath(site, b)
    ensures a == b
  {
    var n := |site.viewDir|;
    assert |a| == |b|;
    assert a == ViewPath(site, a)[n..n + |a|];
  }

  /** `loadTemplate`: the file's text, or the error fragment instead of an exception. */
  function LoadTemplate(site: Site, name: string): (r: string)
    ensures ViewPath(site, name) in site.files ==> r == site.files[ViewPath(site, name)]
    ensures ViewPath(site, name) !in site.files ==>
      r == site.fragment("View '" + name + "' not found at path: " + ViewPath(site, name))
  {
    var path := ViewPath(site, name);
    if path in site.files then site.files[path]
    else site.fragment("View '" + name + "' not found at path: " + path)
  }

  /**
   * `renderLayout`: the layout template with every `{{slot}}` replaced by the
   * content, that is, the template cut at its slots and glued back with the
   * content in between.
   */
  function RenderLayout(site: Site, layout: string, content: string): (r: string)
    ensures r == Join(Split(LoadTemplate(site, layout), Slot), content)
  {
    ReplaceAllIsJoinSplit(LoadTemplate(site, layout), Slot, content);
    ReplaceAll(LoadTemplate(site, layout), Slot, content)
  }

  /** `if ($this->layout)`: a layout name that is set and is neither `""` nor `"0"`. */
  predicate HasLayout(page: Page) {
    page.layout.Some? && Truthy(page.layout.value)
  }

  /**
   * `render`: the data is stored, the template is processed with it and,
   * when a layout is set, wrapped in it without a second pass; the result
   * becomes the content and the layout name is kept.
   */
  function Render(fuel: nat, site: Site, page: Page, name: string, d: Data, st: Store): (r: Shown)
    ensures r.Shown? ==> r.page.data == d && r.page.layout == page.layout && r.page.content.Some?
    ensures r.Shown? ==> r.store.Keys <= st.Keys
    ensures r.TooDeep? <==> Process(fuel, site, LoadTemplate(site, name), d, st).Exhausted?
  {
    match Process(fuel, site, LoadTemplate(site, name), d, st)
    case Exhausted => TooDeep
    case Done(text, st1) =>
      var content := if HasLayout(page) then RenderLayout(site, page.layout.value, text) else text;
      Shown(Page(d, Some(content), page.layout), st1)
  }

  /** `$this->content ?? ''`. */
  function Content(page: Page): (r: string)
    ensures page.content.None? ==> r == ""
    ensures page.content.Some? ==> r == page.content.value
  {
    match page.content
    case None => ""
    case Some(c) => c
  }

  /**
   * `layout`: a missing layout returns its error fragment and prints nothing;
   * otherwise the slot is filled with the content first and the whole
   * combined text then runs through the pipeline with the page's data.
   */
  function Layout(fuel: nat, site: Site, page: Page, name: string, st: Store): (r: LayoutOut)
    ensures ViewPath(site, name) !in site.files ==>
      r == Returned(site.fragment("Layout '" + name + "' not found at path: " + ViewPath(site, name)))
    ensures r.Echoed? ==> r.store.Keys <= st.Keys
  {
    var path := ViewPath(site, name);
    if path !in site.files then Returned(site.fragment("Layout '" + name + "' not found at path: " + path))
    else
      var combined := ReplaceAll(site.files[path], Slot, Content(page));
      match Process(fuel, site, combined, page.data, st)
      case Exhausted => LayoutTooDeep
      case Done(text, st1) => Echoed(text, st1)
  }

  /** `{{slot}}` cannot overlap itself, so its occurrences are found one after another. */
  lemma {:induction false} SlotUnbordered()
    ensures Unbordered(Slot)
  {
    forall m | 0 < m < |Slot|
      ensures !Border(Slot, m)
    {
      if m == 1 {
        assert Slot[1..][1] != Slot[..7][1];
      } else {
        assert Slot[m..][0] != Slot[..|Slot| - m][0];
      }
    }
  }

  /** Every slot of a layout receives the content, and the text between the slots is kept. */
  lemma {:induction false} SlotFilled(parts: seq<string>, content: string)
    requires |parts| > 0 && forall i :: 0 <= i < |parts| ==> Absent(parts[i], Slot)
    ensures ReplaceAll(Join(parts, Slot), Slot, content) == Join(parts, content)
  {
    SlotUnbordered();
    ReplaceInJoin(parts, Slot, content);
  }

  /** A layout without a slot is used as it is. */
  lemma NoSlot(site: Site, layout: string, content: string)
    requires Absent(LoadTemplate(site, layout), Slot)
    ensures RenderLayout(site, layout, content) == LoadTemplate(site, layout)
  {
  }

  /** `layout` treats a page never rendered as empty content. */
  lemma UnrenderedIsEmpty(fuel: nat, site: Site, page: Page, name: string, st: Store)
    requires page.content.None?
    ensures Layout(fuel, site, page, name, st) == Layout(fuel, site, page.(content := Some("")), name, st)
  {
  }

  /** Directive-free text stays directive-free when glued together. */
  lemma {:induction false} PlainJoin(a: string, c: string, b: string)
    requires NoAt(a) && NoAt(c) && NoAt(b) && NoBrace(a) && NoBrace(c) && NoBrace(b)
    ensures NoAt(a + c + b) && NoBrace(a + c + b)
  {
    var s := a + c + b;
    forall k | 0 <= k < |s|
      ensures s[k] != '@' && s[k] != '{'
    {
      if k < |a| {
        assert s[k] == a[k];
      } else if k < |a| + |c| {
        assert s[k] == c[k - |a|];
      } else {
        assert s[k] == b[k - |a| - |c|];
      }
    }
  }

  /**
   * A layout with one slot between directive-free text, around directive-free
   * content, prints that text with the content in place of the slot.
   */
  lemma {:induction false} LayoutOneSlot(fuel: nat, site: Site, page: Page, name: string, a: string, b: string, st: Store)
    requires ViewPath(site, name) in site.files && site.files[ViewPath(site, name)] == a + Slot + b
    requires Absent(a, Slot) && Absent(b, Slot)
    requires NoAt(a) && NoAt(b) && NoBrace(a) && NoBrace(b)
    requires NoAt(Content(page)) && NoBrace(Content(page))
    ensures Layout(fuel, site, page, name, st) == Echoed(a + Content(page) + b, st)
  {
    var c := Content(page);
    assert Join([a, b], Slot) == a + Slot + b by {
      assert [a, b][1..] == [b];
    }
    assert Join([a, b], c) == a + c + b by {
      assert [a, b][1..] == [b];
    }
    SlotFilled([a, b], c);
    PlainJoin(a, c, b);
    PlainText(fuel, site, a + c + b, page.data, st);
  }

  /** A placeholder holds no slot: its only `{{` is followed by a space. */
  lemma {:induction false} TokenHoldsNoSlot(x: string)
    requires IsWord(x)
    ensures Absent(VarToken(x), Slot)
  {
    var t := VarToken(x);
    assert t[2] == ' ';
    forall k | 0 <= k
      ensures !At(t, Slot, k)
    {
      if k + |Slot| <= |t| {
        var w := t[k..k + |Slot|];
        assert w[0] == t[k] && w[1] == t[k + 1] && w[2] == t[k + 2];
        if 3 <= k < 3 + |x| {
          assert t[k] == x[k - 3];
        }
      }
    }
  }

  /** A layout made of a placeholder and then the slot. */
  function TokenThenSlot(x: string): string {
    VarToken(x) + Slot
  }

  /** Filling the slot of `TokenThenSlot(x)` puts the content after the placeholder. */
  lemma {:induction false} TokenThenSlotFilled(x: string, c: string)
    requires IsWord(x)
    ensures ReplaceAll(TokenThenSlot(x), Slot, c) == VarToken(x) + c
  {
    assert Join([VarToken(x), ""], Slot) == TokenThenSlot(x) by {
      assert [VarToken(x), ""][1..] == [""];
    }
    assert Join([VarToken(x), ""], c) == VarToken(x) + c by {
      assert [VarToken(x), ""][1..] == [""];
    }
    TokenHoldsNoSlot(x);
    assert Absent("", Slot);
    SlotFilled([VarToken(x), ""], c);
  }

  /**
   * `render` does not process the layout: with the layout `{{ x }}{{slot}}`
   * and a directive-free template, the content keeps the placeholder as it
   * is, in front of the template's text.
   */
  lemma {:induction false} RenderKeepsToken(fuel: nat, site: Site, page: Page, name: string, d: Data, st: Store, x: string, t: string)
    requires IsWord(x) && HasLayout(page)
    requires ViewPath(site, page.layout.value) in site.files && site.files[ViewPath(site, page.layout.value)] == TokenThenSlot(x)
    requires ViewPath(site, name) in site.files && site.files[ViewPath(site, name)] == t
    requires NoAt(t) && NoBrace(t)
    ensures Render(fuel, site, page, name, d, st) == Shown(Page(d, Some(VarToken(x) + t), page.layout), st)
  {
    PlainText(fuel, site, t, d, st);
    TokenThenSlotFilled(x, t);
  }

  /**
   * `layout` runs the combined text through the pipeline a second time: with
   * the layout `{{ x }}{{slot}}`, the placeholder becomes the page's value
   * for `x` in front of the content.
   */
  lemma {:induction false} LayoutSecondPass(fuel: nat, site: Site, page: Page, name: string, st: Store, x: string, v: string)
    requires IsWord(x) && x in page.data && page.data[x] == Str(v) && NoAt(v)
    requires ViewPath(site, name) in site.files && site.files[ViewPath(site, name)] == TokenThenSlot(x)
    requires NoAt(Content(page)) && NoBrace(Content(page))
    ensures Layout(fuel, site, page, name, st) == Echoed(v + Content(page), st)
  {
    var c := Content(page);
    TokenThenSlotFilled(x, c);
    TokenFilled(x, c, page.data, v);
    VariablesOnly(fuel, site, VarToken(x) + c, page.data, st);
  }

  /** A placeholder holds no `@`. */
  lemma {:induction false} TokenNoAt(x: string)
    requires IsWord(x)
    ensures NoAt(VarToken(x))
  {
    var t := VarToken(x);
    forall k | 0 <= k < |t|
      ensures t[k] != '@'
    {
      if 3 <= k < 3 + |x| {
        assert t[k] == x[k - 3];
      }
    }
  }

  /** Two texts without `@` glued together hold none. */
  lemma {:induction false} PlainAfter(a: string, b: string)
    requires NoAt(a) && NoAt(b)
    ensures NoAt(a + b)
  {
    forall k | 0 <= k < |a + b|
      ensures (a + b)[k] != '@'
    {
      if k < |a| {
        assert (a + b)[k] == a[k];
      } else {
        assert (a + b)[k] == b[k - |a|];
      }
    }
  }

  /**
   * `render` then `layout` with the same layout `{{ x }}{{slot}}`: the first
   * pass leaves the placeholder in the content, the second fills it along
   * with the layout's own, so the value appears twice.
   */
  lemma {:induction false} RenderThenLayout(fuel: nat, site: Site, page: Page, name: string, d: Data, st: Store, x: string, t: string, v: string)
    requires IsWord(x) && HasLayout(page) && x in d && d[x] == Str(v) && NoAt(v)
    requires ViewPath(site, page.layout.value) in site.files && site.files[ViewPath(site, page.layout.value)] == TokenThenSlot(x)
    requires ViewPath(site, name) in site.files && site.files[ViewPath(site, name)] == t
    requires NoAt(t) && NoBrace(t)
    ensures var shown := Render(fuel, site, page, name, d, st);
      Layout(fuel, site, shown.page, page.layout.value, st) == Echoed(v + v + t, st)
  {
    RenderKeepsToken(fuel, site, page, name, d, st, x, t);
    var c := VarToken(x) + t;
    TokenThenSlotFilled(x, c);
    TokenFilled(x, t, d, v);
    TokenNoAt(x);
    PlainAfter(VarToken(x), t);
    TokenFilled(x, c, d, v);
    assert v + (v + t) == v + v + t;
    VariablesOnly(fuel, site, VarToken(x) + c, d, st);
  }

  /**
   * A placeholder in front of text with no directive left after filling:
   * the value takes its place and the whole holds no `@`.
   */
  lemma {:induction false} TokenFilled(x: string, c: string, d: Data, v: string)
    requires IsWord(x) && x in d && d[x] == Str(v) && NoAt(v) && NoAt(c)
    requires NoAt(ProcessVariables(c, d))
    ensures ProcessVariables(VarToken(x) + c, d) == v + ProcessVariables(c, d)
    ensures NoAt(VarToken(x) + c) && NoAt(v + ProcessVariables(c, d))
  {
    VariableToken([], x, c, d);
    assert [] + VarToken(x) + c == VarToken(x) + c;
    TokenNoAt(x);
    PlainAfter(VarToken(x), c);
    PlainAfter(v, ProcessVariables(c, d));
  }
}

=== FILE: wrappers.dfy ===
/** Failure-carrying result types shared by every module of the model. */
module Wrappers {

  /** A value that may be absent; stands for PHP's `null`. */
  datatype Option<+T> = None | Some(value: T) {

    /** The value, or `default` when absent (PHP's `$x ?? $default`). */
    function GetOr(default: T): T {
      match this
      case Some(v) => v
      case None => default
    }
  }

  /** The outcome of an operation that the source ends by throwing. */
  datatype Result<+T> = Ok(value: T) | Err(message: string)
}
